=== FILE: README.md ===
# Kingdoms War: the kingdom decision core in Dafny

This project models the decision logic of the Kingdoms War Minecraft mod. A
kingdom is a square territory around a castle. Guards and knights defend it.
It earns points from kills and passive income, and spends them on recruits
and on growing the territory. The model covers these parts of the mod:

- the territory economy (`KingdomTerritory`);
- the strategic AI (`KingdomAI`) and the surface threat scanner (`TerritoryScanner`);
- the revenge memory for players who kill warriors (`RevengeSystem`);
- passive income (`TerritoryIncomeSystem`);
- a warrior's own target choice (`SmartTargetGoal`);
- the death-event handler (`KingdomEventHandler`);
- the per-dimension registry of kingdoms (`KingdomManager`).

Every operation is a pure function over immutable values. Anything the mod
asks of the world is an input: the mobs and warriors returned by a box query,
the players online, a spawn point found or not, and the game time. Where the
mod mutates a unit, the model returns the updated unit.

Modules, one per source component:

| file | module | source component |
|---|---|---|
| common.dfy | `Common` | positions, units, mobs, Java integer division and truncation |
| seqs.dfy | `Seqs` | stable insertion sort, filter, index-list and first-match helpers with their lemmas |
| territory.dfy | `Territory` | `KingdomTerritory` |
| income.dfy | `Income` | `TerritoryIncomeSystem` |
| ai.dfy | `KingdomAI` | `KingdomAI` |
| scanner.dfy | `Scanner` | `TerritoryScanner` |
| revenge.dfy | `Revenge` | `RevengeSystem` |
| smarttarget.dfy | `SmartTarget` | `SmartTargetGoal` |
| events.dfy | `Events` | `KingdomEventHandler` |
| manager.dfy | `Manager` | `KingdomManager` |

Behaviours of the code as written that the model keeps and exposes. None of
these breaks an evident intention, so they are not findings:

- Expansion is gated on `cost + 250` points for the current radius. The
  charge is then computed for the grown radius, which is 20 more. The smallest
  admitted balance is left with 230 points, below the 250-point reserve
  (`Territory.ExpandDipsBelowReserve`).
- A death within 30 blocks of the castle sends `max(3, n/2)` free troops. A
  death between 30 and 60 blocks sends `min(5, n)`. With eight free troops the
  closer death sends four and the farther one five
  (`Events.CloseDeathCanSendFewer`).
- When a player kills a warrior, the revenge alarm first turns every live
  warrior of the territory on that player. The reinforcement query then finds
  nobody free, so the alarm is all that happens to the warriors
  (`Events.PlayerKillLeavesNoneFree`).
- The mod reports a warrior's death to the revenge system from two handlers.
  Reporting it twice has the same effect as reporting it once
  (`Revenge.KilledTwiceIsKilledOnce`).
- The expansion advice (`shouldExpand`: at peace, more than 300 points, at
  least three knights) is weaker than the gate that actually expands
  (`KingdomAI.AdviceIsWeakerThanGate`).

Source paths below are relative to the repository root.

## Model

| member | source | states |
|---|---|---|
| Territory.ChunkOf | src/main/java/com/vladisss/kingdomswar/kingdom/KingdomTerritory.java:431-441 | a block lies inside the 16-block chunk computed for it, with floor division for negative coordinates |
| Territory.ControlledChunksSquare | src/main/java/com/vladisss/kingdomswar/kingdom/KingdomTerritory.java:431-441 | the controlled chunks are exactly those within `radius/16` chunks of the center chunk on both axes, `(2k+1)^2` of them |
| Territory.ControlledChunksIdempotent | src/main/java/com/vladisss/kingdomswar/kingdom/KingdomTerritory.java:431-441 | recomputing the chunk set a second time changes nothing |
| Territory.ControlledChunksGrow | src/main/java/com/vladisss/kingdomswar/kingdom/KingdomTerritory.java:431-441 | a larger radius controls every chunk a smaller one does |
| Territory.AddLog | src/main/java/com/vladisss/kingdomswar/kingdom/KingdomTerritory.java:79-84 | the log ends with the new entry and grows by one until it holds 50 entries, after which its length stays at 50 |
| Territory.AddLogIsNewest | src/main/java/com/vladisss/kingdomswar/kingdom/KingdomTerritory.java:79-84 | appending to a log of at most 50 entries leaves exactly the newest 50 entries, so only the oldest one is dropped |
| Territory.AddLogsKeepsNewest | src/main/java/com/vladisss/kingdomswar/kingdom/KingdomTerritory.java:79-84 | any run of appends leaves exactly the newest 50 entries of everything logged, in order |
| Territory.New | src/main/java/com/vladisss/kingdomswar/kingdom/KingdomTerritory.java:61-71 | a new kingdom has radius 50, no points, no reserve, an empty log and a consistent set of 49 chunks |
| Territory.AddPoints | src/main/java/com/vladisss/kingdomswar/kingdom/KingdomTerritory.java:72-76 | the balance changes by the amount, the gain is logged, and nothing else changes |
| Territory.RequiredTroops | src/main/java/com/vladisss/kingdomswar/kingdom/KingdomTerritory.java:182-184 | the troop requirement is one per ten blocks of radius, rounded down, and never below ten |
| Territory.Expand | src/main/java/com/vladisss/kingdomswar/kingdom/KingdomTerritory.java:87-108 | without the troops or the `cost + 250` points nothing changes; otherwise the radius grows by 10, the charge is the cost of the grown radius, the chunks match the new radius and the balance stays at least 230 |
| Territory.ExpandDipsBelowReserve | src/main/java/com/vladisss/kingdomswar/kingdom/KingdomTerritory.java:97-103 | the smallest balance the gate admits at radius 50 (450 points) is left with 230 after expanding |
| Territory.ExpandKeepsMembers | src/main/java/com/vladisss/kingdomswar/kingdom/KingdomTerritory.java:443-445 | expansion never drops a position or a chunk from the territory |
| Territory.RecruitGuard | src/main/java/com/vladisss/kingdomswar/kingdom/KingdomTerritory.java:312-333 | without a spawn point nothing happens; with one, a guard posted at its spawn is placed and exactly 50 points are charged and logged |
| Territory.RecruitKnight | src/main/java/com/vladisss/kingdomswar/kingdom/KingdomTerritory.java:336-358 | without a spawn point nothing happens; with one, a knight patrolling the castle within 15 blocks is placed and 70 points are charged, whatever the balance |
| Territory.RecruitmentChoice | src/main/java/com/vladisss/kingdomswar/kingdom/KingdomTerritory.java:231-273 | a reserve knight is bought exactly when 50 troops are active, the reserve does not cover the requirement and 320 points are available; each active hire needs its cost plus the 250 reserve |
| Territory.CheckRecruitment | src/main/java/com/vladisss/kingdomswar/kingdom/KingdomTerritory.java:231-273 | the reserve grows by one only when buying into it, every charge leaves at least 250 points, a unit appears only below 50 active troops, and the territory shape never changes |
| Territory.CheckReinforcementsAsWritten | src/main/java/com/vladisss/kingdomswar/kingdom/KingdomTerritory.java:276-287 | as the code is written, when the reserve is due, the counter drops whether or not a knight appears, and a knight that appears is charged 70 points again |
| Territory.ReinforcementLosesReserveAndOvercharges | src/main/java/com/vladisss/kingdomswar/kingdom/KingdomTerritory.java:276-287 | a failed spawn consumes the only reserve knight, and a successful one drives a zero balance to -70 |
| Territory.CheckReinforcements | src/main/java/com/vladisss/kingdomswar/kingdom/KingdomTerritory.java:276-287 | corrected: deploying a paid-for reserve knight costs nothing, and the counter drops exactly when the deployment is due and a knight appears |
| Territory.Load | src/main/java/com/vladisss/kingdomswar/kingdom/KingdomTerritory.java:482-502 | a loaded kingdom always has the chunk set of its radius |
| Territory.SaveLoadRoundTrip | src/main/java/com/vladisss/kingdomswar/kingdom/KingdomTerritory.java:461-502 | saving then loading keeps name, center, radius, points, reserve and log, and gives back the kingdom itself when its chunks were consistent |
| Territory.TickPlan | src/main/java/com/vladisss/kingdomswar/kingdom/KingdomTerritory.java:186-224 | every tick handles returning players and income first; the AI, recruitment and reserve steps run exactly when their timers are due, and each due timer is reset to now |
| Territory.TickPlanInOrder | src/main/java/com/vladisss/kingdomswar/kingdom/KingdomTerritory.java:186-224 | the steps that run keep the fixed order of `tick`: each ranks after the one before it |
| Territory.FiringsCadence | src/main/java/com/vladisss/kingdomswar/kingdom/KingdomTerritory.java:186-224 | with one call per tick, a timer of interval `n` fires first when it falls due and then once every `n` ticks |
| Income.IncomeFor | src/main/java/com/vladisss/kingdomswar/kingdom/TerritoryIncomeSystem.java:40-56 | a payout is one point per full 50 blocks of radius |
| Income.ApplyIncome | src/main/java/com/vladisss/kingdomswar/kingdom/TerritoryIncomeSystem.java:40-56 | points rise by the income when it is positive, through the logged `addPoints`; below radius 50 nothing changes; the territory shape is never touched |
| Income.Tick | src/main/java/com/vladisss/kingdomswar/kingdom/TerritoryIncomeSystem.java:28-35 | the counter stays in `[0, 1200)`, and income is applied exactly on the tick where the counter reaches 1200 |
| Income.IncomePerMinuteIsApplied | src/main/java/com/vladisss/kingdomswar/kingdom/TerritoryIncomeSystem.java:61-63 | a payout adds the displayed income per minute when it is positive and nothing otherwise, so for any radius that is not negative it adds exactly the displayed amount |
| Income.BlocksToNextIncome | src/main/java/com/vladisss/kingdomswar/kingdom/TerritoryIncomeSystem.java:68-72 | the displayed distance is between 1 and 50 blocks, income is the same until then, and it rises by one point exactly there |
| Income.ResetTimer | src/main/java/com/vladisss/kingdomswar/kingdom/TerritoryIncomeSystem.java:77-79 | the counter restarts from zero |
| Income.RunTicksPaysOncePerInterval | src/main/java/com/vladisss/kingdomswar/kingdom/TerritoryIncomeSystem.java:28-35 | over any run of ticks the number of payouts is the number of times the counter passes 1200, and each adds the income |
| Income.ResetDelaysNextIncome | src/main/java/com/vladisss/kingdomswar/kingdom/TerritoryIncomeSystem.java:77-79 | after a reset no income comes in the next 1199 ticks and exactly one comes on the 1200th |
| KingdomAI.ThreatsInRadius | src/main/java/com/vladisss/kingdomswar/kingdom/KingdomAI.java:122-140 | the threats found are exactly the live monsters in the search box, none invented and none missed |
| KingdomAI.NearestFirst | src/main/java/com/vladisss/kingdomswar/kingdom/KingdomAI.java:181-209 | the threats are a permutation sorted nearest to the castle first |
| KingdomAI.NearestThreatsDistinct | src/main/java/com/vladisss/kingdomswar/kingdom/KingdomAI.java:181-209 | filtering and sorting never duplicate a mob |
| KingdomAI.Classify | src/main/java/com/vladisss/kingdomswar/kingdom/KingdomAI.java:81-117 | critical iff a threat is within 16 blocks of the castle, medium iff not but one is within 32, low iff only the territory box holds one |
| KingdomAI.PeaceMeansEmptyTerritory | src/main/java/com/vladisss/kingdomswar/kingdom/KingdomAI.java:81-117 | for a territory of at least 32 blocks, the level is "none" exactly when no threat is in the territory |
| KingdomAI.ClassifyMonotone | src/main/java/com/vladisss/kingdomswar/kingdom/KingdomAI.java:81-117 | threats in more of the three boxes never lower the level |
| KingdomAI.NewMobNeverLowersThreat | src/main/java/com/vladisss/kingdomswar/kingdom/KingdomAI.java:81-117 | one more mob in the world never lowers the threat level |
| KingdomAI.ApproachNeverLowersThreat | src/main/java/com/vladisss/kingdomswar/kingdom/KingdomAI.java:81-117 | a mob moving toward the castle never lowers the threat level |
| KingdomAI.InitialAI | src/main/java/com/vladisss/kingdomswar/kingdom/KingdomAI.java:29-35 | a new AI starts at "no threat" with no assignments and zeroed timers |
| KingdomAI.RoundRobin | src/main/java/com/vladisss/kingdomswar/kingdom/KingdomAI.java:181-209 | units take threats in turn, unit `i` getting threat `(start + i) mod n`, and nothing else changes |
| KingdomAI.CriticalThreats | src/main/java/com/vladisss/kingdomswar/kingdom/KingdomAI.java:181-209 | the list is empty exactly when no threat is within 32 blocks |
| KingdomAI.DefendCastleAllForces | src/main/java/com/vladisss/kingdomswar/kingdom/KingdomAI.java:181-209 | with a threat within 32 blocks every guard and every knight targets one; otherwise nothing changes; only targets change |
| KingdomAI.DefendsInTurn | src/main/java/com/vladisss/kingdomswar/kingdom/KingdomAI.java:186-208 | counting the guards first and then the knights, the `k`-th unit targets the `(k mod n)`-th nearest of the `n` threats within 32 blocks |
| KingdomAI.RoundRobinReaches | src/main/java/com/vladisss/kingdomswar/kingdom/KingdomAI.java:181-209 | counting guards then knights, unit `k` is sent to the `k`-th nearest threat |
| KingdomAI.AllForcesCoverEveryThreat | src/main/java/com/vladisss/kingdomswar/kingdom/KingdomAI.java:181-209 | with at least as many units as threats near the castle, every such threat has an attacker |
| KingdomAI.BestTarget | src/main/java/com/vladisss/kingdomswar/kingdom/KingdomAI.java:254-274 | the threat picked for a troop is one of the listed ones |
| KingdomAI.BestTargetFindsOpen | src/main/java/com/vladisss/kingdomswar/kingdom/KingdomAI.java:254-274 | a troop gets a threat exactly when one has fewer than three attackers, and the one it gets does |
| KingdomAI.BestTargetIsFirstLeast | src/main/java/com/vladisss/kingdomswar/kingdom/KingdomAI.java:254-274 | the threat picked has the least score (distance to troop plus half the distance to the castle) among open threats, and is the first such |
| KingdomAI.AddAttacker | src/main/java/com/vladisss/kingdomswar/kingdom/KingdomAI.java:276-280 | recording an attacker adds it to that threat's set and changes no other threat's set |
| KingdomAI.Place | src/main/java/com/vladisss/kingdomswar/kingdom/KingdomAI.java:250-280 | a troop with no open threat is left alone; otherwise it targets its best threat and is recorded against it, and only its target changes |
| KingdomAI.AssignTroopsKeepsCap | src/main/java/com/vladisss/kingdomswar/kingdom/KingdomAI.java:245-282 | the assignment changes only targets and never records a fourth attacker on a threat |
| KingdomAI.AssignTroopsTargetsThreats | src/main/java/com/vladisss/kingdomswar/kingdom/KingdomAI.java:245-282 | every troop keeps its target or is sent against one of the listed threats |
| KingdomAI.AssignTroopsRecordsOnly | src/main/java/com/vladisss/kingdomswar/kingdom/KingdomAI.java:245-282 | only the troops placed are added to the record |
| KingdomAI.AssignTroopsFillsUp | src/main/java/com/vladisss/kingdomswar/kingdom/KingdomAI.java:245-282 | the greedy assignment records `min(troops + already recorded, 3 * threats)` attackers: no troop idles while a threat has room |
| KingdomAI.TerritoryThreats | src/main/java/com/vladisss/kingdomswar/kingdom/KingdomAI.java:214-240 | the list is empty exactly when no threat is in the territory |
| KingdomAI.SmartDefense | src/main/java/com/vladisss/kingdomswar/kingdom/KingdomAI.java:214-240 | with no threat in the territory nothing changes; otherwise only targets and the assignment record change, and the record respects the cap of three |
| KingdomAI.SmartDefenseFillsUp | src/main/java/com/vladisss/kingdomswar/kingdom/KingdomAI.java:214-240 | guards then knights fill the threats up to `min(guards + knights, 3 * threats)` attackers |
| KingdomAI.GuardsFirst | src/main/java/com/vladisss/kingdomswar/kingdom/KingdomAI.java:214-240 | guards are placed first on a fresh record, filling `min(guards, 3 * threats)` places before any knight |
| KingdomAI.PeacefulExpansion | src/main/java/com/vladisss/kingdomswar/kingdom/KingdomAI.java:297-306 | every knight's patrol radius becomes 20 and nothing else changes |
| KingdomAI.DistributeGuards | src/main/java/com/vladisss/kingdomswar/kingdom/KingdomAI.java:327-341 | guard `i` of `n` gets ring slot `i` of `n` at 8 blocks; the ring slots are distinct; nothing else changes |
| KingdomAI.DistributeKnights | src/main/java/com/vladisss/kingdomswar/kingdom/KingdomAI.java:343-360 | knight `i` patrols sector `i mod min(n, 8)`, 15 blocks inside the border, with radius 15 |
| KingdomAI.KnightSectorsCovered | src/main/java/com/vladisss/kingdomswar/kingdom/KingdomAI.java:343-360 | up to eight knights each get a sector of their own, and from eight on every sector is patrolled |
| KingdomAI.OptimizePositions | src/main/java/com/vladisss/kingdomswar/kingdom/KingdomAI.java:313-325 | guards take the castle ring and knights the border sectors; identities, roles, positions and targets are kept |
| KingdomAI.ManageTroops | src/main/java/com/vladisss/kingdomswar/kingdom/KingdomAI.java:147-176 | critical sends everyone at threats near the castle, medium is exactly `smartDefense` on the territory's threats, low changes nothing, and peace only widens knight patrols |
| KingdomAI.MediumFillsUp | src/main/java/com/vladisss/kingdomswar/kingdom/KingdomAI.java:147-176 | under a medium threat every troop is placed until each territory threat has three attackers: the record holds `min(guards + knights, 3 * threats)` attackers and never more than three on one |
| KingdomAI.Reassess | src/main/java/com/vladisss/kingdomswar/kingdom/KingdomAI.java:57-74 | the level is reclassified, and the check time set to now, exactly when 40 ticks have passed |
| KingdomAI.EvaluateSituation | src/main/java/com/vladisss/kingdomswar/kingdom/KingdomAI.java:57-74 | the timers fire on their intervals, the units that come out are the units that went in, and under a critical threat every one targets a monster near the castle |
| KingdomAI.OptimalKnights | src/main/java/com/vladisss/kingdomswar/kingdom/KingdomAI.java:367-412 | the knight target is one per 30 blocks of radius, at least three |
| KingdomAI.SmartRecruitChoice | src/main/java/com/vladisss/kingdomswar/kingdom/KingdomAI.java:367-412 | an emergency guard iff the castle is under critical threat with fewer than five troops and 50 points; each other choice has its condition; nothing is bought iff no condition holds |
| KingdomAI.SmartRecruit | src/main/java/com/vladisss/kingdomswar/kingdom/KingdomAI.java:367-412 | points drop by a guard's or a knight's cost exactly when a unit appears; a unit appears at the spawn point whenever the decision is to recruit and a spawn point exists, and never otherwise; it is a guard exactly for the emergency, castle and spare guard decisions and a knight exactly for the patrol and spare knight decisions |
| KingdomAI.SmartRecruitNeverOverdraws | src/main/java/com/vladisss/kingdomswar/kingdom/KingdomAI.java:367-412 | from a non-negative balance the advice never overdraws |
| KingdomAI.AdviceIsWeakerThanGate | src/main/java/com/vladisss/kingdomswar/kingdom/KingdomAI.java:433-438 | whenever the territory can expand with three knights at peace it was advised to, but advice at 301 points leaves a 50-block territory unchanged |
| Scanner.FindAllThreats | src/main/java/com/vladisss/kingdomswar/kingdom/TerritoryScanner.java:62-103 | exactly the hostile surface mobs are listed, each once, monsters first, then the other non-warrior, non-peaceful mobs |
| Scanner.CollectMonsters | src/main/java/com/vladisss/kingdomswar/kingdom/TerritoryScanner.java:74-79 | the first pass lists exactly the surface monsters of the scan box, and none twice |
| Scanner.AddModThreats | src/main/java/com/vladisss/kingdomswar/kingdom/TerritoryScanner.java:82-101 | the second pass keeps what is listed and appends only non-warrior, non-peaceful surface mobs, until every such mob has its id listed; no id is listed twice |
| Scanner.FindNearestFree | src/main/java/com/vladisss/kingdomswar/kingdom/TerritoryScanner.java:206-216 | the troop picked is one of the listed troops |
| Scanner.NearestFreeIsFirstNearest | src/main/java/com/vladisss/kingdomswar/kingdom/TerritoryScanner.java:206-216 | no troop is picked iff none is free; otherwise the pick is free, nearest to the threat, and the first such in list order |
| Seqs.SortByStable | src/main/java/com/vladisss/kingdomswar/kingdom/TerritoryScanner.java:162-164 | the sort behind every `List.sort` by distance is stable: elements with equal keys keep their order |
| Scanner.ByCastleDistance | src/main/java/com/vladisss/kingdomswar/kingdom/TerritoryScanner.java:154-199 | the threats are a permutation sorted by distance to the castle |
| Scanner.AssignTroopsToThreats | src/main/java/com/vladisss/kingdomswar/kingdom/TerritoryScanner.java:154-199 | threats are visited nearest first, and each pick is the nearest free guard and knight given the troops sent before it (`PickedNearest`); the troops that come out are the result of carrying out those picks; no troop is sent twice, a sent troop had no live target, and unsent troops are unchanged |
| Scanner.PickIsNearestFree | src/main/java/com/vladisss/kingdomswar/kingdom/TerritoryScanner.java:170-197 | a surface threat within 20 blocks gets a guard whenever one is free, and every surface threat a knight whenever one is free after that; the troop sent is free and none free is nearer to the threat; no troop goes to a threat below the surface |
| Scanner.PicksDistinct | src/main/java/com/vladisss/kingdomswar/kingdom/TerritoryScanner.java:160-168 | threats listed once are handed out once: sorting keeps the identities distinct, so the loop over the sorted list picks for each mob once |
| Scanner.PicksCoverHostile | src/main/java/com/vladisss/kingdomswar/kingdom/TerritoryScanner.java:39-57 | the scan visits every hostile mob found, only hostile mobs, nearest to the castle first |
| Scanner.AssignKnightsToSectors | src/main/java/com/vladisss/kingdomswar/kingdom/TerritoryScanner.java:221-252 | knights in a fight are left alone; every idle knight `i` patrols sector `i mod 8` at 70% of the radius with radius 20, and its sector is recorded |
| Scanner.PatrolDistance | src/main/java/com/vladisss/kingdomswar/kingdom/TerritoryScanner.java:221-252 | the ring distance is 70% of the radius, rounded down |
| Scanner.SectorsRecorded | src/main/java/com/vladisss/kingdomswar/kingdom/TerritoryScanner.java:221-252 | with distinct identities, every idle knight's recorded sector is `i mod 8` |
| Scanner.ScanAndAssign | src/main/java/com/vladisss/kingdomswar/kingdom/TerritoryScanner.java:39-57 | with no hostile mob the idle knights are moved to their ring sectors as `assignKnightsToSectors` places them, the sectors are recorded, and no target is set; otherwise the sector record is untouched, every hostile mob is visited nearest to the castle first, once when mob identities are distinct, and gets the nearest free guard and knight as `assignTroopsToThreats` picks them, and guards only gain targets |
| Revenge.AlertAllies | src/main/java/com/vladisss/kingdomswar/kingdom/RevengeSystem.java:58-80 | every live warrior in the territory's box targets the killer, and no other unit changes |
| Revenge.OnWarriorKilled | src/main/java/com/vladisss/kingdomswar/kingdom/RevengeSystem.java:37-53 | an unknown or offline killer changes nothing; otherwise the killer is remembered until now + 12000, other memories are kept, and the alarm is raised |
| Revenge.KilledTwiceIsKilledOnce | src/main/java/com/vladisss/kingdomswar/kingdom/RevengeSystem.java:37-53 | reporting the same kill twice at the same time has the effect of reporting it once |
| Revenge.Sweep | src/main/java/com/vladisss/kingdomswar/kingdom/RevengeSystem.java:89-96 | exactly the memories that have not expired survive, with their times |
| Revenge.MemoryLasts12000Ticks | src/main/java/com/vladisss/kingdomswar/kingdom/RevengeSystem.java:26-53 | a killer survives the sweep 11999 ticks later and is gone at 12000 |
| Revenge.ExpiredRememberedUntilSweep | src/main/java/com/vladisss/kingdomswar/kingdom/RevengeSystem.java:172-174 | an expired memory still answers "remembered" until the next sweep drops it |
| Revenge.Candidates | src/main/java/com/vladisss/kingdomswar/kingdom/RevengeSystem.java:117-140 | the free warriors of the territory, sorted nearest to the player first |
| Revenge.CandidatesAreFree | src/main/java/com/vladisss/kingdomswar/kingdom/RevengeSystem.java:117-140 | the candidates are exactly the free warriors, each once |
| Revenge.SquadSize | src/main/java/com/vladisss/kingdomswar/kingdom/RevengeSystem.java:143 | the squad size is the number of free warriors clamped to `[3, 5]` |
| Revenge.Dispatch | src/main/java/com/vladisss/kingdomswar/kingdom/RevengeSystem.java:143-147 | the squad members target the foe and nobody else changes |
| Revenge.SendRevengeSquadAsWritten | src/main/java/com/vladisss/kingdomswar/kingdom/RevengeSystem.java:117-151 | as the code is written, the loop runs past the list exactly when one or two warriors are free, after sending those |
| Revenge.RevengeSquadOverrunsShortList | src/main/java/com/vladisss/kingdomswar/kingdom/RevengeSystem.java:143-147 | with a single free warrior the loop asks for a second |
| Revenge.Squad | src/main/java/com/vladisss/kingdomswar/kingdom/RevengeSystem.java:143-147 | corrected: the squad is a prefix of the candidates of length `min(5, n)` |
| Revenge.SendRevengeSquad | src/main/java/com/vladisss/kingdomswar/kingdom/RevengeSystem.java:117-151 | corrected: squad members target the player and everyone else is unchanged |
| Revenge.SquadIsNearestFree | src/main/java/com/vladisss/kingdomswar/kingdom/RevengeSystem.java:117-151 | the squad is `min(5, n)` distinct free warriors, and no free warrior left behind is nearer the player |
| Revenge.SquadAgreesWhenLongEnough | src/main/java/com/vladisss/kingdomswar/kingdom/RevengeSystem.java:117-151 | where the code as written does not fail, the corrected squad does the same |
| Revenge.SendSquadsTargetsReturned | src/main/java/com/vladisss/kingdomswar/kingdom/RevengeSystem.java:99-111 | the squads change only targets, and every unit changed targets a remembered player who is online and inside the territory |
| Revenge.CheckForRememberedPlayers | src/main/java/com/vladisss/kingdomswar/kingdom/RevengeSystem.java:85-112 | the memory is swept first; every remembered player back in the territory is chased by the squad `sendRevengeSquad` picks from the warriors the earlier squads left free; with no such player no unit changes |
| Revenge.SendSquadsKeepsBusy | src/main/java/com/vladisss/kingdomswar/kingdom/RevengeSystem.java:117-130 | a squad takes only warriors without a target, so a warrior that has one is never changed by the walk over returned players |
| Revenge.ReturnedGetsSquad | src/main/java/com/vladisss/kingdomswar/kingdom/RevengeSystem.java:99-111 | each returned player's squad, picked from the warriors earlier squads left free, ends up targeting that player |
| Revenge.FirstReturnedGetsSquad | src/main/java/com/vladisss/kingdomswar/kingdom/RevengeSystem.java:99-111 | the first returned player in the walk is chased by the `min(5, n)` nearest free warriors of all the units |
| Revenge.NoReturnNoSquad | src/main/java/com/vladisss/kingdomswar/kingdom/RevengeSystem.java:99-111 | no squad goes out unless some remembered player is online inside the territory |
| Revenge.ExpiredPlayerNotChased | src/main/java/com/vladisss/kingdomswar/kingdom/RevengeSystem.java:85-112 | players whose memory has expired are not chased |
| Revenge.CheckWarriorBounds | src/main/java/com/vladisss/kingdomswar/kingdom/RevengeSystem.java:156-170 | a warrior changes iff it is outside the territory with a target, and then it only drops that target |
| SmartTarget.RequiredWarriors | src/main/java/com/vladisss/kingdomswar/entity/ai/SmartTargetGoal.java:192-196 | two or three warriors are needed, three exactly when 1.3 times the target's health exceeds twice the warrior's |
| SmartTarget.ShouldAttack | src/main/java/com/vladisss/kingdomswar/entity/ai/SmartTargetGoal.java:142-187 | a weak target is taken only alone; a strong one only while fewer than the required warriors attack it and their total health is below 1.5 times the target's |
| SmartTarget.JoiningNeverOvercrowds | src/main/java/com/vladisss/kingdomswar/entity/ai/SmartTargetGoal.java:142-187 | a warrior that joins leaves at most three on a target, and alone on a weak one |
| SmartTarget.MoreAttackersNeverEncourage | src/main/java/com/vladisss/kingdomswar/entity/ai/SmartTargetGoal.java:142-187 | one more ally on a target never turns "don't attack" into "attack" |
| SmartTarget.CandidatesByDistance | src/main/java/com/vladisss/kingdomswar/entity/ai/SmartTargetGoal.java:53-91 | the candidates are the mobs the filter admits, sorted nearest first |
| SmartTarget.FindClosestValidTarget | src/main/java/com/vladisss/kingdomswar/entity/ai/SmartTargetGoal.java:53-91 | a target found is one worth attacking |
| SmartTarget.ClosestValidTargetIsNearest | src/main/java/com/vladisss/kingdomswar/entity/ai/SmartTargetGoal.java:53-91 | no target iff no mob is worth attacking; otherwise the target is a listed mob worth attacking and none such is nearer |
| SmartTarget.HelpersByDistance | src/main/java/com/vladisss/kingdomswar/entity/ai/SmartTargetGoal.java:96-137 | the allies in range with a live target, sorted nearest first |
| SmartTarget.FindAllyTargetToHelp | src/main/java/com/vladisss/kingdomswar/entity/ai/SmartTargetGoal.java:96-137 | help goes only to a live target |
| SmartTarget.AllyTargetNoneWhenNoNeed | src/main/java/com/vladisss/kingdomswar/entity/ai/SmartTargetGoal.java:96-137 | nobody is helped iff no ally in range lacks the attackers its target requires |
| SmartTarget.AllyTargetIsNearestInNeed | src/main/java/com/vladisss/kingdomswar/entity/ai/SmartTargetGoal.java:96-137 | help goes to the target of an ally in range that needs it, and no ally in need is nearer |
| SmartTarget.CanUse | src/main/java/com/vladisss/kingdomswar/entity/ai/SmartTargetGoal.java:33-48 | the goal only starts against a live target |
| SmartTarget.CanUseOwnTargetsFirst | src/main/java/com/vladisss/kingdomswar/entity/ai/SmartTargetGoal.java:33-48 | the goal idles iff nothing is worth attacking and no ally needs help, and it helps an ally only when no target of its own is worth attacking |
| Events.KillReward | src/main/java/com/vladisss/kingdomswar/event/KingdomEventHandler.java:46-46 | a kill is worth a tenth of the victim's maximum health, rounded down, and at least one point |
| Events.RewardKill | src/main/java/com/vladisss/kingdomswar/event/KingdomEventHandler.java:41-58 | only a mob killed by a guard or knight pays; the reward is logged, expansion is tried, and the flags are redrawn exactly when the territory grew |
| Events.RewardKillGrowsByOneStepAtMost | src/main/java/com/vladisss/kingdomswar/event/KingdomEventHandler.java:41-58 | a kill grows the territory by one step at most, never moves the castle, and redraws flags iff it grew |
| Events.Killer | src/main/java/com/vladisss/kingdomswar/event/KingdomEventHandler.java:72-76 | the killer is the direct entity when living, else the responsible one when living, else none |
| Events.ReinforcementCount | src/main/java/com/vladisss/kingdomswar/event/KingdomEventHandler.java:133-149 | never more troops than are free, and at least `min(3, free)` |
| Events.ReinforcementBands | src/main/java/com/vladisss/kingdomswar/event/KingdomEventHandler.java:133-149 | within 30 blocks half the free troops (at least three), between 30 and 60 up to five, farther up to three |
| Events.CloseDeathCanSendFewer | src/main/java/com/vladisss/kingdomswar/event/KingdomEventHandler.java:133-146 | with eight free troops a death near the castle sends four, one in the middle band five |
| Events.Reinforcements | src/main/java/com/vladisss/kingdomswar/event/KingdomEventHandler.java:104-149 | the troops sent are the leading free guards-then-knights, as many as the band allows |
| Events.CallReinforcements | src/main/java/com/vladisss/kingdomswar/event/KingdomEventHandler.java:98-171 | no target is set when the killer is dead or removed |
| Events.ReinforcementsSendFreeGuardsFirst | src/main/java/com/vladisss/kingdomswar/event/KingdomEventHandler.java:98-171 | exactly the troops sent change; each was free and now targets the killer; they are distinct; a knight goes only after every free guard |
| Events.OnEntityDeath | src/main/java/com/vladisss/kingdomswar/event/KingdomEventHandler.java:26-93 | without a kingdom nothing happens; a kill is rewarded and the flag is the reward's redraw decision; only a warrior's death touches the memory or the units; a player killer is remembered; any other killer leaves the memory alone and only the call for reinforcements against it changes the units |
| Events.NonPlayerKillCallsReinforcements | src/main/java/com/vladisss/kingdomswar/event/KingdomEventHandler.java:64-91 | when anything but a player kills a warrior and lives on, exactly the troops the call picks change, each was free and now targets the killer, as many as the distance bands allow, and the revenge memory is untouched |
| Events.PlayerKillLeavesNoneFree | src/main/java/com/vladisss/kingdomswar/event/KingdomEventHandler.java:63-91 | when an online player kills a warrior, the player is remembered and the alarm is all that happens to the warriors |
| Events.AlertLeavesNoneFree | src/main/java/com/vladisss/kingdomswar/kingdom/RevengeSystem.java:58-80 | after the alarm no warrior of the territory is free |
| Manager.Register | src/main/java/com/vladisss/kingdomswar/kingdom/KingdomManager.java:15-23 | the kingdom becomes the dimension's kingdom in memory and in its saved data; other dimensions are untouched |
| Manager.Get | src/main/java/com/vladisss/kingdomswar/kingdom/KingdomManager.java:25-29 | a dimension answers with a kingdom iff one is registered for it |
| Manager.GetAt | src/main/java/com/vladisss/kingdomswar/kingdom/KingdomManager.java:31-38 | a kingdom is returned iff the dimension has one and the position lies inside it |
| Manager.LoadKingdoms | src/main/java/com/vladisss/kingdomswar/kingdom/KingdomManager.java:40-48 | the saved kingdom, when there is one, becomes the dimension's kingdom; the saved data is untouched |
| Manager.Clear | src/main/java/com/vladisss/kingdomswar/kingdom/KingdomManager.java:50-52 | after clearing no dimension has a kingdom in memory, and the saved data stays |
| Manager.RegisterThenGet | src/main/java/com/vladisss/kingdomswar/kingdom/KingdomManager.java:15-29 | a registered kingdom is what its dimension answers with, and registering again replaces it |
| Manager.RegisterClearLoad | src/main/java/com/vladisss/kingdomswar/kingdom/KingdomManager.java:15-52 | registering, clearing and loading again gives back the same kingdom |
| Manager.Restart | src/main/java/com/vladisss/kingdomswar/kingdom/KingdomManager.java:50-52 | after a restart memory is empty and every dimension with saved data still has it |
| Manager.RegisterRestartLoadRoundTrip | src/main/java/com/vladisss/kingdomswar/kingdom/KingdomManager.java:40-48 | across a save, restart and load a kingdom keeps all its stored fields, and comes back unchanged when its chunks were consistent |
| Manager.LoadTouchesOneDimension | src/main/java/com/vladisss/kingdomswar/kingdom/KingdomManager.java:40-48 | loading one dimension leaves every other dimension as it was |

## Findings

| source | as written | input that shows it | evidently intended | confidence | as-written member | corrected member |
|---|---|---|---|---|---|---|
| src/main/java/com/vladisss/kingdomswar/kingdom/RevengeSystem.java:143-147 | the squad size is `min(5, max(3, n))` and the loop indexes `list.get(i)` up to that size over `n` free warriors | one or two free warriors when a remembered player returns: after sending them, `get(n)` throws, which also abandons the players still to be checked; nothing catches it, and `checkForRememberedPlayers` is the first step of `KingdomTerritory.tick` (KingdomTerritory.java:189), so that tick's income, AI, recruitment and reserve steps are skipped as well (`Revenge.RevengeSquadOverrunsShortList`) | send the nearest `min(5, n)` free warriors | high; not executed | Revenge.SendRevengeSquadAsWritten | Revenge.SendRevengeSquad |
| src/main/java/com/vladisss/kingdomswar/kingdom/KingdomTerritory.java:276-287 | `checkReinforcements` calls `recruitKnight` and then decrements the reserve unconditionally; `recruitKnight` charges 70 points again | reserve 1, no spawn point: the reserve knight is lost; reserve 1, 0 points, a spawn point: the balance becomes -70 (`Territory.ReinforcementLosesReserveAndOvercharges`) | a reserve knight, already paid 70 points when hired into the reserve, is deployed for free, and the counter drops only when it appears | medium; not executed | Territory.CheckReinforcementsAsWritten | Territory.CheckReinforcements |

## Left out

- World queries, entity creation, navigation (`moveTo`), logging and chat messages are not modelled. Their results are inputs, such as the mobs in a box or a spawn point found or not; their effects are outputs, such as the new targets and a spawn description.
- Positions are whole block positions. Entity positions in the mod are doubles, and bounding boxes are ignored; a mob counts as in a box when its block does.
- The surface test of `isOnSurface` (sky visibility, height map, cave air) is a `surface` flag on each mob. The mob categories are a flag and an enumeration.
- The spawn-point search `findSafeSpawnInTerritory` is an oracle parameter that found a position or none.
- Trigonometric patrol posts (angles `2*pi*i/n`) are recorded as ring slots (`slot` of `slots` at a distance), not as coordinates.
- Java's 32-bit `int` arithmetic is unbounded here: `addPoints` (`points += amount`), the charges in `recruitGuard`, `recruitKnight` and `expandTerritory`, and `radius * radius` in `isInTerritory` would wrap around only past 2^31 points or a radius above 46340 blocks. Points come one kill or one minute at a time and each expansion costs more, so neither is reachable in play.
- Health, the kill reward and the attack factors (1.2, 1.3, 1.5) are exact reals, without Java float rounding.
- Scanner.PatrolDistance: takes 0.7 exactly; the Java double product `radius * 0.7` truncates to one less for radii such as 90 and 170.
- The iteration order of the remembered players' hash set is an explicit `order` parameter.
- Revenge.CheckForRememberedPlayers: sends squads with the corrected `Revenge.SendRevengeSquad`. The exception of the code as written, which also ends the loop over the remaining players, is exhibited only by `Revenge.SendRevengeSquadAsWritten`.
- Revenge.AlertAllies: the mod alerts every guard or knight in the box. The model alerts the kingdom's units, which are the only warriors in the dimension.
- Manager.Restart: the contract states only the shape of the result; what a restart keeps of each kingdom is stated by `Manager.RegisterRestartLoadRoundTrip`. The registry holds territories only: `KingdomTerritory.load` goes through the constructor, which builds a fresh `RevengeSystem` and `KingdomAI`, so a restart forgets every remembered player and resets the AI's threat level and timers; the model does not carry those across a restart either.
- Manager: in the mod, `KingdomData` holds the same object as the registry, so later changes are saved too. The model's saved data holds the value given at registration. `KingdomData` itself (`KingdomData.java`) is not part of this model beyond `setKingdom` and `getKingdom`.
- The client-side level check at the top of `onEntityDeath` is left out; the model is the server side.
- `WarriorDeathHandler` forwards a warrior's death to `onWarriorKilled` a second time. It is not part of this model; `Revenge.KilledTwiceIsKilledOnce` shows the repeat is harmless.
- `SmartTargetGoal` is modelled as the goal would behave; the warrior entities of the mod do not register it.
- Border flags (`placeBorderFlags`), the world-generation of the castle and the item/GUI code are not part of this model. The handler's "redraw flags" decision is a boolean output.
- `countLivingTroops`, `countKnights` and `countGuards` are inputs (`active`, `knights`, `guards`, `living`), as their counts come from world queries.

=== FILE: ai.dfy ===
/** The kingdom's strategic AI: the threat level around the castle, the orders
    the troops get at each level, guard posts and knight sectors, and the
    recruitment and expansion advice the territory acts on.

    The guards and knights handed to these functions are the live units the
    source's box query returns, in the order it returns them; the functions
    give back the same units with new orders. */
module KingdomAI {
  import opened Common
  import opened Seqs
  import T = Territory

  const CastleDetectionRadius := 16
  const CriticalThreatRadius := 32
  const MaxAttackersPerTarget := 3
  const ThreatCheckInterval := 40
  const OptimizationInterval := 40
  const PeacefulPatrolRadius := 20
  const GuardPostDistance := 8
  const MaxSectors := 8
  const BorderInset := 15
  const SectorPatrolRadius := 15
  const MinGuards := 4

  datatype ThreatLevel = NoThreat | Low | Medium | Critical

  function Severity(l: ThreatLevel): int
  {
    match l
    case NoThreat => 0
    case Low => 1
    case Medium => 2
    case Critical => 3
  }

  // ---------------------------------------------------------------- threats

  /** A live Monster-class mob in the search box of half-width `r` around `center`. */
  predicate IsThreat(m: Mob, center: Pos, r: int)
  {
    m.monster && m.alive && InTallBox(center, r, m.pos)
  }

  predicate ThreatWithin(mobs: seq<Mob>, center: Pos, r: int)
  {
    exists i :: 0 <= i < |mobs| && IsThreat(mobs[i], center, r)
  }

  /** `findThreatsInRadius`: the threats among the mobs, in query order. */
  function ThreatsInRadius(mobs: seq<Mob>, center: Pos, r: int): (ts: seq<Mob>)
    ensures forall i :: 0 <= i < |ts| ==> ts[i] in mobs && IsThreat(ts[i], center, r)
    ensures forall i :: 0 <= i < |mobs| && IsThreat(mobs[i], center, r) ==> mobs[i] in ts
    ensures |ts| > 0 <==> ThreatWithin(mobs, center, r)
    ensures multiset(ts) <= multiset(mobs)
  {
    var ts := Filter(mobs, (m: Mob) => IsThreat(m, center, r));
    SomeThreatFound(mobs, center, r, ts);
    ts
  }

  lemma SomeThreatFound(mobs: seq<Mob>, center: Pos, r: int, ts: seq<Mob>)
    requires forall i :: 0 <= i < |ts| ==> ts[i] in mobs && IsThreat(ts[i], center, r)
    requires forall i :: 0 <= i < |mobs| && IsThreat(mobs[i], center, r) ==> mobs[i] in ts
    ensures |ts| > 0 <==> ThreatWithin(mobs, center, r)
  {
    if |ts| > 0 {
      assert ts[0] in mobs;
      var i :| 0 <= i < |mobs| && mobs[i] == ts[0];
      assert IsThreat(mobs[i], center, r);
    }
    if ThreatWithin(mobs, center, r) {
      var i :| 0 <= i < |mobs| && IsThreat(mobs[i], center, r);
      assert mobs[i] in ts;
    }
  }

  /** The threats sorted nearest to the castle first (a stable sort). */
  function NearestFirst(threats: seq<Mob>, center: Pos): (r: seq<Mob>)
    ensures |r| == |threats| && multiset(r) == multiset(threats)
    ensures forall i, j :: 0 <= i < j < |r| ==> DistSq(r[i].pos, center) <= DistSq(r[j].pos, center)
  {
    SortBy(threats, (m: Mob) => DistSq(m.pos, center))
  }

  /** Distinct mobs stay distinct after filtering and sorting. */
  lemma NearestThreatsDistinct(mobs: seq<Mob>, center: Pos, r: int)
    requires DistinctMobIds(mobs)
    ensures DistinctMobIds(NearestFirst(ThreatsInRadius(mobs, center, r), center))
  {
    var key := (m: Mob) => m.id;
    var ts := ThreatsInRadius(mobs, center, r);
    assert DistinctBy(mobs, key);
    DistinctBySubMultiset(ts, mobs, key);
    DistinctBySubMultiset(NearestFirst(ts, center), ts, key);
  }

  /** `updateThreatLevel`: critical when a threat is within 16 blocks of the
      castle, medium within 32, low anywhere in the territory box, else none. */
  function Classify(mobs: seq<Mob>, center: Pos, radius: int): (l: ThreatLevel)
    ensures l == Critical <==> ThreatWithin(mobs, center, CastleDetectionRadius)
    ensures l == Medium <==>
      !ThreatWithin(mobs, center, CastleDetectionRadius) && ThreatWithin(mobs, center, CriticalThreatRadius)
    ensures l == Low <==>
      && !ThreatWithin(mobs, center, CastleDetectionRadius)
      && !ThreatWithin(mobs, center, CriticalThreatRadius)
      && ThreatWithin(mobs, center, radius)
  {
    if |ThreatsInRadius(mobs, center, CastleDetectionRadius)| > 0 then Critical
    else if |ThreatsInRadius(mobs, center, CriticalThreatRadius)| > 0 then Medium
    else if |ThreatsInRadius(mobs, center, radius)| > 0 then Low
    else NoThreat
  }

  /** The three boxes are nested once the territory is at least 32 blocks wide,
      so "no threat" means no monster anywhere in the territory box. */
  lemma {:induction false} PeaceMeansEmptyTerritory(mobs: seq<Mob>, center: Pos, radius: int)
    requires radius >= CriticalThreatRadius
    ensures Classify(mobs, center, radius) == NoThreat <==> !ThreatWithin(mobs, center, radius)
    ensures Classify(mobs, center, radius) != NoThreat <==>
      exists i :: 0 <= i < |mobs| && IsThreat(mobs[i], center, radius)
  {
    if ThreatWithin(mobs, center, CriticalThreatRadius) {
      var i :| 0 <= i < |mobs| && IsThreat(mobs[i], center, CriticalThreatRadius);
      assert IsThreat(mobs[i], center, radius);
    }
  }

  /** More threats in each of the three boxes never lower the level. */
  lemma ClassifyMonotone(a: seq<Mob>, b: seq<Mob>, center: Pos, radius: int)
    requires ThreatWithin(a, center, CastleDetectionRadius) ==> ThreatWithin(b, center, CastleDetectionRadius)
    requires ThreatWithin(a, center, CriticalThreatRadius) ==> ThreatWithin(b, center, CriticalThreatRadius)
    requires ThreatWithin(a, center, radius) ==> ThreatWithin(b, center, radius)
    ensures Severity(Classify(a, center, radius)) <= Severity(Classify(b, center, radius))
  {
  }

  /** A new mob never lowers the threat level. */
  lemma {:induction false} NewMobNeverLowersThreat(mobs: seq<Mob>, m: Mob, center: Pos, radius: int)
    ensures Severity(Classify(mobs, center, radius)) <= Severity(Classify(mobs + [m], center, radius))
  {
    forall r | ThreatWithin(mobs, center, r)
      ensures ThreatWithin(mobs + [m], center, r)
    {
      var i :| 0 <= i < |mobs| && IsThreat(mobs[i], center, r);
      assert (mobs + [m])[i] == mobs[i];
    }
    ClassifyMonotone(mobs, mobs + [m], center, radius);
  }

  function Abs(n: int): nat
  {
    if n >= 0 then n else -n
  }

  /** `p` is at least as close to `c` as `q` along every axis, on the same side vertically. */
  predicate NoFarther(c: Pos, p: Pos, q: Pos)
  {
    && Abs(p.x - c.x) <= Abs(q.x - c.x)
    && Abs(p.z - c.z) <= Abs(q.z - c.z)
    && (if q.y >= c.y then c.y <= p.y <= q.y else q.y <= p.y <= c.y)
  }

  lemma NoFartherStaysInBox(c: Pos, r: int, p: Pos, q: Pos)
    requires NoFarther(c, p, q)
    requires InTallBox(c, r, q)
    ensures InTallBox(c, r, p)
  {
  }

  /** A monster walking toward the castle never lowers the threat level. */
  lemma {:induction false} ApproachNeverLowersThreat(mobs: seq<Mob>, i: int, p: Pos, center: Pos, radius: int)
    requires 0 <= i < |mobs|
    requires NoFarther(center, p, mobs[i].pos)
    ensures Severity(Classify(mobs, center, radius)) <=
            Severity(Classify(mobs[i := mobs[i].(pos := p)], center, radius))
  {
    var moved := mobs[i := mobs[i].(pos := p)];
    forall r | ThreatWithin(mobs, center, r)
      ensures ThreatWithin(moved, center, r)
    {
      var j :| 0 <= j < |mobs| && IsThreat(mobs[j], center, r);
      if j == i {
        NoFartherStaysInBox(center, r, p, mobs[i].pos);
      }
      assert IsThreat(moved[j], center, r);
    }
    ClassifyMonotone(mobs, moved, center, radius);
  }

  // ---------------------------------------------------------------- state

  /** Who attacks which threat: threat id to the ids of its attackers. */
  type Assignments = map<EntityId, set<EntityId>>

  datatype AIState = AIState(
    level: ThreatLevel,
    lastThreatCheck: int,
    lastOptimization: int,
    assignments: Assignments
  )

  function InitialAI(): (ai: AIState)
    ensures ai.level == NoThreat && ai.assignments == map[]
    ensures ai.lastThreatCheck == 0 && ai.lastOptimization == 0
  {
    AIState(NoThreat, 0, 0, map[])
  }

  // ---------------------------------------------------------------- critical defense

  /** Hands out threats to units in turn, the first unit getting threat `start`. */
  function RoundRobin(units: seq<Unit>, threats: seq<Mob>, start: nat): (r: seq<Unit>)
    requires |threats| > 0
    ensures |r| == |units|
    ensures forall i :: 0 <= i < |units| ==>
      r[i] == Retarget(units[i], MobFoe(threats[(start + i) % |threats|]))
    decreases |units|
  {
    if |units| == 0 then []
    else [Retarget(units[0], MobFoe(threats[start % |threats|]))] + RoundRobin(units[1..], threats, start + 1)
  }

  /** A unit whose target is one of the threats within `r` of the castle. */
  predicate TargetsThreat(u: Unit, mobs: seq<Mob>, center: Pos, r: int)
  {
    u.target.Some? && exists j :: 0 <= j < |mobs| && IsThreat(mobs[j], center, r) && u.target.value == MobFoe(mobs[j])
  }

  /** Only the target changed. */
  predicate Reordered(before: seq<Unit>, after: seq<Unit>)
  {
    |after| == |before| && forall i :: 0 <= i < |before| ==> after[i].(target := before[i].target) == before[i]
  }

  /** The threats within 32 blocks, nearest to the castle first. */
  function CriticalThreats(mobs: seq<Mob>, center: Pos): (r: seq<Mob>)
    ensures |r| > 0 <==> ThreatWithin(mobs, center, CriticalThreatRadius)
  {
    NearestFirst(ThreatsInRadius(mobs, center, CriticalThreatRadius), center)
  }

  /** `defendCastleAllForces`: every guard, then every knight, is sent in turn
      against the threats within 32 blocks, nearest to the castle first
      (`DefendsInTurn` says which unit gets which threat). */
  function DefendCastleAllForces(mobs: seq<Mob>, center: Pos, guards: seq<Unit>, knights: seq<Unit>)
    : (r: (seq<Unit>, seq<Unit>))
    ensures !ThreatWithin(mobs, center, CriticalThreatRadius) ==> r == (guards, knights)
    ensures Reordered(guards, r.0) && Reordered(knights, r.1)
    ensures ThreatWithin(mobs, center, CriticalThreatRadius) ==>
      && (forall i :: 0 <= i < |r.0| ==> TargetsThreat(r.0[i], mobs, center, CriticalThreatRadius))
      && (forall i :: 0 <= i < |r.1| ==> TargetsThreat(r.1[i], mobs, center, CriticalThreatRadius))
  {
    var threats := CriticalThreats(mobs, center);
    if |threats| == 0 then (guards, knights)
    else
      RoundRobinTargetsThreats(mobs, center, guards, 0);
      RoundRobinTargetsThreats(mobs, center, knights, |guards|);
      (RoundRobin(guards, threats, 0), RoundRobin(knights, threats, |guards|))
  }

  /** The k-th unit of the guards followed by the knights gets the k-th
      nearest critical threat, counting modulo the number of threats. */
  lemma DefendsInTurn(mobs: seq<Mob>, center: Pos, guards: seq<Unit>, knights: seq<Unit>)
    requires ThreatWithin(mobs, center, CriticalThreatRadius)
    ensures var r := DefendCastleAllForces(mobs, center, guards, knights);
      var threats := CriticalThreats(mobs, center);
      && (forall i :: 0 <= i < |guards| ==> r.0[i].target == Some(MobFoe(threats[i % |threats|])))
      && (forall i :: 0 <= i < |knights| ==> r.1[i].target == Some(MobFoe(threats[(|guards| + i) % |threats|])))
  {
    var threats := CriticalThreats(mobs, center);
    RoundRobinInTurn(guards, knights, threats);
    assert DefendCastleAllForces(mobs, center, guards, knights) == (RoundRobin(guards, threats, 0), RoundRobin(knights, threats, |guards|));
  }

  lemma RoundRobinInTurn(guards: seq<Unit>, knights: seq<Unit>, threats: seq<Mob>)
    requires |threats| > 0
    ensures forall i :: 0 <= i < |guards| ==> RoundRobin(guards, threats, 0)[i].target == Some(MobFoe(threats[i % |threats|]))
    ensures forall i :: 0 <= i < |knights| ==> RoundRobin(knights, threats, |guards|)[i].target == Some(MobFoe(threats[(|guards| + i) % |threats|]))
  {
  }

  lemma RoundRobinAt(units: seq<Unit>, threats: seq<Mob>, start: nat, i: int)
    requires |threats| > 0 && 0 <= i < |units|
    ensures RoundRobin(units, threats, start)[i].target == Some(MobFoe(threats[(start + i) % |threats|]))
  {
  }

  lemma RoundRobinTargetsThreats(mobs: seq<Mob>, center: Pos, units: seq<Unit>, start: nat)
    requires ThreatWithin(mobs, center, CriticalThreatRadius)
    ensures var r := RoundRobin(units, CriticalThreats(mobs, center), start);
      && Reordered(units, r)
      && forall i :: 0 <= i < |r| ==> TargetsThreat(r[i], mobs, center, CriticalThreatRadius)
  {
    var threats := CriticalThreats(mobs, center);
    var r := RoundRobin(units, threats, start);
    forall i | 0 <= i < |r|
      ensures TargetsThreat(r[i], mobs, center, CriticalThreatRadius)
      ensures r[i].(target := units[i].target) == units[i]
    {
      NearestThreatIsThreat(mobs, center, threats, (start + i) % |threats|);
    }
  }

  lemma NearestThreatIsThreat(mobs: seq<Mob>, center: Pos, threats: seq<Mob>, k: int)
    requires threats == CriticalThreats(mobs, center)
    requires 0 <= k < |threats|
    ensures exists j :: 0 <= j < |mobs| && IsThreat(mobs[j], center, CriticalThreatRadius) && threats[k] == mobs[j]
  {
    var ts := ThreatsInRadius(mobs, center, CriticalThreatRadius);
    assert threats[k] in multiset(ts);
    var m :| 0 <= m < |ts| && ts[m] == threats[k];
    assert ts[m] in mobs;
  }

  /** Unit `k` of all guards followed by all knights gets threat `k` (mod the
      number of threats). */
  lemma RoundRobinReaches(guards: seq<Unit>, knights: seq<Unit>, threats: seq<Mob>, k: int)
    requires 0 <= k < |threats| <= |guards| + |knights|
    ensures k < |guards| ==> RoundRobin(guards, threats, 0)[k].target == Some(MobFoe(threats[k]))
    ensures k >= |guards| ==> RoundRobin(knights, threats, |guards|)[k - |guards|].target == Some(MobFoe(threats[k]))
  {
    ModSmall(k, |threats|);
    if k >= |guards| {
      var i := k - |guards|;
      assert |guards| + i == k;
      assert RoundRobin(knights, threats, |guards|)[i] == Retarget(knights[i], MobFoe(threats[(|guards| + i) % |threats|]));
    } else {
      assert RoundRobin(guards, threats, 0)[k] == Retarget(guards[k], MobFoe(threats[(0 + k) % |threats|]));
    }
  }

  lemma ModSmall(k: int, n: int)
    requires 0 <= k < n
    ensures k % n == k
  {
  }

  /** With at least as many units as threats, no threat near the castle is left
      unattended. */
  lemma {:induction false} AllForcesCoverEveryThreat(mobs: seq<Mob>, center: Pos, guards: seq<Unit>, knights: seq<Unit>, j: int)
    requires 0 <= j < |mobs| && IsThreat(mobs[j], center, CriticalThreatRadius)
    requires |guards| + |knights| >= |ThreatsInRadius(mobs, center, CriticalThreatRadius)|
    ensures var r := DefendCastleAllForces(mobs, center, guards, knights);
      || (exists i :: 0 <= i < |r.0| && r.0[i].target == Some(MobFoe(mobs[j])))
      || (exists i :: 0 <= i < |r.1| && r.1[i].target == Some(MobFoe(mobs[j])))
  {
    var ts := ThreatsInRadius(mobs, center, CriticalThreatRadius);
    var threats := CriticalThreats(mobs, center);
    assert mobs[j] in ts;
    assert mobs[j] in multiset(threats);
    var k :| 0 <= k < |threats| && threats[k] == mobs[j];
    RoundRobinReaches(guards, knights, threats, k);
    var r := DefendCastleAllForces(mobs, center, guards, knights);
    assert r == (RoundRobin(guards, threats, 0), RoundRobin(knights, threats, |guards|));
    if k < |guards| {
      assert r.0[k].target == Some(MobFoe(mobs[j]));
    } else {
      assert r.1[k - |guards|].target == Some(MobFoe(mobs[j]));
    }
  }

  // ---------------------------------------------------------------- smart defense

  function Members(a: Assignments, id: EntityId): set<EntityId>
  {
    if id in a then a[id] else {}
  }

  function Count(a: Assignments, id: EntityId): nat
  {
    |Members(a, id)|
  }

  /** Fewer than three attackers so far. */
  predicate Open(a: Assignments, e: Mob)
  {
    Count(a, e.id) < MaxAttackersPerTarget
  }

  /** No threat has more than three attackers. */
  predicate Capped(a: Assignments)
  {
    forall id :: id in a ==> |a[id]| <= MaxAttackersPerTarget
  }

  /** The source's `distanceToTroop + 0.5 * distanceToCastle`, doubled so it stays an integer. */
  function Score(troop: Unit, e: Mob, castle: Pos): int
  {
    2 * DistSq(troop.pos, e.pos) + DistSq(e.pos, castle)
  }

  /** The scan of `enemies[..k]` has picked `best`: the first open enemy of
      least score, or none when none was open. */
  predicate BestSoFar(troop: Unit, enemies: seq<Mob>, castle: Pos, a: Assignments, k: nat, best: Option<nat>)
    requires k <= |enemies|
  {
    match best
    case None => forall j :: 0 <= j < k ==> !Open(a, enemies[j])
    case Some(b) =>
      && b < k && Open(a, enemies[b])
      && (forall j :: 0 <= j < k && Open(a, enemies[j]) ==> Score(troop, enemies[b], castle) <= Score(troop, enemies[j], castle))
      && (forall j :: 0 <= j < b && Open(a, enemies[j]) ==> Score(troop, enemies[b], castle) < Score(troop, enemies[j], castle))
  }

  /** One step of the scan of `assignTroopsToTargets`: enemy `k`, when it is
      open and strictly better than the pick so far, replaces it. */
  function BestStep(troop: Unit, enemies: seq<Mob>, castle: Pos, a: Assignments, k: nat, best: Option<nat>): Option<nat>
    requires k < |enemies|
    requires best.Some? ==> best.value < |enemies|
  {
    if !Open(a, enemies[k]) then best
    else if best.None? || Score(troop, enemies[k], castle) < Score(troop, enemies[best.value], castle) then Some(k)
    else best
  }

  /** The scan of `assignTroopsToTargets` from index `k` on, with `best` the
      pick so far. */
  function BestFrom(troop: Unit, enemies: seq<Mob>, castle: Pos, a: Assignments, k: nat, best: Option<nat>): Option<nat>
    requires k <= |enemies|
    requires best.Some? ==> best.value < |enemies|
    decreases |enemies| - k
  {
    if k == |enemies| then best
    else BestFrom(troop, enemies, castle, a, k + 1, BestStep(troop, enemies, castle, a, k, best))
  }

  /** One step of the scan keeps `BestSoFar`. */
  lemma BestStepKeeps(troop: Unit, enemies: seq<Mob>, castle: Pos, a: Assignments, k: nat, best: Option<nat>)
    requires k < |enemies|
    requires BestSoFar(troop, enemies, castle, a, k, best)
    ensures BestSoFar(troop, enemies, castle, a, k + 1, BestStep(troop, enemies, castle, a, k, best))
  {
    var sk := Score(troop, enemies[k], castle);
    if Open(a, enemies[k]) && best.Some? {
      var sb := Score(troop, enemies[best.value], castle);
      if sk < sb {
        assert forall j :: 0 <= j < k && Open(a, enemies[j]) ==> sb <= Score(troop, enemies[j], castle);
      }
    }
  }

  /** Each step of the scan keeps `BestSoFar`, so the whole scan ends with it. */
  lemma {:induction false} BestFromFinds(troop: Unit, enemies: seq<Mob>, castle: Pos, a: Assignments, k: nat, best: Option<nat>)
    requires k <= |enemies|
    requires BestSoFar(troop, enemies, castle, a, k, best)
    ensures best.Some? ==> best.value < |enemies|
    ensures BestSoFar(troop, enemies, castle, a, |enemies|, BestFrom(troop, enemies, castle, a, k, best))
    decreases |enemies| - k
  {
    if k < |enemies| {
      BestStepKeeps(troop, enemies, castle, a, k, best);
      BestFromFinds(troop, enemies, castle, a, k + 1, BestStep(troop, enemies, castle, a, k, best));
    }
  }

  /** The inner loop of `assignTroopsToTargets`: the index of the first threat
      with the least score among those with fewer than three attackers. */
  function BestTarget(troop: Unit, enemies: seq<Mob>, castle: Pos, a: Assignments): (r: Option<nat>)
    ensures r.Some? ==> r.value < |enemies|
  {
    BestFromFinds(troop, enemies, castle, a, 0, None);
    BestFrom(troop, enemies, castle, a, 0, None)
  }

  /** A threat is picked exactly when one still has room, and the one picked has room. */
  lemma BestTargetFindsOpen(troop: Unit, enemies: seq<Mob>, castle: Pos, a: Assignments)
    ensures var r := BestTarget(troop, enemies, castle, a);
      && (r.None? <==> forall j :: 0 <= j < |enemies| ==> !Open(a, enemies[j]))
      && (r.Some? ==> Open(a, enemies[r.value]))
  {
    BestFromFinds(troop, enemies, castle, a, 0, None);
  }

  /** The threat picked has the least score among those still open, and no
      earlier open threat ties with it. */
  lemma BestTargetIsFirstLeast(troop: Unit, enemies: seq<Mob>, castle: Pos, a: Assignments)
    ensures var r := BestTarget(troop, enemies, castle, a);
      && (r.Some? ==> forall j :: 0 <= j < |enemies| && Open(a, enemies[j]) ==>
            Score(troop, enemies[r.value], castle) <= Score(troop, enemies[j], castle))
      && (r.Some? ==> forall j :: 0 <= j < r.value && Open(a, enemies[j]) ==>
            Score(troop, enemies[r.value], castle) < Score(troop, enemies[j], castle))
  {
    BestFromFinds(troop, enemies, castle, a, 0, None);
  }

  function AddAttacker(a: Assignments, target: EntityId, troop: EntityId): (r: Assignments)
    ensures Members(r, target) == Members(a, target) + {troop}
    ensures forall id :: id != target ==> Members(r, id) == Members(a, id)
  {
    a[target := Members(a, target) + {troop}]
  }

  /** One troop of `assignTroopsToTargets`: it takes its best open threat, if
      any, and is recorded as one of its attackers. */
  function Place(u: Unit, enemies: seq<Mob>, castle: Pos, a: Assignments): (r: (Unit, Assignments))
    ensures r.0.(target := u.target) == u
    ensures BestTarget(u, enemies, castle, a).None? ==> r == (u, a)
    ensures BestTarget(u, enemies, castle, a).Some? ==>
      var b := BestTarget(u, enemies, castle, a).value;
      r == (Retarget(u, MobFoe(enemies[b])), AddAttacker(a, enemies[b].id, u.id))
  {
    match BestTarget(u, enemies, castle, a)
    case None => (u, a)
    case Some(b) => (Retarget(u, MobFoe(enemies[b])), AddAttacker(a, enemies[b].id, u.id))
  }

  /** `assignTroopsToTargets`: the troops are placed one after another, each
      seeing the attackers recorded before it. */
  function AssignTroops(troops: seq<Unit>, enemies: seq<Mob>, castle: Pos, a: Assignments): (r: (seq<Unit>, Assignments))
    ensures |r.0| == |troops|
    decreases |troops|
  {
    if |troops| == 0 then ([], a)
    else
      var p := Place(troops[0], enemies, castle, a);
      var rest := AssignTroops(troops[1..], enemies, castle, p.1);
      ([p.0] + rest.0, rest.1)
  }

  lemma AssignTroopsUnfold(troops: seq<Unit>, enemies: seq<Mob>, castle: Pos, a: Assignments)
    requires |troops| > 0
    ensures var p := Place(troops[0], enemies, castle, a);
      var rest := AssignTroops(troops[1..], enemies, castle, p.1);
      AssignTroops(troops, enemies, castle, a) == ([p.0] + rest.0, rest.1)
  {
  }

  lemma AssignTroopsUnfoldRecord(troops: seq<Unit>, enemies: seq<Mob>, castle: Pos, a: Assignments)
    requires |troops| > 0
    ensures AssignTroops(troops, enemies, castle, a).1 ==
      AssignTroops(troops[1..], enemies, castle, Place(troops[0], enemies, castle, a).1).1
  {
  }

  /** Placement changes only targets, and never records a fourth attacker. */
  lemma {:induction false} AssignTroopsKeepsCap(troops: seq<Unit>, enemies: seq<Mob>, castle: Pos, a: Assignments)
    ensures var r := AssignTroops(troops, enemies, castle, a);
      Reordered(troops, r.0) && (Capped(a) ==> Capped(r.1))
    decreases |troops|
  {
    if |troops| > 0 {
      AssignTroopsUnfold(troops, enemies, castle, a);
      var p := Place(troops[0], enemies, castle, a);
      AssignTroopsKeepsCap(troops[1..], enemies, castle, p.1);
      if Capped(a) {
        var best := BestTarget(troops[0], enemies, castle, a);
        BestTargetFindsOpen(troops[0], enemies, castle, a);
        if best.Some? {
          AddAttackerKeepsCap(a, enemies[best.value].id, troops[0].id);
        }
      }
      var r := AssignTroops(troops, enemies, castle, a);
      var rest := AssignTroops(troops[1..], enemies, castle, p.1);
      forall i | 0 <= i < |troops|
        ensures r.0[i].(target := troops[i].target) == troops[i]
      {
        if i > 0 {
          assert r.0[i] == rest.0[i - 1] && troops[i] == troops[1..][i - 1];
        }
      }
    }
  }

  lemma AddAttackerKeepsCap(a: Assignments, target: EntityId, x: EntityId)
    requires Capped(a) && Count(a, target) < MaxAttackersPerTarget
    ensures Capped(AddAttacker(a, target, x))
  {
    var a' := AddAttacker(a, target, x);
    forall id | id in a'
      ensures |a'[id]| <= MaxAttackersPerTarget
    {
      assert a'[id] == Members(a', id);
      if id != target {
        assert Members(a, id) == a[id];
      }
    }
  }

  /** Every troop keeps its target or is sent against one of the threats. */
  lemma {:induction false} AssignTroopsTargetsThreats(troops: seq<Unit>, enemies: seq<Mob>, castle: Pos, a: Assignments)
    ensures var r := AssignTroops(troops, enemies, castle, a).0;
      forall i :: 0 <= i < |troops| ==>
        r[i] == troops[i] || exists b :: 0 <= b < |enemies| && r[i] == Retarget(troops[i], MobFoe(enemies[b]))
    decreases |troops|
  {
    if |troops| > 0 {
      AssignTroopsUnfold(troops, enemies, castle, a);
      var p := Place(troops[0], enemies, castle, a);
      AssignTroopsTargetsThreats(troops[1..], enemies, castle, p.1);
      var r := AssignTroops(troops, enemies, castle, a).0;
      var rest := AssignTroops(troops[1..], enemies, castle, p.1).0;
      forall i | 1 <= i < |troops|
        ensures r[i] == rest[i - 1] && troops[i] == troops[1..][i - 1]
      {
      }
    }
  }

  /** Every troop recorded against some threat. */
  ghost function Recorded(a: Assignments): set<EntityId>
  {
    set id, x | id in a && x in a[id] :: x
  }

  function IdsOf(troops: seq<Unit>): set<EntityId>
  {
    set i | 0 <= i < |troops| :: troops[i].id
  }

  lemma RecordedAdd(a: Assignments, target: EntityId, x: EntityId)
    ensures Recorded(AddAttacker(a, target, x)) == Recorded(a) + {x}
  {
    var a' := AddAttacker(a, target, x);
    forall y | y in Recorded(a')
      ensures y in Recorded(a) + {x}
    {
      var id :| id in a' && y in a'[id];
      assert a'[id] == Members(a', id);
      if y != x {
        assert y in Members(a, id);
      }
    }
    forall y | y in Recorded(a) + {x}
      ensures y in Recorded(a')
    {
      if y == x {
        assert x in a'[target];
      } else {
        var id :| id in a && y in a[id];
        assert y in Members(a, id);
        assert y in a'[id];
      }
    }
  }

  lemma UnrecordedIsNoMember(a: Assignments, id: EntityId, x: EntityId)
    requires x !in Recorded(a)
    ensures x !in Members(a, id)
  {
  }

  /** Only the troops placed are added to the record. */
  lemma {:induction false} AssignTroopsRecordsOnly(troops: seq<Unit>, enemies: seq<Mob>, castle: Pos, a: Assignments)
    ensures Recorded(AssignTroops(troops, enemies, castle, a).1) <= Recorded(a) + IdsOf(troops)
    decreases |troops|
  {
    if |troops| > 0 {
      AssignTroopsUnfoldRecord(troops, enemies, castle, a);
      var p := Place(troops[0], enemies, castle, a);
      AssignTroopsRecordsOnly(troops[1..], enemies, castle, p.1);
      var best := BestTarget(troops[0], enemies, castle, a);
      if best.Some? {
        RecordedAdd(a, enemies[best.value].id, troops[0].id);
      }
      assert Recorded(p.1) <= Recorded(a) + {troops[0].id};
      assert IdsOf(troops) == {troops[0].id} + IdsOf(troops[1..]) by {
        assert troops[0].id in IdsOf(troops);
        forall i | 0 <= i < |troops| - 1
          ensures troops[1..][i].id in IdsOf(troops)
        {
          assert troops[1..][i] == troops[i + 1];
        }
        forall x | x in IdsOf(troops)
          ensures x in {troops[0].id} + IdsOf(troops[1..])
        {
          var i :| 0 <= i < |troops| && troops[i].id == x;
          if i > 0 {
            assert troops[1..][i - 1] == troops[i];
          }
        }
      }
    }
  }

  /** Attackers recorded against the listed threats. */
  function Load(a: Assignments, enemies: seq<Mob>): nat
    decreases |enemies|
  {
    if |enemies| == 0 then 0 else Count(a, enemies[0].id) + Load(a, enemies[1..])
  }

  lemma {:induction false} LoadBound(a: Assignments, enemies: seq<Mob>)
    requires Capped(a)
    ensures Load(a, enemies) <= 3 * |enemies|
    decreases |enemies|
  {
    if |enemies| > 0 {
      LoadBound(a, enemies[1..]);
    }
  }

  lemma {:induction false} LoadFull(a: Assignments, enemies: seq<Mob>)
    requires Capped(a)
    requires forall j :: 0 <= j < |enemies| ==> !Open(a, enemies[j])
    ensures Load(a, enemies) == 3 * |enemies|
    decreases |enemies|
  {
    if |enemies| > 0 {
      assert !Open(a, enemies[0]);
      LoadFull(a, enemies[1..]);
    }
  }

  lemma {:induction false} LoadBump(a: Assignments, enemies: seq<Mob>, b: int, x: EntityId)
    requires DistinctMobIds(enemies)
    requires 0 <= b < |enemies|
    requires x !in Members(a, enemies[b].id)
    ensures Load(AddAttacker(a, enemies[b].id, x), enemies) == Load(a, enemies) + 1
    decreases |enemies|
  {
    var a' := AddAttacker(a, enemies[b].id, x);
    if b == 0 {
      LoadOthers(a, enemies[1..], enemies[0].id, x);
    } else {
      assert enemies[0].id != enemies[b].id;
      LoadBump(a, enemies[1..], b - 1, x);
    }
  }

  lemma {:induction false} LoadOthers(a: Assignments, enemies: seq<Mob>, id: EntityId, x: EntityId)
    requires forall j :: 0 <= j < |enemies| ==> enemies[j].id != id
    ensures Load(AddAttacker(a, id, x), enemies) == Load(a, enemies)
    decreases |enemies|
  {
    if |enemies| > 0 {
      LoadOthers(a, enemies[1..], id, x);
    }
  }

  /** No troop still to be placed is recorded yet. */
  ghost predicate Unrecorded(a: Assignments, troops: seq<Unit>)
  {
    forall i :: 0 <= i < |troops| ==> troops[i].id !in Recorded(a)
  }

  /** The attackers `AssignTroops` records, on their own. */
  function Records(troops: seq<Unit>, enemies: seq<Mob>, castle: Pos, a: Assignments): Assignments
    decreases |troops|
  {
    if |troops| == 0 then a else Records(troops[1..], enemies, castle, Place(troops[0], enemies, castle, a).1)
  }

  lemma {:induction false} RecordsAgree(troops: seq<Unit>, enemies: seq<Mob>, castle: Pos, a: Assignments)
    ensures AssignTroops(troops, enemies, castle, a).1 == Records(troops, enemies, castle, a)
    decreases |troops|
  {
    if |troops| > 0 {
      RecordsAgree(troops[1..], enemies, castle, Place(troops[0], enemies, castle, a).1);
    }
  }

  lemma {:induction false} RecordsFillUp(troops: seq<Unit>, enemies: seq<Mob>, castle: Pos, a: Assignments)
    requires DistinctMobIds(enemies) && DistinctIds(troops)
    requires Capped(a) && Unrecorded(a, troops)
    ensures Load(Records(troops, enemies, castle, a), enemies) ==
            Min(Load(a, enemies) + |troops|, 3 * |enemies|)
    decreases |troops|
  {
    var full := 3 * |enemies|;
    var l := Load(a, enemies);
    LoadBound(a, enemies);
    if |troops| > 0 {
      var a' := Place(troops[0], enemies, castle, a).1;
      PlaceFillsOne(troops, enemies, castle, a);
      assert Load(a', enemies) == Min(l + 1, full);
      RecordsFillUp(troops[1..], enemies, castle, a');
      assert Records(troops, enemies, castle, a) == Records(troops[1..], enemies, castle, a');
      MinStep(l, full, |troops|);
    }
  }

  /** The greedy placement fills the threats up to three attackers each: the
      attackers recorded equal the troops available or three per threat,
      whichever is fewer. */
  lemma AssignTroopsFillsUp(troops: seq<Unit>, enemies: seq<Mob>, castle: Pos, a: Assignments)
    requires DistinctMobIds(enemies) && DistinctIds(troops)
    requires Capped(a) && Unrecorded(a, troops)
    ensures Load(AssignTroops(troops, enemies, castle, a).1, enemies) ==
            Min(Load(a, enemies) + |troops|, 3 * |enemies|)
  {
    RecordsAgree(troops, enemies, castle, a);
    RecordsFillUp(troops, enemies, castle, a);
  }

  lemma MinStep(l: int, full: int, n: int)
    requires l <= full && n >= 1
    ensures Min(Min(l + 1, full) + (n - 1), full) == Min(l + n, full)
  {
  }

  /** Placing one troop records one more attacker unless every threat is full. */
  lemma PlaceFillsOne(troops: seq<Unit>, enemies: seq<Mob>, castle: Pos, a: Assignments)
    requires |troops| > 0
    requires DistinctMobIds(enemies) && DistinctIds(troops)
    requires Capped(a) && Unrecorded(a, troops)
    ensures var a' := Place(troops[0], enemies, castle, a).1;
      && Capped(a') && Unrecorded(a', troops[1..]) && DistinctIds(troops[1..])
      && Load(a', enemies) == Min(Load(a, enemies) + 1, 3 * |enemies|)
  {
    var u := troops[0];
    RestUnrecorded(troops, a);
    LoadBound(a, enemies);
    var best := BestTarget(u, enemies, castle, a);
    BestTargetFindsOpen(u, enemies, castle, a);
    if best.None? {
      LoadFull(a, enemies);
    } else {
      var b := best.value;
      UnrecordedIsNoMember(a, enemies[b].id, u.id);
      LoadBump(a, enemies, b, u.id);
      AddAttackerKeepsInvariant(a, enemies[b].id, troops);
      LoadBound(AddAttacker(a, enemies[b].id, u.id), enemies);
    }
  }

  lemma RestUnrecorded(troops: seq<Unit>, a: Assignments)
    requires |troops| > 0 && DistinctIds(troops) && Unrecorded(a, troops)
    ensures DistinctIds(troops[1..]) && Unrecorded(a, troops[1..])
  {
    assert forall i :: 0 <= i < |troops| - 1 ==> troops[1..][i] == troops[i + 1];
  }

  /** Recording the first troop against a threat below the cap keeps the cap
      and leaves the remaining troops unrecorded. */
  lemma AddAttackerKeepsInvariant(a: Assignments, target: EntityId, troops: seq<Unit>)
    requires |troops| > 0 && DistinctIds(troops) && Unrecorded(a, troops)
    requires Capped(a) && Count(a, target) < MaxAttackersPerTarget
    ensures Capped(AddAttacker(a, target, troops[0].id))
    ensures Unrecorded(AddAttacker(a, target, troops[0].id), troops[1..])
  {
    var a' := AddAttacker(a, target, troops[0].id);
    var rest := troops[1..];
    forall id | id in a'
      ensures |a'[id]| <= MaxAttackersPerTarget
    {
      assert a'[id] == Members(a', id);
      if id != target {
        assert Members(a, id) == a[id];
      }
    }
    RecordedAdd(a, target, troops[0].id);
    forall i | 0 <= i < |rest|
      ensures rest[i].id !in Recorded(a')
    {
      assert rest[i] == troops[i + 1];
      assert troops[i + 1].id != troops[0].id;
    }
  }

  /** The threats `smartDefense` works on, nearest to the castle first. */
  function TerritoryThreats(mobs: seq<Mob>, center: Pos, radius: int): (r: seq<Mob>)
    ensures |r| > 0 <==> ThreatWithin(mobs, center, radius)
  {
    NearestFirst(ThreatsInRadius(mobs, center, radius), center)
  }

  /** `smartDefense`: with no threat in the territory nothing changes; otherwise
      the assignments start afresh and guards, then knights, are placed. */
  function SmartDefense(ai: AIState, mobs: seq<Mob>, center: Pos, radius: int, guards: seq<Unit>, knights: seq<Unit>)
    : (r: (AIState, seq<Unit>, seq<Unit>))
    ensures !ThreatWithin(mobs, center, radius) ==> r == (ai, guards, knights)
    ensures Reordered(guards, r.1) && Reordered(knights, r.2)
    ensures r.0.(assignments := ai.assignments) == ai
    ensures ThreatWithin(mobs, center, radius) || Capped(ai.assignments) ==> Capped(r.0.assignments)
  {
    var threats := TerritoryThreats(mobs, center, radius);
    if |threats| == 0 then (ai, guards, knights)
    else
      var none: Assignments := map[];
      var g := AssignTroops(guards, threats, center, none);
      var k := AssignTroops(knights, threats, center, g.1);
      AssignTroopsKeepsCap(guards, threats, center, none);
      AssignTroopsKeepsCap(knights, threats, center, g.1);
      (ai.(assignments := k.1), g.0, k.0)
  }

  /** Every troop gets a target until each threat has three attackers. */
  lemma {:induction false} SmartDefenseFillsUp(ai: AIState, mobs: seq<Mob>, center: Pos, radius: int, guards: seq<Unit>, knights: seq<Unit>)
    requires DistinctMobIds(mobs) && DistinctIds(guards + knights)
    requires ThreatWithin(mobs, center, radius)
    ensures var r := SmartDefense(ai, mobs, center, radius, guards, knights);
            var threats := TerritoryThreats(mobs, center, radius);
            Load(r.0.assignments, threats) == Min(|guards| + |knights|, 3 * |threats|)
  {
    var threats := TerritoryThreats(mobs, center, radius);
    SmartDefenseRecord(ai, mobs, center, radius, guards, knights);
    NearestThreatsDistinct(mobs, center, radius);
    GuardsThenKnightsFillUp(guards, knights, threats, center);
  }

  /** A guards' pass on a fresh record followed by a knights' pass places
      `min(guards + knights, 3 * threats)` attackers. */
  lemma GuardsThenKnightsFillUp(guards: seq<Unit>, knights: seq<Unit>, threats: seq<Mob>, center: Pos)
    requires DistinctMobIds(threats) && DistinctIds(guards + knights)
    ensures var g := AssignTroops(guards, threats, center, map[]).1;
      Load(AssignTroops(knights, threats, center, g).1, threats) == Min(|guards| + |knights|, 3 * |threats|)
  {
    var g := AssignTroops(guards, threats, center, map[]).1;
    var k := AssignTroops(knights, threats, center, g).1;
    var full := 3 * |threats|;
    GuardsFirst(guards, knights, threats, center);
    DistinctIdsRight(guards, knights);
    assert Capped(g) && Unrecorded(g, knights) && DistinctIds(knights) && DistinctMobIds(threats);
    AssignTroopsFillsUp(knights, threats, center, g);
    assert Load(k, threats) == Min(Load(g, threats) + |knights|, full);
    assert Load(g, threats) == Min(|guards|, full);
    MinAdd(|guards|, |knights|, full);
  }

  /** With a threat in the territory, the record `smartDefense` leaves is the
      one the knights' pass makes on top of the guards' pass. */
  lemma SmartDefenseRecord(ai: AIState, mobs: seq<Mob>, center: Pos, radius: int, guards: seq<Unit>, knights: seq<Unit>)
    requires ThreatWithin(mobs, center, radius)
    ensures var threats := TerritoryThreats(mobs, center, radius);
      SmartDefense(ai, mobs, center, radius, guards, knights).0.assignments
        == AssignTroops(knights, threats, center, AssignTroops(guards, threats, center, map[]).1).1
  {
  }

  lemma DistinctIdsRight(guards: seq<Unit>, knights: seq<Unit>)
    requires DistinctIds(guards + knights)
    ensures DistinctIds(knights)
  {
    var both := guards + knights;
    assert forall i :: 0 <= i < |knights| ==> both[|guards| + i] == knights[i];
  }

  /** After the guards are placed on a fresh record, the record is capped,
      holds `min(guards, 3 * threats)` attackers, and no knight is in it. */
  lemma GuardsFirst(guards: seq<Unit>, knights: seq<Unit>, threats: seq<Mob>, center: Pos)
    requires DistinctMobIds(threats) && DistinctIds(guards + knights)
    ensures var g := AssignTroops(guards, threats, center, map[]).1;
      Load(g, threats) == Min(|guards|, 3 * |threats|) && Capped(g) && Unrecorded(g, knights)
  {
    var both := guards + knights;
    assert DistinctIds(guards) by {
      assert forall i :: 0 <= i < |guards| ==> both[i] == guards[i];
    }
    var empty: Assignments := map[];
    LoadEmpty(threats);
    assert Recorded(empty) == {};
    AssignTroopsFillsUp(guards, threats, center, empty);
    var g := AssignTroops(guards, threats, center, empty).1;
    AssignTroopsKeepsCap(guards, threats, center, empty);
    AssignTroopsRecordsOnly(guards, threats, center, empty);
    forall i | 0 <= i < |knights|
      ensures knights[i].id !in Recorded(g)
    {
      forall j | 0 <= j < |guards|
        ensures guards[j].id != knights[i].id
      {
        assert both[j] == guards[j] && both[|guards| + i] == knights[i];
      }
      assert knights[i].id !in IdsOf(guards);
    }
  }

  lemma MinAdd(g: nat, k: nat, full: nat)
    ensures Min(Min(g, full) + k, full) == Min(g + k, full)
  {
  }

  lemma {:induction false} LoadEmpty(enemies: seq<Mob>)
    ensures Load(map[], enemies) == 0
    decreases |enemies|
  {
    if |enemies| > 0 {
      LoadEmpty(enemies[1..]);
    }
  }

  // ---------------------------------------------------------------- peace and positions

  /** `peacefulExpansion`: every knight's patrol radius becomes 20. */
  function PeacefulExpansion(knights: seq<Unit>): (r: seq<Unit>)
    ensures |r| == |knights|
    ensures forall i :: 0 <= i < |r| ==>
      r[i].patrolRadius == PeacefulPatrolRadius && r[i].(patrolRadius := knights[i].patrolRadius) == knights[i]
  {
    seq(|knights|, i requires 0 <= i < |knights| => SetPatrolRadius(knights[i], PeacefulPatrolRadius))
  }

  /** `distributeGuardsAroundCastle`: guard `i` of `n` gets the post at angle
      2*pi*i/n, 8 blocks from the castle. */
  function DistributeGuards(guards: seq<Unit>): (r: seq<Unit>)
    ensures |r| == |guards|
    ensures forall i :: 0 <= i < |r| ==>
      && r[i].anchor.Ring? && r[i].anchor.slots == |guards| && r[i].anchor.dist == GuardPostDistance
      && r[i].(anchor := guards[i].anchor) == guards[i]
    ensures forall i, j :: 0 <= i < j < |r| ==> r[i].anchor.slot != r[j].anchor.slot
    ensures forall i :: 0 <= i < |r| ==> 0 <= r[i].anchor.slot < |guards|
  {
    seq(|guards|, i requires 0 <= i < |guards| => guards[i].(anchor := Ring(i, |guards|, GuardPostDistance)))
  }

  function Sectors(knights: nat): (s: nat)
    ensures s <= MaxSectors && s <= knights
    ensures knights > 0 ==> s > 0
  {
    Min(knights, MaxSectors)
  }

  /** `distributeKnightsInSectors`: knight `i` patrols, with radius 15, the
      point at angle 2*pi*i/sectors and 15 blocks inside the border; knights
      beyond the eighth share the angles of the first eight. */
  function DistributeKnights(knights: seq<Unit>, radius: int): (r: seq<Unit>)
    ensures |r| == |knights|
    ensures forall i :: 0 <= i < |r| ==>
      && r[i].anchor == Ring(i % Sectors(|knights|), Sectors(|knights|), radius - BorderInset)
      && r[i].patrolRadius == SectorPatrolRadius
      && r[i].(anchor := knights[i].anchor, patrolRadius := knights[i].patrolRadius) == knights[i]
  {
    var s := Sectors(|knights|);
    seq(|knights|, i requires 0 <= i < |knights| =>
      SetPatrolRadius(knights[i].(anchor := Ring(i % s, s, radius - BorderInset)), SectorPatrolRadius))
  }

  /** Up to eight knights each get a sector of their own; from eight knights on,
      every one of the eight sectors is patrolled. */
  lemma {:induction false} KnightSectorsCovered(knights: seq<Unit>, radius: int)
    ensures var r := DistributeKnights(knights, radius);
      && (|knights| <= MaxSectors ==> forall i, j :: 0 <= i < j < |r| ==> r[i].anchor.slot != r[j].anchor.slot)
      && (|knights| >= MaxSectors ==> forall s :: 0 <= s < MaxSectors ==> r[s].anchor.slot == s)
      && forall i :: 0 <= i < |r| ==> 0 <= r[i].anchor.slot < r[i].anchor.slots <= MaxSectors
  {
    var r := DistributeKnights(knights, radius);
    var s := Sectors(|knights|);
    forall i | 0 <= i < |r|
      ensures r[i].anchor.slot == i % s && r[i].anchor.slots == s && 0 <= i % s < s
    {
    }
    if |knights| <= MaxSectors {
      assert s == |knights|;
      forall i | 0 <= i < |r|
        ensures r[i].anchor.slot == i
      {
        ModSmall(i, s);
      }
    }
    if |knights| >= MaxSectors {
      assert s == MaxSectors;
      forall t | 0 <= t < MaxSectors
        ensures r[t].anchor.slot == t
      {
        ModSmall(t, s);
      }
    }
  }

  /** `optimizeTroopPositions`: guards take the eight-block ring around the
      castle and knights the sectors near the border; nothing else about a
      unit changes. */
  function OptimizePositions(guards: seq<Unit>, knights: seq<Unit>, radius: int): (r: (seq<Unit>, seq<Unit>))
    ensures SameUnits(guards, r.0) && SameUnits(knights, r.1)
    ensures forall i :: 0 <= i < |guards| ==>
      r.0[i].anchor == Ring(i, |guards|, GuardPostDistance) && r.0[i].(anchor := guards[i].anchor) == guards[i]
    ensures forall i :: 0 <= i < |knights| ==>
      && r.1[i].anchor.Ring? && r.1[i].anchor.dist == radius - BorderInset && r.1[i].patrolRadius == SectorPatrolRadius
      && r.1[i].(anchor := knights[i].anchor, patrolRadius := knights[i].patrolRadius) == knights[i]
  {
    (DistributeGuards(guards), DistributeKnights(knights, radius))
  }

  // ---------------------------------------------------------------- main loop

  /** The same units, one for one: identity, role, position and target kept. */
  predicate SameUnits(before: seq<Unit>, after: seq<Unit>)
  {
    && |after| == |before|
    && forall i :: 0 <= i < |before| ==>
      after[i].id == before[i].id && after[i].role == before[i].role
      && after[i].pos == before[i].pos && after[i].target == before[i].target
  }

  /** The same units, one for one, with the targets allowed to change. */
  predicate SameBodies(before: seq<Unit>, after: seq<Unit>)
  {
    && |after| == |before|
    && forall i :: 0 <= i < |before| ==>
      after[i].id == before[i].id && after[i].role == before[i].role && after[i].pos == before[i].pos
  }

  predicate AllTargetThreats(us: seq<Unit>, mobs: seq<Mob>, center: Pos, r: int)
  {
    forall i :: 0 <= i < |us| ==> TargetsThreat(us[i], mobs, center, r)
  }

  lemma SameUnitsKeepTargets(before: seq<Unit>, after: seq<Unit>, mobs: seq<Mob>, center: Pos, r: int)
    requires SameUnits(before, after)
    ensures SameBodies(before, after)
    ensures AllTargetThreats(before, mobs, center, r) ==> AllTargetThreats(after, mobs, center, r)
  {
    if AllTargetThreats(before, mobs, center, r) {
      forall i | 0 <= i < |after|
        ensures TargetsThreat(after[i], mobs, center, r)
      {
        assert after[i].target == before[i].target;
      }
    }
  }

  lemma SameBodiesTrans(a: seq<Unit>, b: seq<Unit>, c: seq<Unit>)
    requires SameBodies(a, b) && SameBodies(b, c)
    ensures SameBodies(a, c)
  {
  }

  /** `manageTroops`: the orders for the current threat level. Low threat
      leaves the troops to their patrols. */
  function ManageTroops(ai: AIState, mobs: seq<Mob>, center: Pos, radius: int, guards: seq<Unit>, knights: seq<Unit>)
    : (r: (AIState, seq<Unit>, seq<Unit>))
    ensures SameBodies(guards, r.1) && SameBodies(knights, r.2)
    ensures r.0.level == ai.level && r.0.lastThreatCheck == ai.lastThreatCheck && r.0.lastOptimization == ai.lastOptimization
    ensures ai.level == Low ==> r == (ai, guards, knights)
    ensures ai.level != NoThreat ==> Reordered(guards, r.1) && Reordered(knights, r.2)
    ensures ai.level == NoThreat ==> r.1 == guards && forall i :: 0 <= i < |r.2| ==> r.2[i].patrolRadius == PeacefulPatrolRadius
    ensures ai.level == Critical && ThreatWithin(mobs, center, CriticalThreatRadius) ==>
      AllTargetThreats(r.1, mobs, center, CriticalThreatRadius) && AllTargetThreats(r.2, mobs, center, CriticalThreatRadius)
    ensures ai.level == Medium ==> r == SmartDefense(ai, mobs, center, radius, guards, knights)
  {
    match ai.level
    case Critical =>
      var d := DefendCastleAllForces(mobs, center, guards, knights);
      (ai, d.0, d.1)
    case Medium => SmartDefense(ai, mobs, center, radius, guards, knights)
    case Low => (ai, guards, knights)
    case NoThreat => (ai, guards, PeacefulExpansion(knights))
  }

  /** At a medium threat level the territory's threats are shared out: every
      troop is placed until each threat has three attackers. */
  lemma MediumFillsUp(ai: AIState, mobs: seq<Mob>, center: Pos, radius: int, guards: seq<Unit>, knights: seq<Unit>)
    requires ai.level == Medium && ThreatWithin(mobs, center, radius)
    requires DistinctMobIds(mobs) && DistinctIds(guards + knights)
    ensures Load(ManageTroops(ai, mobs, center, radius, guards, knights).0.assignments, TerritoryThreats(mobs, center, radius))
      == Min(|guards| + |knights|, 3 * |TerritoryThreats(mobs, center, radius)|)
    ensures Capped(ManageTroops(ai, mobs, center, radius, guards, knights).0.assignments)
  {
    SmartDefenseFillsUp(ai, mobs, center, radius, guards, knights);
  }

  /** The threat level and check time after the five-second reassessment. */
  function Reassess(ai: AIState, now: int, mobs: seq<Mob>, center: Pos, radius: int): (r: AIState)
    ensures T.Due(ai.lastThreatCheck, now, ThreatCheckInterval) ==>
      r.level == Classify(mobs, center, radius) && r.lastThreatCheck == now
    ensures !T.Due(ai.lastThreatCheck, now, ThreatCheckInterval) ==> r == ai
    ensures r.lastOptimization == ai.lastOptimization && r.assignments == ai.assignments
  {
    if T.Due(ai.lastThreatCheck, now, ThreatCheckInterval)
    then ai.(level := Classify(mobs, center, radius), lastThreatCheck := now)
    else ai
  }

  /** `evaluateSituation` at game time `now`: reassess the threat every 40
      ticks, give the orders, and reposition every 40 ticks. The units that
      come out are the units that went in, and under a critical threat every
      one of them targets a monster within 32 blocks of the castle. */
  function EvaluateSituation(ai: AIState, now: int, mobs: seq<Mob>, center: Pos, radius: int, guards: seq<Unit>, knights: seq<Unit>)
    : (r: (AIState, seq<Unit>, seq<Unit>))
    ensures T.Due(ai.lastThreatCheck, now, ThreatCheckInterval) ==>
      r.0.level == Classify(mobs, center, radius) && r.0.lastThreatCheck == now
    ensures !T.Due(ai.lastThreatCheck, now, ThreatCheckInterval) ==>
      r.0.level == ai.level && r.0.lastThreatCheck == ai.lastThreatCheck
    ensures r.0.lastOptimization == if T.Due(ai.lastOptimization, now, OptimizationInterval) then now else ai.lastOptimization
    ensures SameBodies(guards, r.1) && SameBodies(knights, r.2)
    ensures r.0.level == Critical && ThreatWithin(mobs, center, CriticalThreatRadius) ==>
      AllTargetThreats(r.1, mobs, center, CriticalThreatRadius) && AllTargetThreats(r.2, mobs, center, CriticalThreatRadius)
  {
    var checked := Reassess(ai, now, mobs, center, radius);
    var m := ManageTroops(checked, mobs, center, radius, guards, knights);
    if T.Due(ai.lastOptimization, now, OptimizationInterval) then
      var o := OptimizePositions(m.1, m.2, radius);
      SameUnitsKeepTargets(m.1, o.0, mobs, center, CriticalThreatRadius);
      SameUnitsKeepTargets(m.2, o.1, mobs, center, CriticalThreatRadius);
      SameBodiesTrans(guards, m.1, o.0);
      SameBodiesTrans(knights, m.2, o.1);
      (m.0.(lastOptimization := now), o.0, o.1)
    else m
  }

  // ---------------------------------------------------------------- recruitment advice

  datatype Recruit = NoRecruit | EmergencyGuard | CastleGuard | PatrolKnight | SpareGuard | SpareKnight

  /** One knight per 30 blocks of radius, at least three. */
  function OptimalKnights(radius: int): (n: int)
    ensures n >= 3
    ensures radius >= 0 ==> n * 30 + 30 > radius
  {
    Max(3, JavaDiv(radius, 30))
  }

  /** The decision `smartRecruit` makes. The source's inner tests against 100
      and 200 points sit under a test against 500 and always pass. */
  function SmartRecruitChoice(level: ThreatLevel, points: int, guards: int, knights: int, radius: int): (c: Recruit)
    ensures c == EmergencyGuard <==> level == Critical && guards + knights < 5 && points >= 50
    ensures c == CastleGuard ==> guards < MinGuards && points >= 100
    ensures c == PatrolKnight ==> knights < OptimalKnights(radius) && points >= 200 && (guards >= MinGuards || points < 100)
    ensures (c == SpareGuard || c == SpareKnight) ==> points >= 500 && guards >= MinGuards && knights >= OptimalKnights(radius)
    ensures c == SpareGuard ==> guards < knights
    ensures c == NoRecruit <==>
      (points < 50 || (points < 500 && !(level == Critical && guards + knights < 5) &&
        (guards >= MinGuards || points < 100) && (knights >= OptimalKnights(radius) || points < 200)))
  {
    if level == Critical && guards + knights < 5 && points >= 50 then EmergencyGuard
    else if guards < MinGuards && points >= 100 then CastleGuard
    else if knights < OptimalKnights(radius) && points >= 200 then PatrolKnight
    else if points >= 500 then (if guards < knights then SpareGuard else SpareKnight)
    else NoRecruit
  }

  /** `smartRecruit` on the territory, with the spawn search as an oracle. */
  function SmartRecruit(t: T.Territory, level: ThreatLevel, guards: int, knights: int, spawn: Option<Pos>)
    : (r: (T.Territory, Option<T.Spawn>))
    ensures r.0.points == t.points || r.0.points == t.points - T.GuardCost || r.0.points == t.points - T.KnightCost
    ensures r.0.points < t.points <==> r.1.Some?
    ensures r.1.Some? ==> SmartRecruitChoice(level, t.points, guards, knights, t.radius) != NoRecruit
    ensures r.0.radius == t.radius && r.0.reserve == t.reserve && r.0.chunks == t.chunks && r.0.center == t.center
    ensures var c := SmartRecruitChoice(level, t.points, guards, knights, t.radius);
      && (spawn.None? ==> r == (t, None))
      && (spawn.Some? && c != NoRecruit ==> r.1.Some? && r.1.value.pos == spawn.value)
      && (r.1.Some? ==> (r.1.value.role == Guard <==> c == EmergencyGuard || c == CastleGuard || c == SpareGuard))
      && (r.1.Some? ==> (r.1.value.role == Knight <==> c == PatrolKnight || c == SpareKnight))
  {
    match SmartRecruitChoice(level, t.points, guards, knights, t.radius)
    case NoRecruit => (t, None)
    case EmergencyGuard => T.RecruitGuard(t, spawn)
    case CastleGuard => T.RecruitGuard(t, spawn)
    case SpareGuard => T.RecruitGuard(t, spawn)
    case PatrolKnight => T.RecruitKnight(t, spawn)
    case SpareKnight => T.RecruitKnight(t, spawn)
  }

  /** Every purchase is covered by the balance: a guard is bought with at least
      50 points and a knight with at least 200, so points never go negative. */
  lemma SmartRecruitNeverOverdraws(t: T.Territory, level: ThreatLevel, guards: int, knights: int, spawn: Option<Pos>)
    requires t.points >= 0
    ensures SmartRecruit(t, level, guards, knights, spawn).0.points >= 0
    ensures var r := SmartRecruit(t, level, guards, knights, spawn);
      r.1.Some? && r.1.value.role == Knight ==> r.0.points >= 200 - T.KnightCost
  {
  }

  /** `shouldExpand`. */
  predicate ShouldExpand(level: ThreatLevel, points: int, knights: int)
  {
    level == NoThreat && points > 300 && knights >= 3
  }

  /** The advice is weaker than the expansion gate: whenever the territory can
      pay for growing it has been advised to when at peace with three knights,
      but advice at 301 points leaves a 50-block territory unchanged. */
  lemma {:induction false} AdviceIsWeakerThanGate(t: T.Territory, living: int, knights: int)
    requires t.radius >= 0 && knights >= 3
    ensures T.CanExpand(t, living) ==> ShouldExpand(NoThreat, t.points, knights)
    ensures var s := T.Territory("k", Pos(0, 64, 0), 50, 301, 0, {}, []);
      ShouldExpand(NoThreat, s.points, 3) && T.Expand(s, 100) == s
  {
  }
}

=== FILE: common.dfy ===
/** Shared vocabulary of the kingdom model: optional values, block positions,
    axis-aligned search boxes, Java integer arithmetic, and the combat units
    (guards and knights) that every component reads or retargets. */
module Common {

  /** The conventional Some/None datatype, standing in for Java's nullable references. */
  datatype Option<+T> = None | Some(value: T)

  /** Entity identities (Java UUIDs). */
  type EntityId = int

  /** A block position in the world. */
  datatype Pos = Pos(x: int, y: int, z: int)

  function Sq(n: int): (r: int)
    ensures r >= 0
    ensures r == 0 <==> n == 0
  {
    if n >= 0 then SqNat(n) else SqNat(-n)
  }

  function SqNat(n: nat): (r: nat)
    ensures r == n * n
    ensures n > 0 ==> r >= n
  {
    n * n
  }

  /** Squared Euclidean distance between two block positions. */
  function DistSq(a: Pos, b: Pos): (d: int)
    ensures d >= 0
    ensures d == 0 <==> a == b
  {
    Sq(a.x - b.x) + Sq(a.y - b.y) + Sq(a.z - b.z)
  }

  lemma DistSqSymmetric(a: Pos, b: Pos)
    ensures DistSq(a, b) == DistSq(b, a)
  {
    assert Sq(a.x - b.x) == Sq(b.x - a.x);
    assert Sq(a.y - b.y) == Sq(b.y - a.y);
    assert Sq(a.z - b.z) == Sq(b.z - a.z);
  }

  /** The box from `center.offset(-r, -below, -r)` to `center.offset(r, above, r)`
      that the source hands to its entity queries. */
  predicate InBox(center: Pos, r: int, below: int, above: int, p: Pos)
  {
    && center.x - r <= p.x <= center.x + r
    && center.y - below <= p.y <= center.y + above
    && center.z - r <= p.z <= center.z + r
  }

  /** The vertical extent most queries use: 50 blocks below to 100 above the center. */
  predicate InTallBox(center: Pos, r: int, p: Pos)
  {
    InBox(center, r, 50, 100, p)
  }

  /** Java's `/` on int: the quotient is truncated toward zero. */
  function JavaDiv(a: int, b: int): (q: int)
    requires b > 0
    ensures a >= 0 ==> 0 <= q * b <= a < q * b + b
    ensures a < 0 ==> q * b - b < a <= q * b <= 0
  {
    if a >= 0 then
      DivBounds(a, b);
      a / b
    else
      DivBounds(-a, b);
      NegMul(-a / b, b);
      -((-a) / b)
  }

  lemma DivBounds(m: int, b: int)
    requires m >= 0 && b > 0
    ensures 0 <= (m / b) * b <= m < (m / b) * b + b
  {
  }

  lemma NegMul(q: int, b: int)
    ensures (-q) * b == -(q * b)
  {
  }

  /** Java's `%` on int: the remainder takes the sign of the dividend. */
  function JavaRem(a: int, b: int): (m: int)
    requires b > 0
    ensures a == JavaDiv(a, b) * b + m
    ensures a >= 0 ==> 0 <= m < b
    ensures a < 0 ==> -b < m <= 0
  {
    a - JavaDiv(a, b) * b
  }

  /** Java's `(int)` cast of a non-integral value: truncation toward zero. */
  function TruncReal(x: real): (n: int)
    ensures x >= 0.0 ==> n as real <= x < n as real + 1.0
    ensures x < 0.0 ==> n as real - 1.0 < x <= n as real
  {
    if x >= 0.0 then x.Floor else -((-x).Floor)
  }

  /** `Math.ceil` on an exact value. */
  function CeilReal(x: real): (n: int)
    ensures n as real - 1.0 < x <= n as real
  {
    -((-x).Floor)
  }

  function Min(a: int, b: int): int { if a <= b then a else b }
  function Max(a: int, b: int): int { if a >= b then a else b }

  /** The two kinds of kingdom warrior. */
  datatype Role = Guard | Knight

  /** A snapshot of the entity a unit targets: who it is, whether it is alive,
      and its current health. */
  datatype Foe = Foe(id: EntityId, alive: bool, health: real)

  /** Where a unit is anchored. `Ring(slot, slots, dist)` stands for the point at
      angle 2*pi*slot/slots and distance `dist` from the castle center; the
      trigonometry itself is not part of this model. */
  datatype Anchor = Spot(p: Pos) | Ring(slot: int, slots: int, dist: int)

  /** A guard or knight as the decision core sees it. */
  datatype Unit = Unit(
    id: EntityId,
    role: Role,
    pos: Pos,
    alive: bool,
    health: real,
    target: Option<Foe>,
    anchor: Anchor,
    patrolRadius: int
  )

  /** The most a knight's patrol radius may be set to. */
  const MaxPatrolRadius := 30

  /** A target that is present and still alive. */
  predicate HasLiveTarget(u: Unit)
  {
    u.target.Some? && u.target.value.alive
  }

  function Retarget(u: Unit, f: Foe): (r: Unit)
    ensures r.target == Some(f)
    ensures r.(target := u.target) == u
  {
    u.(target := Some(f))
  }

  /** Setting a knight's patrol radius keeps it at most 30 blocks. */
  function SetPatrolRadius(u: Unit, radius: int): (r: Unit)
    ensures r.patrolRadius <= MaxPatrolRadius
    ensures radius <= MaxPatrolRadius ==> r.patrolRadius == radius
    ensures radius > MaxPatrolRadius ==> r.patrolRadius == MaxPatrolRadius
    ensures r.(patrolRadius := u.patrolRadius) == u
  {
    u.(patrolRadius := Min(radius, MaxPatrolRadius))
  }

  /** Mob categories that matter to the core; every other category is `OtherCategory`. */
  datatype Category = MonsterCategory | CreatureCategory | AmbientCategory | WaterCreatureCategory | OtherCategory

  /** A non-player mob as the sensors report it. `monster` says it is of the
      Monster class, `warrior` that it is one of the kingdom's own guards or
      knights, and `surface` is the terrain half of the surface test. */
  datatype Mob = Mob(
    id: EntityId,
    pos: Pos,
    alive: bool,
    health: real,
    monster: bool,
    warrior: bool,
    category: Category,
    surface: bool,
    neutral: bool,
    angry: bool
  )

  function MobFoe(m: Mob): Foe
  {
    Foe(m.id, m.alive, m.health)
  }

  /** No two elements share an identity. */
  predicate DistinctIds(us: seq<Unit>)
  {
    forall i, j :: 0 <= i < j < |us| ==> us[i].id != us[j].id
  }

  predicate DistinctMobIds(ms: seq<Mob>)
  {
    forall i, j :: 0 <= i < j < |ms| ==> ms[i].id != ms[j].id
  }
}

=== FILE: events.dfy ===
/** The death handler: a warrior's kill earns the kingdom points (and may grow
    it), and a warrior's death raises the revenge alarm against a player killer
    and sends free warriors after whoever struck the blow.

    The entity queries become inputs: `units` are the kingdom's warriors, and
    `living` is the count of living warriors that the expansion gate uses. */
module Events {
  import opened Common
  import opened Seqs
  import T = Territory
  import R = Revenge

  const RewardDivisor: real := 10.0
  const CloseRange := 30
  const MiddleRange := 60

  /** What an entity in a damage source is. */
  datatype Kind = WarriorKind | PlayerKind | OtherLiving | NotLiving

  datatype Entity = Entity(id: EntityId, kind: Kind, alive: bool, removed: bool, health: real)

  /** `entity` is the one responsible, `direct` the one that struck (an arrow,
      say, or the attacker itself). */
  datatype Source = Source(entity: Option<Entity>, direct: Option<Entity>)

  /** The dead entity: a kingdom warrior (also a mob), another mob, or any
      other living entity. */
  datatype VictimKind = WarriorVictim | MobVictim | OtherVictim

  datatype Victim = Victim(kind: VictimKind, maxHealth: real, pos: Pos)

  datatype Kingdom = Kingdom(t: T.Territory, memory: R.Memory, units: seq<Unit>)

  // ---------------------------------------------------------------- rewards

  /** `Math.max(1, (int) (maxHealth / 10.0))`: one point per full ten health,
      and never less than one. */
  function KillReward(maxHealth: real): (n: int)
    ensures n >= 1
    ensures maxHealth >= RewardDivisor ==> n as real * RewardDivisor <= maxHealth < (n + 1) as real * RewardDivisor
    ensures maxHealth < 2.0 * RewardDivisor ==> n == 1
  {
    Max(1, TruncReal(maxHealth / RewardDivisor))
  }

  predicate KilledByWarrior(s: Source)
  {
    s.entity.Some? && s.entity.value.kind == WarriorKind
  }

  /** Step 1 of `onEntityDeath`: a mob killed by a warrior earns the reward,
      then the territory tries to expand. The flag says whether the border
      flags are placed again. */
  function RewardKill(t: T.Territory, living: int, v: Victim, s: Source): (r: (T.Territory, bool))
    ensures !KilledByWarrior(s) || v.kind == OtherVictim ==> r == (t, false)
    ensures KilledByWarrior(s) && v.kind != OtherVictim ==>
      var paid := T.AddPoints(t, KillReward(v.maxHealth), "kill");
      && r.0 == T.Expand(paid, living)
      && (r.1 <==> T.CanExpand(paid, living))
  {
    if KilledByWarrior(s) && v.kind != OtherVictim then
      var grown := T.Expand(T.AddPoints(t, KillReward(v.maxHealth), "kill"), living);
      (grown, grown.radius > t.radius)
    else (t, false)
  }

  /** A kill grows the territory by at most one step and never shrinks it, and
      the flags are placed again exactly when it grew. */
  lemma RewardKillGrowsByOneStepAtMost(t: T.Territory, living: int, v: Victim, s: Source)
    ensures var r := RewardKill(t, living, v, s);
      && (r.0.radius == t.radius || r.0.radius == t.radius + T.ExpansionStep)
      && (r.1 <==> r.0.radius > t.radius)
      && r.0.center == t.center
  {
  }

  // ---------------------------------------------------------------- reinforcements

  /** Who struck the blow: the direct entity when it is living, else the
      responsible one when it is. */
  function Killer(s: Source): (r: Option<Entity>)
    ensures r.Some? ==> r.value.kind != NotLiving
    ensures r.Some? ==> r == s.direct || r == s.entity
    ensures r.None? <==> (s.direct.None? || s.direct.value.kind == NotLiving) &&
                         (s.entity.None? || s.entity.value.kind == NotLiving)
  {
    if s.direct.Some? && s.direct.value.kind != NotLiving then s.direct
    else if s.entity.Some? && s.entity.value.kind != NotLiving then s.entity
    else None
  }

  /** A warrior the reinforcement query returns: alive, without a target, and
      inside the territory box. */
  predicate FreeTroop(u: Unit, t: T.Territory)
  {
    u.alive && u.target.None? && InTallBox(t.center, t.radius, u.pos)
  }

  /** A free warrior of the given role. */
  function FreeOf(t: T.Territory, role: Role): Unit -> bool
  {
    (u: Unit) => FreeTroop(u, t) && u.role == role
  }

  /** The indices, from `k` on and in order, of the free warriors of a role. */
  function FreeOfRole(units: seq<Unit>, t: T.Territory, role: Role, k: nat): (r: seq<nat>)
    requires k <= |units|
    ensures forall j :: 0 <= j < |r| ==> k <= r[j] < |units| && FreeTroop(units[r[j]], t) && units[r[j]].role == role
    ensures forall i :: k <= i < |units| && FreeTroop(units[i], t) && units[i].role == role ==> i in r
  {
    var r := IndicesFrom(units, FreeOf(t, role), k);
    assert forall j :: 0 <= j < |r| ==> FreeOf(t, role)(units[r[j]]);
    r
  }

  /** Free guards first, then free knights. */
  function Available(units: seq<Unit>, t: T.Territory): seq<nat>
  {
    FreeOfRole(units, t, Guard, 0) + FreeOfRole(units, t, Knight, 0)
  }

  /** How many troops are asked for, by the squared distance from the death to
      the castle: half of them (but three at least) within 30 blocks, five
      within 60, three further out. */
  function ReinforcementRequest(distSq: int, n: int): int
  {
    if distSq < CloseRange * CloseRange then Max(3, JavaDiv(n, 2))
    else if distSq < MiddleRange * MiddleRange then Min(5, n)
    else Min(3, n)
  }

  /** How many are sent out of `n` free troops. */
  function ReinforcementCount(distSq: int, n: nat): (c: nat)
    ensures c <= n
    ensures c >= Min(3, n)
  {
    Min(ReinforcementRequest(distSq, n), n)
  }

  /** Near the castle half the free troops go once there are six or more;
      in the middle band at most five go, and further out at most three. */
  lemma ReinforcementBands(distSq: int, n: nat)
    ensures distSq < CloseRange * CloseRange && n >= 6 ==>
      2 * ReinforcementCount(distSq, n) <= n < 2 * ReinforcementCount(distSq, n) + 2
    ensures distSq < CloseRange * CloseRange && n < 6 ==> ReinforcementCount(distSq, n) == Min(3, n)
    ensures CloseRange * CloseRange <= distSq < MiddleRange * MiddleRange ==> ReinforcementCount(distSq, n) == Min(5, n)
    ensures distSq >= MiddleRange * MiddleRange ==> ReinforcementCount(distSq, n) == Min(3, n)
  {
  }

  /** With eight free troops a death beside the castle sends four, while one
      40 blocks out sends five. */
  lemma CloseDeathCanSendFewer()
    ensures ReinforcementCount(0, 8) == 4
    ensures ReinforcementCount(40 * 40, 8) == 5
  {
  }

  /** The troops that answer the call. */
  function Reinforcements(units: seq<Unit>, t: T.Territory, deathPos: Pos): (r: seq<nat>)
    ensures r <= Available(units, t)
    ensures |r| == ReinforcementCount(DistSq(deathPos, t.center), |Available(units, t)|)
  {
    var avail := Available(units, t);
    Take(avail, ReinforcementCount(DistSq(deathPos, t.center), |avail|))
  }

  /** `callReinforcements`: the troops sent target the killer when it is still
      alive and in the world; otherwise they only walk to the place of death. */
  function CallReinforcements(units: seq<Unit>, t: T.Territory, deathPos: Pos, killer: Entity): (r: seq<Unit>)
    ensures |r| == |units|
    ensures !killer.alive || killer.removed ==> r == units
  {
    if killer.alive && !killer.removed then
      R.Dispatch(units, Reinforcements(units, t, deathPos), Foe(killer.id, true, killer.health))
    else units
  }

  /** Exactly the troops sent change, each of them free, each taking the killer
      as its target; they are distinct, and a knight goes only once every free
      guard has gone. */
  lemma {:induction false} ReinforcementsSendFreeGuardsFirst(units: seq<Unit>, t: T.Territory, deathPos: Pos, killer: Entity)
    requires killer.alive && !killer.removed
    ensures var sent := Reinforcements(units, t, deathPos);
            var r := CallReinforcements(units, t, deathPos, killer);
      && |sent| == ReinforcementCount(DistSq(deathPos, t.center), |Available(units, t)|)
      && DistinctBy(sent, R.Identity)
      && (forall i :: 0 <= i < |units| ==> (r[i] != units[i] <==> i in sent))
      && (forall i :: 0 <= i < |units| && i in sent ==>
            FreeTroop(units[i], t) && r[i] == Retarget(units[i], Foe(killer.id, true, killer.health)))
      && ((exists j :: 0 <= j < |sent| && units[sent[j]].role == Knight) ==>
            forall i :: 0 <= i < |units| && FreeTroop(units[i], t) && units[i].role == Guard ==> i in sent)
  {
    var sent := Reinforcements(units, t, deathPos);
    var r := CallReinforcements(units, t, deathPos, killer);
    var f := Foe(killer.id, true, killer.health);
    SentAreFree(units, t, deathPos);
    SentDistinct(units, t, deathPos);
    SentGuardsFirst(units, t, deathPos);
    forall i | 0 <= i < |units|
      ensures r[i] != units[i] <==> i in sent
    {
      if i in sent {
        var j :| 0 <= j < |sent| && sent[j] == i;
        assert r[i].target == Some(f) && units[i].target.None?;
      }
    }
    forall i | 0 <= i < |units| && i in sent
      ensures FreeTroop(units[i], t)
    {
      var j :| 0 <= j < |sent| && sent[j] == i;
    }
  }

  /** Every troop sent is a free troop of the kingdom. */
  lemma SentAreFree(units: seq<Unit>, t: T.Territory, deathPos: Pos)
    ensures var sent := Reinforcements(units, t, deathPos);
      forall j :: 0 <= j < |sent| ==> sent[j] < |units| && FreeTroop(units[sent[j]], t)
  {
    var avail := Available(units, t);
    var sent := Reinforcements(units, t, deathPos);
    assert forall j :: 0 <= j < |sent| ==> sent[j] == avail[j];
  }

  /** No troop is sent twice. */
  lemma SentDistinct(units: seq<Unit>, t: T.Territory, deathPos: Pos)
    ensures DistinctBy(Reinforcements(units, t, deathPos), R.Identity)
  {
    var gs := FreeOfRole(units, t, Guard, 0);
    var ks := FreeOfRole(units, t, Knight, 0);
    var avail := gs + ks;
    var sent := Reinforcements(units, t, deathPos);
    assert forall j :: 0 <= j < |sent| ==> sent[j] == avail[j];
    forall a, b | 0 <= a < b < |sent|
      ensures R.Identity(sent[a]) != R.Identity(sent[b])
    {
      if b < |gs| {
        IndicesAscending(units, FreeOf(t, Guard), 0);
        assert gs[a] < gs[b];
      } else if a >= |gs| {
        IndicesAscending(units, FreeOf(t, Knight), 0);
        assert ks[a - |gs|] < ks[b - |gs|];
      } else {
        assert units[sent[a]].role == Guard && units[sent[b]].role == Knight;
      }
    }
  }

  /** A knight is sent only once every free guard has been sent. */
  lemma SentGuardsFirst(units: seq<Unit>, t: T.Territory, deathPos: Pos)
    ensures var sent := Reinforcements(units, t, deathPos);
      (exists j :: 0 <= j < |sent| && units[sent[j]].role == Knight) ==>
        forall i :: 0 <= i < |units| && FreeTroop(units[i], t) && units[i].role == Guard ==> i in sent
  {
    var gs := FreeOfRole(units, t, Guard, 0);
    var ks := FreeOfRole(units, t, Knight, 0);
    var avail := gs + ks;
    var sent := Reinforcements(units, t, deathPos);
    if exists j :: 0 <= j < |sent| && units[sent[j]].role == Knight {
      var j :| 0 <= j < |sent| && units[sent[j]].role == Knight;
      assert |gs| <= j by {
        assert sent[j] == avail[j];
      }
      PrefixPastFirstCovers(gs, ks, sent);
    }
  }

  // ---------------------------------------------------------------- the handler

  /** `onEntityDeath`: reward, then for a dead warrior the revenge alarm
      against a player and the call for reinforcements against the killer.
      Nothing happens without a kingdom. The flag says whether the border
      flags are placed again. */
  function OnEntityDeath(k: Option<Kingdom>, living: int, now: int, players: map<EntityId, R.Player>,
                         v: Victim, s: Source): (r: (Option<Kingdom>, bool))
    ensures k.None? ==> r == (None, false)
    ensures k.Some? ==> r.0.Some? && |r.0.value.units| == |k.value.units|
    ensures k.Some? && v.kind != WarriorVictim ==> r.0.value.units == k.value.units && r.0.value.memory == k.value.memory
    ensures k.Some? ==> r.0.value.t == RewardKill(k.value.t, living, v, s).0 && r.1 == RewardKill(k.value.t, living, v, s).1
    ensures k.Some? && v.kind == WarriorVictim && !(s.entity.Some? && s.entity.value.kind == PlayerKind) ==>
      && r.0.value.memory == k.value.memory
      && r.0.value.units == (if Killer(s).None? then k.value.units
                             else CallReinforcements(k.value.units, RewardKill(k.value.t, living, v, s).0, v.pos, Killer(s).value))
    ensures k.Some? && v.kind == WarriorVictim && s.entity.Some? && s.entity.value.kind == PlayerKind ==>
      r.0.value.memory == R.OnWarriorKilled(k.value.memory, now, Some(s.entity.value.id), players, k.value.units, RewardKill(k.value.t, living, v, s).0).0
  {
    match k
    case None => (None, false)
    case Some(kd) =>
      var (t, flags) := RewardKill(kd.t, living, v, s);
      if v.kind != WarriorVictim then (Some(kd.(t := t)), flags)
      else
        var (mem, alerted) :=
          if s.entity.Some? && s.entity.value.kind == PlayerKind
          then R.OnWarriorKilled(kd.memory, now, Some(s.entity.value.id), players, kd.units, t)
          else (kd.memory, kd.units);
        var units :=
          match Killer(s)
          case None => alerted
          case Some(killer) => CallReinforcements(alerted, t, v.pos, killer);
        (Some(Kingdom(t, mem, units)), flags)
  }

  /** When anything but a player kills a warrior and lives on, the call for
      reinforcements turns free warriors on it: exactly the troops it picks
      change, each was free and now targets the killer, as many as the
      distance bands allow, and the revenge memory is untouched. */
  lemma NonPlayerKillCallsReinforcements(kd: Kingdom, living: int, now: int, players: map<EntityId, R.Player>,
                                         v: Victim, s: Source)
    requires v.kind == WarriorVictim && !(s.entity.Some? && s.entity.value.kind == PlayerKind)
    requires Killer(s).Some? && Killer(s).value.alive && !Killer(s).value.removed
    ensures var r := OnEntityDeath(Some(kd), living, now, players, v, s).0.value;
      var t := RewardKill(kd.t, living, v, s).0;
      var sent := Reinforcements(kd.units, t, v.pos);
      var killer := Killer(s).value;
      && r.memory == kd.memory
      && |sent| == ReinforcementCount(DistSq(v.pos, t.center), |Available(kd.units, t)|)
      && (forall i :: 0 <= i < |kd.units| ==> (r.units[i] != kd.units[i] <==> i in sent))
      && (forall i :: 0 <= i < |kd.units| && i in sent ==>
            FreeTroop(kd.units[i], t) && r.units[i] == Retarget(kd.units[i], Foe(killer.id, true, killer.health)))
  {
    ReinforcementsSendFreeGuardsFirst(kd.units, RewardKill(kd.t, living, v, s).0, v.pos, Killer(s).value);
  }

  /** When an online player kills a warrior, the alarm turns every warrior of
      the territory on them, so the call for reinforcements finds nobody free
      and the alarm is all that happens to the warriors. */
  lemma PlayerKillLeavesNoneFree(kd: Kingdom, living: int, now: int, players: map<EntityId, R.Player>,
                                 v: Victim, s: Source)
    requires v.kind == WarriorVictim
    requires s.entity.Some? && s.entity.value.kind == PlayerKind && s.entity.value.id in players
    ensures var r := OnEntityDeath(Some(kd), living, now, players, v, s).0.value;
      && r.memory == R.OnWarriorKilled(kd.memory, now, Some(s.entity.value.id), players, kd.units, kd.t).0
      && r.units == R.AlertAllies(kd.units, kd.t, players[s.entity.value.id])
      && kd.memory.Keys + {s.entity.value.id} == r.memory.Keys
  {
    var p := players[s.entity.value.id];
    AlertLeavesNoneFree(kd.units, kd.t, p);
    var alerted := R.AlertAllies(kd.units, kd.t, p);
    assert RewardKill(kd.t, living, v, s).0 == kd.t;
    match Killer(s)
    case None =>
    case Some(killer) =>
      assert CallReinforcements(alerted, kd.t, v.pos, killer) == alerted by {
        if killer.alive && !killer.removed {
          assert Reinforcements(alerted, kd.t, v.pos) == [];
        }
      }
  }

  /** After the alarm no warrior of the territory is free. */
  lemma AlertLeavesNoneFree(units: seq<Unit>, t: T.Territory, p: R.Player)
    ensures Available(R.AlertAllies(units, t, p), t) == []
  {
    var alerted := R.AlertAllies(units, t, p);
    assert forall i :: 0 <= i < |alerted| ==> !FreeTroop(alerted[i], t);
    NoneFreeNoneListed(alerted, t, Guard, 0);
    NoneFreeNoneListed(alerted, t, Knight, 0);
  }

  lemma {:induction false} NoneFreeNoneListed(units: seq<Unit>, t: T.Territory, role: Role, k: nat)
    requires k <= |units|
    requires forall i :: k <= i < |units| ==> !FreeTroop(units[i], t)
    ensures FreeOfRole(units, t, role, k) == []
    decreases |units| - k
  {
    if k < |units| {
      NoneFreeNoneListed(units, t, role, k + 1);
    }
  }
}

=== FILE: income.dfy ===
/** Passive income: every 1200 ticks the kingdom earns one point per full 50
    blocks of territory radius. */
module Income {
  import opened Common
  import T = Territory

  const BlocksPerPoint := 50
  const IncomeInterval := 1200

  /** Income per payout: `radius / 50`, truncated as Java does. */
  function IncomeFor(radius: int): (n: int)
    ensures radius >= 0 ==> n * BlocksPerPoint <= radius < n * BlocksPerPoint + BlocksPerPoint
    ensures radius < BlocksPerPoint ==> n <= 0
  {
    JavaDiv(radius, BlocksPerPoint)
  }

  /** `calculateAndApplyIncome`: points rise by the income when it is positive;
      a territory below 50 blocks earns nothing. */
  function ApplyIncome(t: T.Territory): (r: T.Territory)
    ensures r.points == t.points + Max(0, IncomeFor(t.radius))
    ensures t.radius < BlocksPerPoint ==> r == t
    ensures t.radius >= BlocksPerPoint ==> r == T.AddPoints(t, IncomeFor(t.radius), "territory income")
    ensures r.radius == t.radius && r.center == t.center && r.chunks == t.chunks && r.reserve == t.reserve
  {
    var income := IncomeFor(t.radius);
    if income > 0 then T.AddPoints(t, income, "territory income") else t
  }

  /** One call of the income system's `tick`: the new counter and territory. */
  function Tick(counter: int, t: T.Territory): (r: (int, T.Territory))
    ensures 0 <= counter < IncomeInterval ==> 0 <= r.0 < IncomeInterval
    ensures counter + 1 >= IncomeInterval ==> r == (0, ApplyIncome(t))
    ensures counter + 1 < IncomeInterval ==> r == (counter + 1, t)
  {
    var next := counter + 1;
    if next >= IncomeInterval then (0, ApplyIncome(t)) else (next, t)
  }

  /** `getIncomePerMinute`: the income shown for a radius. */
  function IncomePerMinute(radius: int): (n: int)
  {
    JavaDiv(radius, BlocksPerPoint)
  }

  /** The displayed income per minute is what a payout actually adds, and
      exactly that whenever the radius is not negative (a negative display
      earns nothing). */
  lemma IncomePerMinuteIsApplied(t: T.Territory)
    ensures ApplyIncome(t).points - t.points == Max(0, IncomePerMinute(t.radius))
    ensures t.radius >= 0 ==> ApplyIncome(t).points - t.points == IncomePerMinute(t.radius)
  {
  }

  /** `getBlocksToNextIncome`: how much the radius must still grow before the
      income goes up by one. */
  function BlocksToNextIncome(radius: int): (n: int)
    ensures radius >= 0 ==> 1 <= n <= BlocksPerPoint
    ensures radius >= 0 ==> IncomeFor(radius + n) == IncomeFor(radius) + 1
    ensures radius >= 0 ==> forall r' :: radius <= r' < radius + n ==> IncomeFor(r') == IncomeFor(radius)
    ensures radius < 0 ==> BlocksPerPoint <= n < 2 * BlocksPerPoint
  {
    var n := BlocksPerPoint - JavaRem(radius, BlocksPerPoint);
    if radius >= 0 then
      IncomeConstantUpTo(radius, n);
      n
    else n
  }

  lemma IncomeConstantUpTo(radius: int, n: int)
    requires radius >= 0 && n == BlocksPerPoint - JavaRem(radius, BlocksPerPoint)
    ensures forall r' :: radius <= r' < radius + n ==> IncomeFor(r') == IncomeFor(radius)
  {
    forall r' | radius <= r' < radius + n
      ensures IncomeFor(r') == IncomeFor(radius)
    {
    }
  }

  /** `resetTimer`. */
  function ResetTimer(counter: int): (c: int)
    ensures c == 0
  {
    0
  }

  /** Calling the income tick `k` times in a row. */
  function RunTicks(counter: int, t: T.Territory, k: nat): (r: (int, T.Territory))
    decreases k
  {
    if k == 0 then (counter, t)
    else
      var step := Tick(counter, t);
      RunTicks(step.0, step.1, k - 1)
  }

  /** How many of those `k` ticks paid out. */
  function Payouts(counter: int, k: nat): (p: nat)
    decreases k
  {
    if k == 0 then 0
    else if counter + 1 >= IncomeInterval then 1 + Payouts(0, k - 1)
    else Payouts(counter + 1, k - 1)
  }

  /** Over any `k` consecutive ticks the counter and the number of payouts
      split `counter + k` as quotient and remainder by 1200: income arrives
      exactly once per 1200 ticks, and each payout adds the same income. */
  lemma {:induction false} RunTicksPaysOncePerInterval(counter: int, t: T.Territory, k: nat)
    requires 0 <= counter < IncomeInterval
    ensures var (c, r) := RunTicks(counter, t, k);
            var p := Payouts(counter, k);
            && 0 <= c < IncomeInterval
            && p * IncomeInterval + c == counter + k
            && r.points == t.points + p * Max(0, IncomeFor(t.radius))
            && r.radius == t.radius
    decreases k
  {
    if k > 0 {
      var step := Tick(counter, t);
      assert RunTicks(counter, t, k) == RunTicks(step.0, step.1, k - 1);
      RunTicksPaysOncePerInterval(step.0, step.1, k - 1);
      var p' := Payouts(step.0, k - 1);
      if counter + 1 >= IncomeInterval {
        var i := Max(0, IncomeFor(t.radius));
        assert Payouts(counter, k) == p' + 1;
        assert step.1.points == t.points + i && step.1.radius == t.radius;
        MulSucc(p', i);
        MulSucc(p', IncomeInterval);
      } else {
        assert Payouts(counter, k) == p' && step.1 == t;
      }
    }
  }

  lemma MulSucc(p: int, i: int)
    ensures (p + 1) * i == p * i + i
  {
  }

  /** After `resetTimer` the next payout comes on exactly the 1200th tick. */
  lemma ResetDelaysNextIncome(counter: int, t: T.Territory)
    ensures Payouts(ResetTimer(counter), IncomeInterval - 1) == 0
    ensures Payouts(ResetTimer(counter), IncomeInterval) == 1
  {
    RunTicksPaysOncePerInterval(0, t, IncomeInterval - 1);
    RunTicksPaysOncePerInterval(0, t, IncomeInterval);
  }
}

=== FILE: manager.dfy ===
/** The registry of kingdoms: at most one kingdom per dimension, kept in
    memory and handed to the dimension's saved data, which writes it out with
    `save` and reads it back with `load` when the world is loaded again. */
module Manager {
  import T = Territory
  import opened Common

  /** A dimension's key, such as "minecraft:overworld". */
  type Dim = string

  /** The kingdoms in memory, and the kingdom each dimension's saved data holds. */
  datatype Registry = Registry(kingdoms: map<Dim, T.Territory>, saved: map<Dim, T.Territory>)

  const Empty := Registry(map[], map[])

  /** `registerKingdom`: the kingdom becomes the dimension's kingdom, replacing
      any earlier one, and is written to the dimension's saved data. */
  function Register(reg: Registry, d: Dim, k: T.Territory): (r: Registry)
    ensures r.kingdoms.Keys == reg.kingdoms.Keys + {d} && r.saved.Keys == reg.saved.Keys + {d}
    ensures r.kingdoms[d] == k && r.saved[d] == k
    ensures forall e :: e in reg.kingdoms && e != d ==> r.kingdoms[e] == reg.kingdoms[e]
    ensures forall e :: e in reg.saved && e != d ==> r.saved[e] == reg.saved[e]
  {
    Registry(reg.kingdoms[d := k], reg.saved[d := k])
  }

  /** `getKingdom`. */
  function Get(reg: Registry, d: Dim): (r: Option<T.Territory>)
    ensures r.Some? <==> d in reg.kingdoms
  {
    if d in reg.kingdoms then Some(reg.kingdoms[d]) else None
  }

  /** `getKingdomAt`: the dimension's kingdom, if the position lies inside it. */
  function GetAt(reg: Registry, d: Dim, p: Pos): (r: Option<T.Territory>)
    ensures r.Some? <==> d in reg.kingdoms && T.IsInTerritory(reg.kingdoms[d], p)
    ensures r.Some? ==> r == Get(reg, d)
  {
    match Get(reg, d)
    case Some(k) => if T.IsInTerritory(k, p) then Some(k) else None
    case None => None
  }

  /** `loadKingdoms`: the dimension's saved kingdom, when there is one, becomes
      its kingdom; the saved data itself is left alone. */
  function LoadKingdoms(reg: Registry, d: Dim): (r: Registry)
    ensures r.saved == reg.saved
    ensures d !in reg.saved ==> r == reg
    ensures d in reg.saved ==> r.kingdoms == reg.kingdoms[d := reg.saved[d]]
  {
    if d in reg.saved then reg.(kingdoms := reg.kingdoms[d := reg.saved[d]]) else reg
  }

  /** `clearKingdoms`: forget every kingdom in memory; saved data stays. */
  function Clear(reg: Registry): (r: Registry)
    ensures forall d :: Get(r, d).None?
    ensures r.saved == reg.saved
  {
    reg.(kingdoms := map[])
  }

  /** A registered kingdom is what the dimension answers with, and a second
      registration replaces the first. */
  lemma RegisterThenGet(reg: Registry, d: Dim, k: T.Territory, k2: T.Territory)
    ensures Get(Register(reg, d, k), d) == Some(k)
    ensures Register(Register(reg, d, k), d, k2) == Register(reg, d, k2)
  {
  }

  /** The server stops and starts again: memory is empty, and each saved
      kingdom has been written out with `save` and read back with `load`. */
  function Restart(reg: Registry): (r: Registry)
    ensures r.kingdoms == map[]
    ensures r.saved.Keys == reg.saved.Keys
  {
    Registry(map[], map d | d in reg.saved :: T.Load(T.Save(reg.saved[d])))
  }

  /** Registering a kingdom, clearing memory and loading the dimension again
      gives back the very same kingdom. */
  lemma RegisterClearLoad(reg: Registry, d: Dim, k: T.Territory)
    ensures Get(LoadKingdoms(Clear(Register(reg, d, k)), d), d) == Some(k)
  {
  }

  /** Across a restart a registered kingdom comes back with the same name,
      center, radius, points, reserve and log, and unchanged altogether when
      its chunk set is in order. */
  lemma {:induction false} RegisterRestartLoadRoundTrip(reg: Registry, d: Dim, k: T.Territory)
    ensures var back := Get(LoadKingdoms(Restart(Register(reg, d, k)), d), d);
      && back.Some?
      && back.value.name == k.name && back.value.center == k.center && back.value.radius == k.radius
      && back.value.points == k.points && back.value.reserve == k.reserve && back.value.log == k.log
      && (T.Valid(k) ==> back == Some(k))
  {
    T.SaveLoadRoundTrip(k);
  }

  /** Loading one dimension leaves every other dimension as it was. */
  lemma LoadTouchesOneDimension(reg: Registry, d: Dim, e: Dim)
    requires e != d
    ensures Get(LoadKingdoms(reg, d), e) == Get(reg, e)
  {
  }
}

=== FILE: revenge.dfy ===
/** The revenge system: a player who kills a kingdom warrior is remembered for
    12000 ticks, every warrior of the territory turns on them at once, and a
    squad of the nearest free warriors is sent whenever they come back while
    still remembered. The leash `checkWarriorBounds`, which makes a warrior
    that chased past the border give up, is modelled as written; no code in
    these files calls it.

    Online players are a map from identity to a snapshot; the warriors are
    the kingdom's units, of which the source's box query keeps the live ones
    inside the territory box. */
module Revenge {
  import opened Common
  import opened Seqs
  import T = Territory

  const MemoryDuration := 12000
  const MinSquad := 3
  const MaxSquad := 5

  /** Player identity to the game time at which the player is forgotten. */
  type Memory = map<EntityId, int>

  datatype Player = Player(id: EntityId, pos: Pos, health: real)

  function PlayerFoe(p: Player): Foe
  {
    Foe(p.id, true, p.health)
  }

  /** A warrior the source's query returns: alive and inside the territory box. */
  predicate Mustered(u: Unit, t: T.Territory)
  {
    u.alive && InTallBox(t.center, t.radius, u.pos)
  }

  // ---------------------------------------------------------------- a warrior is killed

  /** `alertAlliesForRevenge`: every mustered warrior targets the killer; no
      other unit changes. */
  function AlertAllies(units: seq<Unit>, t: T.Territory, killer: Player): (r: seq<Unit>)
    ensures |r| == |units|
    ensures forall i :: 0 <= i < |units| ==>
      r[i] == if Mustered(units[i], t) then Retarget(units[i], PlayerFoe(killer)) else units[i]
  {
    seq(|units|, i requires 0 <= i < |units| =>
      if Mustered(units[i], t) then Retarget(units[i], PlayerFoe(killer)) else units[i])
  }

  /** `onWarriorKilled` at game time `now`: a killer that is known and online
      is remembered until `now + 12000`, replacing any earlier entry, and the
      alarm is raised; otherwise nothing happens. */
  function OnWarriorKilled(mem: Memory, now: int, killer: Option<EntityId>, players: map<EntityId, Player>,
                           units: seq<Unit>, t: T.Territory): (r: (Memory, seq<Unit>))
    ensures killer.None? || killer.value !in players ==> r == (mem, units)
    ensures killer.Some? && killer.value in players ==>
      && r.0.Keys == mem.Keys + {killer.value}
      && r.0[killer.value] == now + MemoryDuration
      && (forall id :: id in mem && id != killer.value ==> r.0[id] == mem[id])
      && r.1 == AlertAllies(units, t, players[killer.value])
  {
    match killer
    case None => (mem, units)
    case Some(k) =>
      if k !in players then (mem, units)
      else (mem[k := now + MemoryDuration], AlertAllies(units, t, players[k]))
  }

  /** Reporting the same kill a second time, at the same game time, changes
      nothing more. */
  lemma KilledTwiceIsKilledOnce(mem: Memory, now: int, killer: Option<EntityId>, players: map<EntityId, Player>,
                                units: seq<Unit>, t: T.Territory)
    ensures var once := OnWarriorKilled(mem, now, killer, players, units, t);
            OnWarriorKilled(once.0, now, killer, players, once.1, t) == once
  {
    var once := OnWarriorKilled(mem, now, killer, players, units, t);
    if killer.Some? && killer.value in players {
      var twice := OnWarriorKilled(once.0, now, killer, players, once.1, t);
      assert twice.0 == once.0;
      assert forall i :: 0 <= i < |units| ==> Mustered(once.1[i], t) == Mustered(units[i], t);
      assert twice.1 == once.1;
    }
  }

  // ---------------------------------------------------------------- forgetting

  /** The `removeIf` of `checkForRememberedPlayers`: entries due at or before
      `now` are dropped. */
  function Sweep(mem: Memory, now: int): (r: Memory)
    ensures forall id :: id in r <==> id in mem && mem[id] > now
    ensures forall id :: id in r ==> r[id] == mem[id]
  {
    map id | id in mem && mem[id] > now :: mem[id]
  }

  /** A player remembered at time `k` is still remembered 11999 ticks later and
      forgotten by the sweep 12000 ticks later. */
  lemma MemoryLasts12000Ticks(mem: Memory, now: int, killer: EntityId, players: map<EntityId, Player>,
                              units: seq<Unit>, t: T.Territory)
    requires killer in players
    ensures var m := OnWarriorKilled(mem, now, Some(killer), players, units, t).0;
            && killer in Sweep(m, now + MemoryDuration - 1)
            && killer !in Sweep(m, now + MemoryDuration)
  {
  }

  /** `isPlayerRemembered` asks for the key only. */
  predicate IsPlayerRemembered(mem: Memory, id: EntityId)
  {
    id in mem
  }

  /** An expired entry still counts as remembered until a sweep removes it. */
  lemma ExpiredRememberedUntilSweep(mem: Memory, id: EntityId, now: int)
    requires id in mem && mem[id] <= now
    ensures IsPlayerRemembered(mem, id)
    ensures !IsPlayerRemembered(Sweep(mem, now), id)
  {
  }

  // ---------------------------------------------------------------- the revenge squad

  /** Free for the squad: mustered and with no target at all. */
  predicate FreeWarrior(u: Unit, t: T.Territory)
  {
    Mustered(u, t) && u.target.None?
  }

  /** The indices, from `k` on and in order, of the free warriors. */
  function FreeFrom(units: seq<Unit>, t: T.Territory, k: nat): (r: seq<nat>)
    requires k <= |units|
    ensures forall j :: 0 <= j < |r| ==> k <= r[j] < |units| && FreeWarrior(units[r[j]], t)
    ensures forall i :: k <= i < |units| && FreeWarrior(units[i], t) ==> i in r
    ensures forall a, b :: 0 <= a < b < |r| ==> r[a] < r[b]
    decreases |units| - k
  {
    if k == |units| then []
    else if FreeWarrior(units[k], t) then [k] + FreeFrom(units, t, k + 1)
    else FreeFrom(units, t, k + 1)
  }

  function Identity(i: nat): int
  {
    i
  }

  /** Squared distance from warrior `i` to the player. */
  function DistTo(units: seq<Unit>, p: Player): nat -> int
  {
    (i: nat) => if i < |units| then DistSq(units[i].pos, p.pos) else 0
  }

  /** The free warriors, nearest to the player first. */
  function Candidates(units: seq<Unit>, t: T.Territory, p: Player): (r: seq<nat>)
    ensures SortedBy(r, DistTo(units, p))
    ensures multiset(r) == multiset(FreeFrom(units, t, 0))
  {
    SortBy(FreeFrom(units, t, 0), DistTo(units, p))
  }

  /** The candidates are exactly the free warriors, each listed once. */
  lemma CandidatesAreFree(units: seq<Unit>, t: T.Territory, p: Player)
    ensures var r := Candidates(units, t, p);
      && (forall j :: 0 <= j < |r| ==> r[j] < |units| && FreeWarrior(units[r[j]], t))
      && (forall i :: 0 <= i < |units| && FreeWarrior(units[i], t) ==> i in r)
      && DistinctBy(r, Identity)
  {
    var free := FreeFrom(units, t, 0);
    var r := Candidates(units, t, p);
    forall j | 0 <= j < |r|
      ensures r[j] < |units| && FreeWarrior(units[r[j]], t)
    {
      assert r[j] in multiset(free);
    }
    forall i | 0 <= i < |units| && FreeWarrior(units[i], t)
      ensures i in r
    {
      assert i in multiset(free);
    }
    assert DistinctBy(free, Identity) by {
      forall a, b | 0 <= a < b < |free|
        ensures Identity(free[a]) != Identity(free[b])
      {
      }
    }
    DistinctBySubMultiset<nat>(r, free, Identity);
  }

  /** `Math.min(5, Math.max(3, n))`. */
  function SquadSize(n: int): (s: int)
    ensures MinSquad <= s <= MaxSquad
    ensures n < MinSquad ==> s == MinSquad
    ensures n > MaxSquad ==> s == MaxSquad
    ensures MinSquad <= n <= MaxSquad ==> s == n
  {
    Min(MaxSquad, Max(MinSquad, n))
  }

  /** Every unit whose index is in `squad` targets `f`; the rest are unchanged. */
  function Dispatch(units: seq<Unit>, squad: seq<nat>, f: Foe): (r: seq<Unit>)
    ensures |r| == |units|
    ensures forall i :: 0 <= i < |units| ==> r[i] == if i in squad then Retarget(units[i], f) else units[i]
  {
    seq(|units|, i requires 0 <= i < |units| => if i in squad then Retarget(units[i], f) else units[i])
  }

  /** What `sendRevengeSquad` leaves behind: the units, and whether the loop
      ran off the end of the warrior list. */
  datatype Outcome = Done(units: seq<Unit>) | OutOfBounds(units: seq<Unit>)

  /** `sendRevengeSquad` as written: the loop runs `min(5, max(3, n))` times
      over a list of `n` free warriors, so with one or two of them it sends
      them and then fails on the next index. */
  function SendRevengeSquadAsWritten(units: seq<Unit>, t: T.Territory, p: Player): (r: Outcome)
    ensures var n := |Candidates(units, t, p)|;
      && (n == 0 ==> r == Done(units))
      && (r.OutOfBounds? <==> 0 < n < MinSquad)
      && (r.OutOfBounds? ==> r.units == Dispatch(units, Candidates(units, t, p), PlayerFoe(p)))
  {
    var c := Candidates(units, t, p);
    if |c| == 0 then Done(units)
    else
      var size := SquadSize(|c|);
      if size > |c| then OutOfBounds(Dispatch(units, c, PlayerFoe(p)))
      else Done(Dispatch(units, c[..size], PlayerFoe(p)))
  }

  /** With a single free warrior the loop asks for a second one that is not
      there. */
  lemma RevengeSquadOverrunsShortList()
    ensures var t := T.Territory("k", Pos(0, 64, 0), 50, 0, 0, {}, []);
            var u := Unit(1, Knight, Pos(5, 64, 0), true, 20.0, None, Spot(Pos(0, 64, 0)), 15);
            SendRevengeSquadAsWritten([u], t, Player(7, Pos(8, 64, 0), 20.0)).OutOfBounds?
  {
    var t := T.Territory("k", Pos(0, 64, 0), 50, 0, 0, {}, []);
    var u := Unit(1, Knight, Pos(5, 64, 0), true, 20.0, None, Spot(Pos(0, 64, 0)), 15);
    var p := Player(7, Pos(8, 64, 0), 20.0);
    assert FreeWarrior(u, t);
    assert FreeFrom([u], t, 1) == [];
    assert FreeFrom([u], t, 0) == [0];
    assert |Candidates([u], t, p)| == 1;
  }

  /** The squad as evidently intended: the nearest `min(5, n)` free warriors,
      at least three when there are three to take. */
  function Squad(units: seq<Unit>, t: T.Territory, p: Player): (squad: seq<nat>)
    ensures var c := Candidates(units, t, p);
      && |squad| == Min(MaxSquad, |c|)
      && squad <= c
  {
    var c := Candidates(units, t, p);
    Take(c, Min(SquadSize(|c|), |c|))
  }

  /** `sendRevengeSquad`, corrected: the squad is the free warriors nearest the
      player, at most five of them; everyone else is unchanged. */
  function SendRevengeSquad(units: seq<Unit>, t: T.Territory, p: Player): (r: seq<Unit>)
    ensures |r| == |units|
    ensures forall i :: 0 <= i < |units| ==>
      r[i] == if i in Squad(units, t, p) then Retarget(units[i], PlayerFoe(p)) else units[i]
  {
    Dispatch(units, Squad(units, t, p), PlayerFoe(p))
  }

  /** The squad holds distinct free warriors, `min(5, n)` of them, and no free
      warrior left behind is nearer the player than one sent. */
  lemma {:induction false} SquadIsNearestFree(units: seq<Unit>, t: T.Territory, p: Player)
    ensures var c := Candidates(units, t, p);
            var squad := Squad(units, t, p);
      && |squad| == Min(MaxSquad, |c|)
      && DistinctBy(squad, Identity)
      && (forall j :: 0 <= j < |squad| ==> squad[j] < |units| && FreeWarrior(units[squad[j]], t))
      && (forall j, i :: 0 <= j < |squad| && 0 <= i < |units| && FreeWarrior(units[i], t) && i !in squad ==>
            DistSq(units[squad[j]].pos, p.pos) <= DistSq(units[i].pos, p.pos))
  {
    var c := Candidates(units, t, p);
    var squad := Squad(units, t, p);
    var n := |squad|;
    var key := DistTo(units, p);
    CandidatesAreFree(units, t, p);
    assert squad == c[..n];
    forall j, i | 0 <= j < n && 0 <= i < |units| && FreeWarrior(units[i], t) && i !in squad
      ensures DistSq(units[squad[j]].pos, p.pos) <= DistSq(units[i].pos, p.pos)
    {
      PrefixIsNearest(c, n, key, i);
      assert key(c[j]) <= key(i);
    }
  }

  /** In a sequence sorted by `key`, every element of a prefix has a key no
      larger than that of an element outside the prefix. */
  lemma PrefixIsNearest(c: seq<nat>, n: nat, key: nat -> int, x: nat)
    requires SortedBy(c, key) && n <= |c|
    requires x in c && x !in c[..n]
    ensures forall j :: 0 <= j < n ==> key(c[j]) <= key(x)
  {
    var m :| 0 <= m < |c| && c[m] == x;
    assert m >= n;
  }

  /** Where the source does not fail, the corrected squad does what it does. */
  lemma SquadAgreesWhenLongEnough(units: seq<Unit>, t: T.Territory, p: Player)
    requires SendRevengeSquadAsWritten(units, t, p).Done?
    ensures SendRevengeSquadAsWritten(units, t, p).units == SendRevengeSquad(units, t, p)
  {
  }

  // ---------------------------------------------------------------- returning players

  /** The squads sent, one remembered player after another in the order the
      key set is walked: each one online and inside the territory gets one. */
  function SendSquads(order: seq<EntityId>, mem: Memory, players: map<EntityId, Player>,
                      units: seq<Unit>, t: T.Territory): (r: seq<Unit>)
    ensures |r| == |units|
    decreases |order|
  {
    if |order| == 0 then units
    else
      var id := order[0];
      var next :=
        if id in mem && id in players && T.IsInTerritory(t, players[id].pos)
        then SendRevengeSquad(units, t, players[id])
        else units;
      SendSquads(order[1..], mem, players, next, t)
  }

  /** A player who came back: remembered, online, and inside the territory. */
  predicate Returned(id: EntityId, mem: Memory, players: map<EntityId, Player>, t: T.Territory)
  {
    id in mem && id in players && T.IsInTerritory(t, players[id].pos)
  }

  /** Squads only change targets, and every unit they change targets a
      returned player. */
  lemma {:induction false} SendSquadsTargetsReturned(order: seq<EntityId>, mem: Memory, players: map<EntityId, Player>,
                                                     units: seq<Unit>, t: T.Territory)
    ensures var r := SendSquads(order, mem, players, units, t);
      forall i :: 0 <= i < |units| ==>
        r[i] == units[i] ||
        (r[i].(target := units[i].target) == units[i] &&
         exists j :: 0 <= j < |order| && Returned(order[j], mem, players, t) && r[i].target == Some(PlayerFoe(players[order[j]])))
    decreases |order|
  {
    if |order| > 0 {
      var id := order[0];
      var next :=
        if Returned(id, mem, players, t) then SendRevengeSquad(units, t, players[id]) else units;
      SendSquadsTargetsReturned(order[1..], mem, players, next, t);
      var r := SendSquads(order, mem, players, units, t);
      assert r == SendSquads(order[1..], mem, players, next, t);
      forall i | 0 <= i < |units|
        ensures r[i] == units[i] ||
          (r[i].(target := units[i].target) == units[i] &&
           exists j :: 0 <= j < |order| && Returned(order[j], mem, players, t) && r[i].target == Some(PlayerFoe(players[order[j]])))
      {
        if r[i] != next[i] {
          var j :| 0 <= j < |order| - 1 && Returned(order[1..][j], mem, players, t)
                   && r[i].target == Some(PlayerFoe(players[order[1..][j]]));
          assert order[1..][j] == order[j + 1];
        } else if next[i] != units[i] {
          assert r[i].target == Some(PlayerFoe(players[order[0]]));
        }
      }
    }
  }

  /** `checkForRememberedPlayers` at game time `now`: forget the expired
      entries, then send a squad after each remembered player who is back in
      the territory. `order` is the order in which the key set is walked. */
  function CheckForRememberedPlayers(mem: Memory, now: int, order: seq<EntityId>, players: map<EntityId, Player>,
                                     units: seq<Unit>, t: T.Territory): (r: (Memory, seq<Unit>))
    ensures r.0 == Sweep(mem, now)
    ensures |r.1| == |units|
    ensures (forall j :: 0 <= j < |order| ==> !Returned(order[j], r.0, players, t)) ==> r.1 == units
    ensures forall j :: 0 <= j < |order| && Returned(order[j], r.0, players, t) ==>
      SquadChases(SendSquads(order[..j], r.0, players, units, t), r.1, t, players[order[j]])
  {
    var kept := Sweep(mem, now);
    NoReturnNoSquad(order, kept, players, units, t);
    EveryReturnedIsChased(order, kept, players, units, t);
    (kept, SendSquads(order, kept, players, units, t))
  }

  lemma {:induction false} NoReturnNoSquad(order: seq<EntityId>, mem: Memory, players: map<EntityId, Player>,
                                           units: seq<Unit>, t: T.Territory)
    ensures (forall j :: 0 <= j < |order| ==> !Returned(order[j], mem, players, t)) ==>
      SendSquads(order, mem, players, units, t) == units
    decreases |order|
  {
    if |order| > 0 {
      NoReturnNoSquad(order[1..], mem, players, units, t);
      if forall j :: 0 <= j < |order| ==> !Returned(order[j], mem, players, t) {
        assert !Returned(order[0], mem, players, t);
        assert forall j :: 0 <= j < |order| - 1 ==> order[1..][j] == order[j + 1];
      }
    }
  }

  /** The squad `sendRevengeSquad` picks from `before` for player `p` ends up
      in `after` targeting `p`. */
  predicate SquadChases(before: seq<Unit>, after: seq<Unit>, t: T.Territory, p: Player)
  {
    forall i :: 0 <= i < |before| && i in Squad(before, t, p) ==>
      i < |after| && after[i] == Retarget(before[i], PlayerFoe(p))
  }

  /** Walking two lists of players is walking the first, then the second. */
  lemma {:induction false} SendSquadsAppend(a: seq<EntityId>, b: seq<EntityId>, mem: Memory, players: map<EntityId, Player>,
                                            units: seq<Unit>, t: T.Territory)
    ensures SendSquads(a + b, mem, players, units, t) == SendSquads(b, mem, players, SendSquads(a, mem, players, units, t), t)
    decreases |a|
  {
    if |a| == 0 {
      assert a + b == b;
    } else {
      var next := if Returned(a[0], mem, players, t) then SendRevengeSquad(units, t, players[a[0]]) else units;
      assert (a + b)[0] == a[0];
      assert (a + b)[1..] == a[1..] + b;
      SendSquadsAppend(a[1..], b, mem, players, next, t);
    }
  }

  /** A squad takes only free warriors, so a warrior that already has a target
      keeps it through every later squad. */
  lemma {:induction false} SendSquadsKeepsBusy(order: seq<EntityId>, mem: Memory, players: map<EntityId, Player>,
                                               units: seq<Unit>, t: T.Territory)
    ensures forall i :: 0 <= i < |units| && units[i].target.Some? ==> SendSquads(order, mem, players, units, t)[i] == units[i]
    decreases |order|
  {
    if |order| > 0 {
      var id := order[0];
      var next := if Returned(id, mem, players, t) then SendRevengeSquad(units, t, players[id]) else units;
      if Returned(id, mem, players, t) {
        SquadIsNearestFree(units, t, players[id]);
        forall i | 0 <= i < |units| && units[i].target.Some?
          ensures next[i] == units[i]
        {
          assert i !in Squad(units, t, players[id]);
        }
      }
      SendSquadsKeepsBusy(order[1..], mem, players, next, t);
    }
  }

  /** Every returned player is chased: the squad picked from the warriors the
      earlier squads left free targets that player, and later squads leave it
      alone. */
  lemma ReturnedGetsSquad(order: seq<EntityId>, mem: Memory, players: map<EntityId, Player>,
                          units: seq<Unit>, t: T.Territory, j: nat)
    requires j < |order| && Returned(order[j], mem, players, t)
    ensures SquadChases(SendSquads(order[..j], mem, players, units, t), SendSquads(order, mem, players, units, t), t, players[order[j]])
  {
    SplitAt(order, j);
    SendSquadsAppend(order[..j], [order[j]] + order[j + 1..], mem, players, units, t);
    SquadThenRest(order[j], order[j + 1..], mem, players, SendSquads(order[..j], mem, players, units, t), t);
  }

  /** A returned player's squad, then any further players: the squad keeps
      its target. */
  lemma SquadThenRest(x: EntityId, rest: seq<EntityId>, mem: Memory, players: map<EntityId, Player>,
                      before: seq<Unit>, t: T.Territory)
    requires Returned(x, mem, players, t)
    ensures SquadChases(before, SendSquads([x] + rest, mem, players, before, t), t, players[x])
  {
    var sent := SendRevengeSquad(before, t, players[x]);
    assert ([x] + rest)[0] == x && ([x] + rest)[1..] == rest;
    assert SendSquads([x] + rest, mem, players, before, t) == SendSquads(rest, mem, players, sent, t);
    SendSquadsKeepsBusy(rest, mem, players, sent, t);
  }

  lemma EveryReturnedIsChased(order: seq<EntityId>, mem: Memory, players: map<EntityId, Player>,
                              units: seq<Unit>, t: T.Territory)
    ensures forall j :: 0 <= j < |order| && Returned(order[j], mem, players, t) ==>
      SquadChases(SendSquads(order[..j], mem, players, units, t), SendSquads(order, mem, players, units, t), t, players[order[j]])
  {
    forall j | 0 <= j < |order| && Returned(order[j], mem, players, t)
      ensures SquadChases(SendSquads(order[..j], mem, players, units, t), SendSquads(order, mem, players, units, t), t, players[order[j]])
    {
      ReturnedGetsSquad(order, mem, players, units, t, j);
    }
  }

  /** The first returned player gets the squad of the nearest free warriors
      out of all the units, `min(5, n)` of them. */
  lemma FirstReturnedGetsSquad(order: seq<EntityId>, mem: Memory, players: map<EntityId, Player>,
                               units: seq<Unit>, t: T.Territory, j: nat)
    requires j < |order| && Returned(order[j], mem, players, t)
    requires forall k :: 0 <= k < j ==> !Returned(order[k], mem, players, t)
    ensures var p := players[order[j]];
      && |Squad(units, t, p)| == Min(MaxSquad, |Candidates(units, t, p)|)
      && forall i :: 0 <= i < |units| && i in Squad(units, t, p) ==>
           SendSquads(order, mem, players, units, t)[i] == Retarget(units[i], PlayerFoe(p))
  {
    assert forall k :: 0 <= k < |order[..j]| ==> order[..j][k] == order[k];
    NoReturnNoSquad(order[..j], mem, players, units, t);
    ReturnedGetsSquad(order, mem, players, units, t, j);
  }

  /** Forgetting first means a player whose memory ran out is never chased. */
  lemma ExpiredPlayerNotChased(mem: Memory, now: int, order: seq<EntityId>, players: map<EntityId, Player>,
                               units: seq<Unit>, t: T.Territory)
    requires forall j :: 0 <= j < |order| ==> order[j] in mem && mem[order[j]] <= now
    ensures CheckForRememberedPlayers(mem, now, order, players, units, t).1 == units
  {
  }

  // ---------------------------------------------------------------- the leash

  /** `checkWarriorBounds`: a warrior outside the territory drops its target;
      otherwise nothing changes. The method is declared but never called. */
  function CheckWarriorBounds(t: T.Territory, u: Unit): (r: Unit)
    ensures !T.IsInTerritory(t, u.pos) && u.target.Some? <==> r != u
    ensures r == u || r == u.(target := None)
    ensures !T.IsInTerritory(t, u.pos) ==> r.target.None?
  {
    if !T.IsInTerritory(t, u.pos) && u.target.Some? then u.(target := None) else u
  }
}

=== FILE: scanner.dfy ===
/** The territory scanner: it lists the hostile mobs on the surface of the
    territory, sends the nearest free guard (near the castle) and the nearest
    free knight to each, and spreads idle knights over eight sectors when the
    territory is quiet.

    The entity queries are inputs: `mobs` holds the mobs the two box queries
    return (the `monster` flag marks the ones the Monster query also returns),
    and `guards`/`knights` are the live units of the territory. The surface
    test is abstracted to the mob's `alive` flag and its terrain flag. */
module Scanner {
  import opened Common
  import opened Seqs

  const SectorCount := 8
  /** Height of the scan box above and below the castle center. */
  const ScanHeight := 10
  /** Guards are sent only to threats closer than 20 blocks to the castle. */
  const GuardRange := 20
  const SectorPatrolRadius := 20

  // ---------------------------------------------------------------- threat discovery

  /** `isOnSurface`, with the terrain checks given as the mob's `surface` flag. */
  predicate OnSurface(m: Mob)
  {
    m.alive && m.surface
  }

  predicate Peaceful(c: Category)
  {
    c == CreatureCategory || c == AmbientCategory || c == WaterCreatureCategory
  }

  predicate InScan(m: Mob, center: Pos, radius: int)
  {
    InBox(center, radius, ScanHeight, ScanHeight, m.pos)
  }

  /** Taken by the first pass of `findAllThreats`: a monster on the surface. */
  predicate MonsterThreat(m: Mob, center: Pos, radius: int)
  {
    m.monster && InScan(m, center, radius) && OnSurface(m)
  }

  /** Taken by the second pass: any mob that is neither one of the kingdom's
      warriors nor of a peaceful category. */
  predicate ModThreat(m: Mob, center: Pos, radius: int)
  {
    InScan(m, center, radius) && !m.warrior && !Peaceful(m.category) && OnSurface(m)
  }

  predicate Hostile(m: Mob, center: Pos, radius: int)
  {
    MonsterThreat(m, center, radius) || ModThreat(m, center, radius)
  }

  predicate HasId(s: seq<Mob>, id: EntityId)
  {
    exists k :: 0 <= k < |s| && s[k].id == id
  }

  /** `findAllThreats`: the monsters first, in query order, then every other
      hostile mob not yet listed. Exactly the hostile mobs are listed, and
      none twice when the world holds each mob once. */
  method FindAllThreats(mobs: seq<Mob>, center: Pos, radius: int) returns (r: seq<Mob>, n: nat)
    ensures forall j :: 0 <= j < |r| ==> r[j] in mobs && Hostile(r[j], center, radius)
    ensures forall i :: 0 <= i < |mobs| && Hostile(mobs[i], center, radius) ==> HasId(r, mobs[i].id)
    ensures DistinctMobIds(mobs) ==> DistinctMobIds(r)
    ensures n <= |r| && (forall j :: 0 <= j < n ==> r[j].monster)
    ensures forall j :: n <= j < |r| ==> !r[j].warrior && !Peaceful(r[j].category)
  {
    var monsters := CollectMonsters(mobs, center, radius);
    n := |monsters|;
    r := AddModThreats(mobs, center, radius, monsters);
    forall k | 0 <= k < |mobs| && MonsterThreat(mobs[k], center, radius)
      ensures HasId(r, mobs[k].id)
    {
      var j :| 0 <= j < n && monsters[j] == mobs[k];
      assert r[j] == monsters[j];
    }
  }

  /** The first pass of `findAllThreats`: the monsters on the surface of the
      scan box, in query order. */
  method CollectMonsters(mobs: seq<Mob>, center: Pos, radius: int) returns (r: seq<Mob>)
    ensures forall j :: 0 <= j < |r| ==> r[j] in mobs && MonsterThreat(r[j], center, radius)
    ensures forall k :: 0 <= k < |mobs| && MonsterThreat(mobs[k], center, radius) ==> mobs[k] in r
    ensures DistinctMobIds(mobs) ==> DistinctMobIds(r)
  {
    r := [];
    var i := 0;
    while i < |mobs|
      invariant 0 <= i <= |mobs|
      invariant forall j :: 0 <= j < |r| ==> r[j] in mobs[..i] && MonsterThreat(r[j], center, radius)
      invariant forall k :: 0 <= k < i && MonsterThreat(mobs[k], center, radius) ==> mobs[k] in r
      invariant DistinctMobIds(mobs) ==> DistinctMobIds(r)
    {
      if MonsterThreat(mobs[i], center, radius) {
        if DistinctMobIds(mobs) {
          forall j | 0 <= j < |r|
            ensures r[j].id != mobs[i].id
          {
            var k :| 0 <= k < i && mobs[k] == r[j];
          }
        }
        r := r + [mobs[i]];
      }
      i := i + 1;
    }
    assert mobs[..i] == mobs;
  }

  /** The second pass of `findAllThreats`: every other hostile mob whose id is
      not listed yet is appended, after the list it starts from. */
  method AddModThreats(mobs: seq<Mob>, center: Pos, radius: int, start: seq<Mob>) returns (r: seq<Mob>)
    ensures start <= r
    ensures forall j :: |start| <= j < |r| ==> r[j] in mobs && ModThreat(r[j], center, radius)
    ensures forall k :: 0 <= k < |mobs| && ModThreat(mobs[k], center, radius) ==> HasId(r, mobs[k].id)
    ensures DistinctMobIds(start) ==> DistinctMobIds(r)
  {
    r := start;
    var i := 0;
    while i < |mobs|
      invariant 0 <= i <= |mobs|
      invariant start <= r
      invariant forall j :: |start| <= j < |r| ==> r[j] in mobs && ModThreat(r[j], center, radius)
      invariant forall k :: 0 <= k < i && ModThreat(mobs[k], center, radius) ==> HasId(r, mobs[k].id)
      invariant DistinctMobIds(start) ==> DistinctMobIds(r)
    {
      var m := mobs[i];
      if !m.warrior && !Peaceful(m.category) && InScan(m, center, radius) && OnSurface(m) && !HasId(r, m.id) {
        var r0 := r;
        r := r + [m];
        assert r[|r| - 1].id == m.id;
        assert forall k :: 0 <= k < |r0| ==> r[k] == r0[k];
      }
      i := i + 1;
    }
  }

  // ---------------------------------------------------------------- nearest free troop

  /** Not yet taken in this scan, and without a live target. */
  predicate Free(u: Unit, taken: set<EntityId>)
  {
    u.id !in taken && !HasLiveTarget(u)
  }

  /** One step of the scan of `findNearestFreeTroop`: troop `k`, when it is
      free and strictly nearer than the pick so far, replaces it. */
  function NearestStep(troops: seq<Unit>, threat: Mob, taken: set<EntityId>, k: nat, best: Option<nat>): (r: Option<nat>)
    requires k < |troops|
    requires best.Some? ==> best.value < |troops|
    ensures r.Some? ==> r.value < |troops|
  {
    if !Free(troops[k], taken) then best
    else if best.None? || DistSq(troops[k].pos, threat.pos) < DistSq(troops[best.value].pos, threat.pos) then Some(k)
    else best
  }

  /** The scan of `findNearestFreeTroop` from index `k`, keeping the first
      free troop of least squared distance to the threat. */
  function NearestFrom(troops: seq<Unit>, threat: Mob, taken: set<EntityId>, k: nat, best: Option<nat>): (r: Option<nat>)
    requires k <= |troops|
    requires best.Some? ==> best.value < |troops|
    ensures r.Some? ==> r.value < |troops|
    decreases |troops| - k
  {
    if k == |troops| then best
    else NearestFrom(troops, threat, taken, k + 1, NearestStep(troops, threat, taken, k, best))
  }

  /** `findNearestFreeTroop`: the index of the chosen troop, or none. */
  function FindNearestFree(troops: seq<Unit>, threat: Mob, taken: set<EntityId>): (r: Option<nat>)
    ensures r.Some? ==> r.value < |troops|
  {
    NearestFrom(troops, threat, taken, 0, None)
  }

  /** The first `k` troops have been scanned and `best` is the pick so far. */
  ghost predicate NearestSoFar(troops: seq<Unit>, threat: Mob, taken: set<EntityId>, k: nat, best: Option<nat>)
    requires k <= |troops|
  {
    match best
    case None => forall j :: 0 <= j < k ==> !Free(troops[j], taken)
    case Some(b) =>
      && b < k && Free(troops[b], taken)
      && (forall j :: 0 <= j < k && Free(troops[j], taken) ==> DistSq(troops[b].pos, threat.pos) <= DistSq(troops[j].pos, threat.pos))
      && (forall j :: 0 <= j < b && Free(troops[j], taken) ==> DistSq(troops[b].pos, threat.pos) < DistSq(troops[j].pos, threat.pos))
  }

  /** One step of the scan keeps `NearestSoFar`. */
  lemma NearestStepKeeps(troops: seq<Unit>, threat: Mob, taken: set<EntityId>, k: nat, best: Option<nat>)
    requires k < |troops|
    requires NearestSoFar(troops, threat, taken, k, best)
    ensures NearestSoFar(troops, threat, taken, k + 1, NearestStep(troops, threat, taken, k, best))
  {
    var dk := DistSq(troops[k].pos, threat.pos);
    if Free(troops[k], taken) && best.Some? {
      var db := DistSq(troops[best.value].pos, threat.pos);
      if dk < db {
        assert forall j :: 0 <= j < k && Free(troops[j], taken) ==> db <= DistSq(troops[j].pos, threat.pos);
      }
    }
  }

  lemma {:induction false} NearestFromFinds(troops: seq<Unit>, threat: Mob, taken: set<EntityId>, k: nat, best: Option<nat>)
    requires k <= |troops|
    requires NearestSoFar(troops, threat, taken, k, best)
    ensures best.Some? ==> best.value < |troops|
    ensures NearestSoFar(troops, threat, taken, |troops|, NearestFrom(troops, threat, taken, k, best))
    decreases |troops| - k
  {
    if k < |troops| {
      NearestStepKeeps(troops, threat, taken, k, best);
      NearestFromFinds(troops, threat, taken, k + 1, NearestStep(troops, threat, taken, k, best));
    }
  }

  /** None exactly when no troop is free; otherwise a free troop nearest to the
      threat, and the first such in list order (`Stream.min` keeps the earlier
      of two equal elements). */
  lemma NearestFreeIsFirstNearest(troops: seq<Unit>, threat: Mob, taken: set<EntityId>)
    ensures var r := FindNearestFree(troops, threat, taken);
      && (r.None? <==> forall j :: 0 <= j < |troops| ==> !Free(troops[j], taken))
      && (r.Some? ==> Free(troops[r.value], taken))
      && (r.Some? ==> forall j :: 0 <= j < |troops| && Free(troops[j], taken) ==>
            DistSq(troops[r.value].pos, threat.pos) <= DistSq(troops[j].pos, threat.pos))
      && (r.Some? ==> forall j :: 0 <= j < r.value && Free(troops[j], taken) ==>
            DistSq(troops[r.value].pos, threat.pos) < DistSq(troops[j].pos, threat.pos))
  {
    NearestFromFinds(troops, threat, taken, 0, None);
  }

  // ---------------------------------------------------------------- sending troops

  /** What the scan did for one threat: the guard and the knight it sent, by
      index into the guard and knight lists. */
  datatype Pick = Pick(threat: Mob, guard: Option<nat>, knight: Option<nat>)

  /** Ascending squared distance to the castle center; `List.sort` is stable. */
  function ByCastleDistance(threats: seq<Mob>, center: Pos): (r: seq<Mob>)
    ensures |r| == |threats| && multiset(r) == multiset(threats)
    ensures SortedBy(r, (m: Mob) => DistSq(m.pos, center))
  {
    SortBy(threats, (m: Mob) => DistSq(m.pos, center))
  }

  /** Whole-block distances below 20 are exactly the squared distances below 400. */
  predicate NearCastle(m: Mob, center: Pos)
  {
    DistSq(m.pos, center) < GuardRange * GuardRange
  }

  /** The troop a pick sent: its guard or its knight. */
  function Sel(p: Pick, guard: bool): Option<nat>
  {
    if guard then p.guard else p.knight
  }

  /** Troop `x` was sent by one of the picks. */
  predicate Sent(picks: seq<Pick>, x: nat, guard: bool)
  {
    exists j :: 0 <= j < |picks| && Sel(picks[j], guard) == Some(x)
  }

  /** The troop `p` sent went to a surface threat (within guard range, for a
      guard), had no live target before the scan, is recorded as taken, and
      now targets that threat. */
  ghost predicate SentWell(troops: seq<Unit>, us: seq<Unit>, taken: set<EntityId>, p: Pick, center: Pos, guard: bool)
  {
    Sel(p, guard).Some? ==>
      var x := Sel(p, guard).value;
      && OnSurface(p.threat) && (guard ==> NearCastle(p.threat, center))
      && x < |troops| && x < |us| && !HasLiveTarget(troops[x]) && troops[x].id in taken
      && us[x] == Retarget(troops[x], MobFoe(p.threat))
  }

  /** What the scan keeps true of one kind of troop: identities stay, every
      troop sent was sent well and only once, and the others are untouched. */
  ghost predicate TroopsOk(troops: seq<Unit>, us: seq<Unit>, taken: set<EntityId>, picks: seq<Pick>, center: Pos, guard: bool)
  {
    && |us| == |troops|
    && (forall x :: 0 <= x < |troops| ==> us[x].id == troops[x].id)
    && (forall j :: 0 <= j < |picks| ==> SentWell(troops, us, taken, picks[j], center, guard))
    && (forall j1, j2 :: 0 <= j1 < j2 < |picks| && Sel(picks[j1], guard).Some? ==> Sel(picks[j1], guard) != Sel(picks[j2], guard))
    && (forall x :: 0 <= x < |troops| && !Sent(picks, x, guard) ==> us[x] == troops[x])
  }

  /** Sending the nearest free troop, when `allowed`, to threat `t`: the troop
      is retargeted and recorded. */
  function Send(us: seq<Unit>, t: Mob, taken: set<EntityId>, allowed: bool): (r: (seq<Unit>, set<EntityId>, Option<nat>))
    ensures |r.0| == |us| && taken <= r.1
    ensures !allowed ==> r == (us, taken, None)
  {
    var c := if allowed then FindNearestFree(us, t, taken) else None;
    var s := SendTo(us, taken, t, c);
    (s.0, s.1, c)
  }

  /** Troop `sel` of `us`, if any, now targets `t` and is recorded as taken. */
  function SendTo(us: seq<Unit>, taken: set<EntityId>, t: Mob, sel: Option<nat>): (seq<Unit>, set<EntityId>)
  {
    if sel.Some? && sel.value < |us| then (us[sel.value := Retarget(us[sel.value], MobFoe(t))], taken + {us[sel.value].id})
    else (us, taken)
  }

  /** Where a scan stands between two threats: the guards, the knights and the
      identities sent so far. */
  datatype ScanState = ScanState(guards: seq<Unit>, knights: seq<Unit>, taken: set<EntityId>)

  /** The state after pick `p`: its guard, then its knight, sent to its threat. */
  function Apply(st: ScanState, p: Pick): ScanState
  {
    var g := SendTo(st.guards, st.taken, p.threat, p.guard);
    var k := SendTo(st.knights, g.1, p.threat, p.knight);
    ScanState(g.0, k.0, k.1)
  }

  /** The state reached by carrying out `picks` in order, nothing taken at the start. */
  function Replay(guards: seq<Unit>, knights: seq<Unit>, picks: seq<Pick>): ScanState
    decreases |picks|
  {
    if |picks| == 0 then ScanState(guards, knights, {})
    else Apply(Replay(guards, knights, picks[..|picks| - 1]), picks[|picks| - 1])
  }

  /** `p` is the choice `assignTroopsToThreats` makes in state `st`: for a
      surface threat within 20 blocks the nearest free guard, and for every
      surface threat the nearest knight still free after that guard was sent;
      nobody for a threat below the surface. */
  predicate PickedNearest(st: ScanState, p: Pick, center: Pos)
  {
    var g := if OnSurface(p.threat) && NearCastle(p.threat, center) then FindNearestFree(st.guards, p.threat, st.taken) else None;
    && p.guard == g
    && p.knight == (if OnSurface(p.threat) then FindNearestFree(st.knights, p.threat, SendTo(st.guards, st.taken, p.threat, g).1) else None)
  }

  /** What a pick means. A guard goes only to a surface threat within 20
      blocks, and then there is one whenever some guard is free; the guard sent
      is free and no free guard is nearer to the threat. Likewise for the
      knight, for any surface threat, among the knights free once the guard
      is recorded. */
  lemma PickIsNearestFree(st: ScanState, p: Pick, center: Pos)
    requires PickedNearest(st, p, center)
    ensures p.guard.Some? ==> OnSurface(p.threat) && NearCastle(p.threat, center)
    ensures OnSurface(p.threat) && NearCastle(p.threat, center) && (exists x :: 0 <= x < |st.guards| && Free(st.guards[x], st.taken)) ==> p.guard.Some?
    ensures p.guard.Some? ==>
      && p.guard.value < |st.guards| && Free(st.guards[p.guard.value], st.taken)
      && forall x :: 0 <= x < |st.guards| && Free(st.guards[x], st.taken) ==>
           DistSq(st.guards[p.guard.value].pos, p.threat.pos) <= DistSq(st.guards[x].pos, p.threat.pos)
    ensures p.knight.Some? ==> OnSurface(p.threat)
    ensures var taken := SendTo(st.guards, st.taken, p.threat, p.guard).1;
      && (OnSurface(p.threat) && (exists x :: 0 <= x < |st.knights| && Free(st.knights[x], taken)) ==> p.knight.Some?)
      && (p.knight.Some? ==>
            && p.knight.value < |st.knights| && Free(st.knights[p.knight.value], taken)
            && forall x :: 0 <= x < |st.knights| && Free(st.knights[x], taken) ==>
                 DistSq(st.knights[p.knight.value].pos, p.threat.pos) <= DistSq(st.knights[x].pos, p.threat.pos))
  {
    NearestFreeIsFirstNearest(st.guards, p.threat, st.taken);
    NearestFreeIsFirstNearest(st.knights, p.threat, SendTo(st.guards, st.taken, p.threat, p.guard).1);
  }

  /** One round of the scan loop keeps it in step with `Replay`, and its pick
      is `PickedNearest`. */
  lemma ScanRound(guards: seq<Unit>, knights: seq<Unit>, picks: seq<Pick>, gs: seq<Unit>, ks: seq<Unit>, taken: set<EntityId>, t: Mob, center: Pos)
    requires Replay(guards, knights, picks) == ScanState(gs, ks, taken)
    requires forall j :: 0 <= j < |picks| ==> PickedNearest(Replay(guards, knights, picks[..j]), picks[j], center)
    ensures var g := Send(gs, t, taken, OnSurface(t) && NearCastle(t, center));
      var k := Send(ks, t, g.1, OnSurface(t));
      var p := Pick(t, g.2, k.2);
      && Replay(guards, knights, picks + [p]) == ScanState(g.0, k.0, k.1)
      && forall j :: 0 <= j < |picks + [p]| ==> PickedNearest(Replay(guards, knights, (picks + [p])[..j]), (picks + [p])[j], center)
  {
    var g := Send(gs, t, taken, OnSurface(t) && NearCastle(t, center));
    var k := Send(ks, t, g.1, OnSurface(t));
    var p := Pick(t, g.2, k.2);
    var picks' := picks + [p];
    SnocPrefixes(picks, p);
    assert PickedNearest(ScanState(gs, ks, taken), p, center);
    forall j | 0 <= j < |picks'|
      ensures PickedNearest(Replay(guards, knights, picks'[..j]), picks'[j], center)
    {
      if j < |picks| {
        assert picks'[..j] == picks[..j] && picks'[j] == picks[j];
      }
    }
  }

  lemma TroopsOkGrow(troops: seq<Unit>, us: seq<Unit>, taken: set<EntityId>, taken': set<EntityId>, picks: seq<Pick>, center: Pos, guard: bool)
    requires TroopsOk(troops, us, taken, picks, center, guard) && taken <= taken'
    ensures TroopsOk(troops, us, taken', picks, center, guard)
  {
    forall j | 0 <= j < |picks|
      ensures SentWell(troops, us, taken', picks[j], center, guard)
    {
      assert SentWell(troops, us, taken, picks[j], center, guard);
    }
  }

  lemma {:induction false} SendKeeps(troops: seq<Unit>, us: seq<Unit>, taken: set<EntityId>, picks: seq<Pick>, center: Pos, guard: bool,
                                     t: Mob, allowed: bool, p: Pick, taken': set<EntityId>)
    requires TroopsOk(troops, us, taken, picks, center, guard)
    requires allowed ==> OnSurface(t) && (guard ==> NearCastle(t, center))
    requires p.threat == t && Sel(p, guard) == Send(us, t, taken, allowed).2
    requires Send(us, t, taken, allowed).1 <= taken'
    ensures TroopsOk(troops, Send(us, t, taken, allowed).0, taken', picks + [p], center, guard)
  {
    var r := Send(us, t, taken, allowed);
    var picks' := picks + [p];
    assert forall j :: 0 <= j < |picks| ==> picks'[j] == picks[j];
    if r.2.None? {
      TroopsOkGrow(troops, us, taken, taken', picks, center, guard);
      forall x | 0 <= x < |troops| && !Sent(picks', x, guard)
        ensures r.0[x] == troops[x]
      {
        forall j | 0 <= j < |picks|
          ensures Sel(picks[j], guard) != Some(x)
        {
          assert picks'[j] == picks[j];
        }
      }
    } else {
      var x := r.2.value;
      NearestFreeIsFirstNearest(us, t, taken);
      assert Free(us[x], taken);
      forall j | 0 <= j < |picks|
        ensures Sel(picks[j], guard) != Some(x)
      {
        assert SentWell(troops, us, taken, picks[j], center, guard);
      }
      assert us[x] == troops[x];
      forall j | 0 <= j < |picks'|
        ensures SentWell(troops, r.0, taken', picks'[j], center, guard)
      {
        if j < |picks| {
          assert SentWell(troops, us, taken, picks[j], center, guard);
          if Sel(picks[j], guard).Some? {
            assert Sel(picks[j], guard).value != x;
          }
        }
      }
      forall j1, j2 | 0 <= j1 < j2 < |picks'| && Sel(picks'[j1], guard).Some?
        ensures Sel(picks'[j1], guard) != Sel(picks'[j2], guard)
      {
        if j2 == |picks| {
          assert Sel(picks[j1], guard) != Some(x);
        }
      }
      forall y | 0 <= y < |troops| && !Sent(picks', y, guard)
        ensures r.0[y] == troops[y]
      {
        assert Sel(picks'[|picks|], guard) == Some(x);
        assert y != x;
        forall j | 0 <= j < |picks|
          ensures Sel(picks[j], guard) != Some(y)
        {
          assert picks'[j] == picks[j];
        }
      }
    }
  }

  /** Carrying out picks that were each `PickedNearest` keeps `TroopsOk` for
      both kinds of troop. */
  lemma {:induction false} ReplayKeepsTroopsOk(guards: seq<Unit>, knights: seq<Unit>, picks: seq<Pick>, center: Pos)
    requires forall j :: 0 <= j < |picks| ==> PickedNearest(Replay(guards, knights, picks[..j]), picks[j], center)
    ensures TroopsOk(guards, Replay(guards, knights, picks).guards, Replay(guards, knights, picks).taken, picks, center, true)
    ensures TroopsOk(knights, Replay(guards, knights, picks).knights, Replay(guards, knights, picks).taken, picks, center, false)
    decreases |picks|
  {
    if |picks| > 0 {
      var n := |picks| - 1;
      var front := picks[..n];
      var p := picks[n];
      SplitLast(picks);
      forall j | 0 <= j < |front|
        ensures PickedNearest(Replay(guards, knights, front[..j]), front[j], center)
      {
        assert front[..j] == picks[..j] && front[j] == picks[j];
      }
      ReplayKeepsTroopsOk(guards, knights, front, center);
      var st := Replay(guards, knights, front);
      assert PickedNearest(st, p, center);
      var t := p.threat;
      var g := Send(st.guards, t, st.taken, OnSurface(t) && NearCastle(t, center));
      var k := Send(st.knights, t, g.1, OnSurface(t));
      assert g.2 == p.guard && k.2 == p.knight;
      assert Replay(guards, knights, picks) == ScanState(g.0, k.0, k.1);
      SendKeeps(guards, st.guards, st.taken, front, center, true, t, OnSurface(t) && NearCastle(t, center), p, k.1);
      TroopsOkGrow(knights, st.knights, st.taken, g.1, front, center, false);
      SendKeeps(knights, st.knights, g.1, front, center, false, t, OnSurface(t), p, k.1);
    }
  }

  /** `assignTroopsToThreats`. The threats are visited nearest to the castle
      first; a surface threat within 20 blocks gets the nearest free guard,
      and every surface threat the nearest free knight. A troop sent is
      recorded and never sent again in the same scan. */
  method AssignTroopsToThreats(guards: seq<Unit>, knights: seq<Unit>, threats: seq<Mob>, center: Pos)
    returns (gs: seq<Unit>, ks: seq<Unit>, picks: seq<Pick>)
    ensures |picks| == |threats| && forall j :: 0 <= j < |picks| ==> picks[j].threat == ByCastleDistance(threats, center)[j]
    ensures gs == Replay(guards, knights, picks).guards && ks == Replay(guards, knights, picks).knights
    ensures forall j :: 0 <= j < |picks| ==> PickedNearest(Replay(guards, knights, picks[..j]), picks[j], center)
    ensures exists taken ::
      && TroopsOk(guards, gs, taken, picks, center, true)
      && TroopsOk(knights, ks, taken, picks, center, false)
  {
    var sorted := ByCastleDistance(threats, center);
    var taken: set<EntityId> := {};
    gs, ks, picks := guards, knights, [];
    var i := 0;
    while i < |sorted|
      invariant 0 <= i <= |sorted| && |picks| == i
      invariant forall j :: 0 <= j < i ==> picks[j].threat == sorted[j]
      invariant Replay(guards, knights, picks) == ScanState(gs, ks, taken)
      invariant forall j :: 0 <= j < |picks| ==> PickedNearest(Replay(guards, knights, picks[..j]), picks[j], center)
    {
      var t := sorted[i];
      var g := Send(gs, t, taken, OnSurface(t) && NearCastle(t, center));
      var k := Send(ks, t, g.1, OnSurface(t));
      ScanRound(guards, knights, picks, gs, ks, taken, t, center);
      gs, ks, taken, picks := g.0, k.0, k.1, picks + [Pick(t, g.2, k.2)];
      i := i + 1;
    }
    ReplayKeepsTroopsOk(guards, knights, picks, center);
  }

  // ---------------------------------------------------------------- sectors

  /** `assignKnightsToSectors`: knight `i` with no live target patrols, with
      radius 20, the point at angle 2*pi*(i mod 8)/8 and 70% of the radius
      from the castle; a knight in a fight is left alone. The sector of each
      knight placed is recorded by identity. (The source's first step, which
      sets a null target to null, changes nothing.) */
  function AssignKnightsToSectors(knights: seq<Unit>, radius: int, sectors: map<EntityId, int>)
    : (r: (seq<Unit>, map<EntityId, int>))
    ensures |r.0| == |knights|
    ensures forall i :: 0 <= i < |knights| && HasLiveTarget(knights[i]) ==> r.0[i] == knights[i]
    ensures forall i :: 0 <= i < |knights| && !HasLiveTarget(knights[i]) ==>
      && r.0[i].anchor == Ring(i % SectorCount, SectorCount, PatrolDistance(radius))
      && r.0[i].patrolRadius == SectorPatrolRadius
      && r.0[i].(anchor := knights[i].anchor, patrolRadius := knights[i].patrolRadius) == knights[i]
    ensures forall id :: id in r.1 <==> id in sectors || exists i :: 0 <= i < |knights| && !HasLiveTarget(knights[i]) && knights[i].id == id
    ensures forall id :: id in r.1 ==> 0 <= r.1[id] < SectorCount || (id in sectors && r.1[id] == sectors[id])
    decreases |knights|
  {
    if |knights| == 0 then ([], sectors)
    else
      var front := AssignKnightsToSectors(knights[..|knights| - 1], radius, sectors);
      var i := |knights| - 1;
      var k := knights[i];
      if HasLiveTarget(k) then (front.0 + [k], front.1)
      else
        var placed := SetPatrolRadius(k.(anchor := Ring(i % SectorCount, SectorCount, PatrolDistance(radius))), SectorPatrolRadius);
        (front.0 + [placed], front.1[k.id := i % SectorCount])
  }

  /** `(int) (radius * 0.7)`, with 0.7 taken exactly. */
  function PatrolDistance(radius: int): (d: int)
    ensures radius >= 0 ==> 0 <= d && 10 * d <= 7 * radius < 10 * d + 10
  {
    TruncReal(radius as real * 0.7)
  }

  /** The sector of knight `i` is the last one recorded for its identity: with
      distinct identities, every idle knight's recorded sector is `i mod 8`. */
  lemma {:induction false} SectorsRecorded(knights: seq<Unit>, radius: int, sectors: map<EntityId, int>)
    requires DistinctIds(knights)
    ensures var r := AssignKnightsToSectors(knights, radius, sectors);
      forall i :: 0 <= i < |knights| && !HasLiveTarget(knights[i]) ==>
        knights[i].id in r.1 && r.1[knights[i].id] == i % SectorCount
    decreases |knights|
  {
    if |knights| > 0 {
      var front := knights[..|knights| - 1];
      assert DistinctIds(front);
      SectorsRecorded(front, radius, sectors);
    }
  }

  // ---------------------------------------------------------------- the scan

  /** `scanAndAssignTroops`. With no hostile mob on the surface the idle
      knights are moved to their ring sectors, the sectors are recorded and
      no target is set; otherwise
      every hostile mob found is handed out, nearest to the castle first, as
      `picks` records. */
  method ScanAndAssign(mobs: seq<Mob>, center: Pos, radius: int, guards: seq<Unit>, knights: seq<Unit>, sectors: map<EntityId, int>)
    returns (gs: seq<Unit>, ks: seq<Unit>, sectors': map<EntityId, int>, picks: seq<Pick>)
    ensures |gs| == |guards| && |ks| == |knights|
    ensures (forall i :: 0 <= i < |mobs| ==> !Hostile(mobs[i], center, radius)) ==>
      && gs == guards && picks == []
      && ks == AssignKnightsToSectors(knights, radius, sectors).0 && sectors' == AssignKnightsToSectors(knights, radius, sectors).1
      && forall i :: 0 <= i < |knights| ==> ks[i].target == knights[i].target
    ensures (exists i :: 0 <= i < |mobs| && Hostile(mobs[i], center, radius)) ==>
      && sectors' == sectors
      && gs == Replay(guards, knights, picks).guards && ks == Replay(guards, knights, picks).knights
      && (forall j :: 0 <= j < |picks| ==> Hostile(picks[j].threat, center, radius))
      && (forall i :: 0 <= i < |mobs| && Hostile(mobs[i], center, radius) ==> exists j :: 0 <= j < |picks| && picks[j].threat.id == mobs[i].id)
      && (forall j1, j2 :: 0 <= j1 < j2 < |picks| ==> DistSq(picks[j1].threat.pos, center) <= DistSq(picks[j2].threat.pos, center))
    ensures forall j :: 0 <= j < |picks| ==> PickedNearest(Replay(guards, knights, picks[..j]), picks[j], center)
    ensures DistinctMobIds(mobs) ==> forall j1, j2 :: 0 <= j1 < j2 < |picks| ==> picks[j1].threat.id != picks[j2].threat.id
    ensures forall i :: 0 <= i < |guards| ==> gs[i] == guards[i] || (gs[i].target.Some? && gs[i].(target := guards[i].target) == guards[i])
  {
    var threats, _ := FindAllThreats(mobs, center, radius);
    if |threats| == 0 {
      var placed := AssignKnightsToSectors(knights, radius, sectors);
      gs, ks, sectors', picks := guards, placed.0, placed.1, [];
      forall i | 0 <= i < |knights|
        ensures ks[i].target == knights[i].target
      {
      }
    } else {
      gs, ks, picks := AssignTroopsToThreats(guards, knights, threats, center);
      sectors' := sectors;
      assert Hostile(threats[0], center, radius);
      PicksCoverHostile(mobs, threats, picks, center, radius);
      if DistinctMobIds(mobs) {
        PicksDistinct(threats, picks, center);
      }
      ghost var taken :| TroopsOk(guards, gs, taken, picks, center, true);
      GuardsOnlyGainTargets(guards, gs, taken, picks, center);
    }
  }

  /** Picks made over the threats `findAllThreats` lists are hostile, cover
      every hostile mob, and come nearest to the castle first. */
  lemma PicksCoverHostile(mobs: seq<Mob>, threats: seq<Mob>, picks: seq<Pick>, center: Pos, radius: int)
    requires forall j :: 0 <= j < |threats| ==> Hostile(threats[j], center, radius)
    requires forall i :: 0 <= i < |mobs| && Hostile(mobs[i], center, radius) ==> HasId(threats, mobs[i].id)
    requires |picks| == |threats| && forall j :: 0 <= j < |picks| ==> picks[j].threat == ByCastleDistance(threats, center)[j]
    ensures forall j :: 0 <= j < |picks| ==> Hostile(picks[j].threat, center, radius)
    ensures forall i :: 0 <= i < |mobs| && Hostile(mobs[i], center, radius) ==> exists j :: 0 <= j < |picks| && picks[j].threat.id == mobs[i].id
    ensures forall j1, j2 :: 0 <= j1 < j2 < |picks| ==> DistSq(picks[j1].threat.pos, center) <= DistSq(picks[j2].threat.pos, center)
  {
    PicksCoverThreats(threats, picks, center);
    forall j | 0 <= j < |picks|
      ensures Hostile(picks[j].threat, center, radius)
    {
      var k :| 0 <= k < |threats| && threats[k] == picks[j].threat;
    }
    forall i | 0 <= i < |mobs| && Hostile(mobs[i], center, radius)
      ensures exists j :: 0 <= j < |picks| && picks[j].threat.id == mobs[i].id
    {
      var k :| 0 <= k < |threats| && threats[k].id == mobs[i].id;
      var j :| 0 <= j < |picks| && picks[j].threat == threats[k];
    }
  }

  /** Threats listed once are handed out once: the picks follow the sorted
      threats one for one, and sorting keeps the identities distinct. */
  lemma PicksDistinct(threats: seq<Mob>, picks: seq<Pick>, center: Pos)
    requires DistinctMobIds(threats)
    requires |picks| == |threats| && forall j :: 0 <= j < |picks| ==> picks[j].threat == ByCastleDistance(threats, center)[j]
    ensures forall j1, j2 :: 0 <= j1 < j2 < |picks| ==> picks[j1].threat.id != picks[j2].threat.id
  {
    var key := (m: Mob) => m.id;
    var sorted := ByCastleDistance(threats, center);
    assert DistinctBy(threats, key);
    DistinctBySubMultiset(sorted, threats, key);
    forall j1, j2 | 0 <= j1 < j2 < |picks|
      ensures picks[j1].threat.id != picks[j2].threat.id
    {
      assert key(sorted[j1]) != key(sorted[j2]);
    }
  }

  /** A guard the scan leaves alone is unchanged; one it sends only gains a target. */
  lemma GuardsOnlyGainTargets(guards: seq<Unit>, gs: seq<Unit>, taken: set<EntityId>, picks: seq<Pick>, center: Pos)
    requires TroopsOk(guards, gs, taken, picks, center, true)
    ensures forall i :: 0 <= i < |guards| ==> gs[i] == guards[i] || (gs[i].target.Some? && gs[i].(target := guards[i].target) == guards[i])
  {
    forall i | 0 <= i < |guards|
      ensures gs[i] == guards[i] || (gs[i].target.Some? && gs[i].(target := guards[i].target) == guards[i])
    {
      if Sent(picks, i, true) {
        var j :| 0 <= j < |picks| && Sel(picks[j], true) == Some(i);
        assert SentWell(guards, gs, taken, picks[j], center, true);
      }
    }
  }

  /** The picks visit every threat, each one a threat of the list, in
      ascending distance to the castle. */
  lemma PicksCoverThreats(threats: seq<Mob>, picks: seq<Pick>, center: Pos)
    requires |picks| == |threats| && forall j :: 0 <= j < |picks| ==> picks[j].threat == ByCastleDistance(threats, center)[j]
    ensures forall j :: 0 <= j < |picks| ==> picks[j].threat in threats
    ensures forall k :: 0 <= k < |threats| ==> exists j :: 0 <= j < |picks| && picks[j].threat == threats[k]
    ensures forall j1, j2 :: 0 <= j1 < j2 < |picks| ==> DistSq(picks[j1].threat.pos, center) <= DistSq(picks[j2].threat.pos, center)
  {
    var sorted := ByCastleDistance(threats, center);
    forall j | 0 <= j < |picks|
      ensures picks[j].threat in threats
    {
      assert sorted[j] in multiset(sorted);
    }
    forall k | 0 <= k < |threats|
      ensures exists j :: 0 <= j < |picks| && picks[j].threat == threats[k]
    {
      assert threats[k] in multiset(sorted);
      var j :| 0 <= j < |sorted| && sorted[j] == threats[k];
      assert picks[j].threat == threats[k];
    }
    forall j1, j2 | 0 <= j1 < j2 < |picks|
      ensures DistSq(picks[j1].threat.pos, center) <= DistSq(picks[j2].threat.pos, center)
    {
      assert picks[j1].threat == sorted[j1] && picks[j2].threat == sorted[j2];
    }
  }
}

=== FILE: seqs.dfy ===
/** Sequence utilities the core leans on: filtering, and the stable sort by an
    integer key that stands in for `List.sort(Comparator.comparingDouble(...))`. */
module Seqs {
  import opened Common

  /** Ascending by `key`. */
  ghost predicate SortedBy<T>(s: seq<T>, key: T -> int)
  {
    forall i, j :: 0 <= i < j < |s| ==> key(s[i]) <= key(s[j])
  }

  /** The elements of `s` that satisfy `p`, in their original order. */
  function Filter<T>(s: seq<T>, p: T -> bool): (r: seq<T>)
    ensures |r| <= |s|
    ensures forall i :: 0 <= i < |r| ==> r[i] in s && p(r[i])
    ensures forall i :: 0 <= i < |s| && p(s[i]) ==> s[i] in r
    ensures multiset(r) <= multiset(s)
  {
    if |s| == 0 then []
    else
      assert s == [s[0]] + s[1..];
      if p(s[0]) then [s[0]] + Filter(s[1..], p)
      else Filter(s[1..], p)
  }

  /** Inserting `x` in front of the first element whose key is not smaller keeps
      the sequence sorted, and earlier elements stay ahead of equal later ones. */
  function Insert<T>(x: T, s: seq<T>, key: T -> int): (r: seq<T>)
    requires SortedBy(s, key)
    ensures SortedBy(r, key)
    ensures multiset(r) == multiset(s) + multiset{x}
    ensures |r| == |s| + 1
    ensures r[0] == x || (|s| > 0 && r[0] == s[0])
  {
    if |s| == 0 then [x]
    else if key(x) <= key(s[0]) then [x] + s
    else
      var rest := Insert(x, s[1..], key);
      assert s == [s[0]] + s[1..];
      assert key(s[0]) <= key(rest[0]);
      [s[0]] + rest
  }

  /** Insertion sort by `key`: the result is an ascending permutation of `s`,
      and `SortByStable` shows that equal keys keep their order. */
  function SortBy<T>(s: seq<T>, key: T -> int): (r: seq<T>)
    ensures SortedBy(r, key)
    ensures multiset(r) == multiset(s)
    ensures |r| == |s|
  {
    if |s| == 0 then []
    else
      assert s == [s[0]] + s[1..];
      Insert(s[0], SortBy(s[1..], key), key)
  }

  /** Has key `k`. */
  function KeyIs<T>(key: T -> int, k: int): T -> bool
  {
    (y: T) => key(y) == k
  }

  /** Inserting `x` puts it ahead of every element with the same key. */
  lemma {:induction false} InsertAheadOfEqual<T>(x: T, s: seq<T>, key: T -> int, k: int)
    requires SortedBy(s, key)
    ensures Filter(Insert(x, s, key), KeyIs(key, k)) ==
      (if key(x) == k then [x] + Filter(s, KeyIs(key, k)) else Filter(s, KeyIs(key, k)))
    decreases |s|
  {
    var p := KeyIs(key, k);
    var r := Insert(x, s, key);
    if |s| == 0 {
      assert r == [x] && r[1..] == [];
    } else if key(x) <= key(s[0]) {
      assert r == [x] + s && r[0] == x && r[1..] == s;
    } else {
      var rest := Insert(x, s[1..], key);
      assert r == [s[0]] + rest && r[0] == s[0] && r[1..] == rest;
      InsertAheadOfEqual(x, s[1..], key, k);
      if key(x) == k {
        assert !p(s[0]);
      }
    }
  }

  /** The sort is stable: the elements sharing any one key keep their order. */
  lemma {:induction false} SortByStable<T>(s: seq<T>, key: T -> int, k: int)
    ensures Filter(SortBy(s, key), KeyIs(key, k)) == Filter(s, KeyIs(key, k))
    decreases |s|
  {
    if |s| > 0 {
      SortByStable(s[1..], key, k);
      InsertAheadOfEqual(s[0], SortBy(s[1..], key), key, k);
    }
  }

  /** The first `n` elements, or all of them when there are fewer. */
  function Take<T>(s: seq<T>, n: int): (r: seq<T>)
    ensures |r| == if n <= 0 then 0 else if n <= |s| then n else |s|
    ensures r <= s
  {
    if n <= 0 then [] else if n <= |s| then s[..n] else s
  }

  /** No two elements share a key. */
  ghost predicate DistinctBy<T>(s: seq<T>, key: T -> int)
  {
    forall i, j :: 0 <= i < j < |s| ==> key(s[i]) != key(s[j])
  }

  /** Taking some of the elements of a sequence with distinct keys (in any
      order) keeps the keys distinct. */
  lemma {:induction false} DistinctBySubMultiset<T>(r: seq<T>, s: seq<T>, key: T -> int)
    requires multiset(r) <= multiset(s)
    requires DistinctBy(s, key)
    ensures DistinctBy(r, key)
    decreases |r|
  {
    if |r| > 0 {
      var last := |r| - 1;
      var x := r[last];
      var front := r[..last];
      assert r == front + [x];
      assert x in s by {
        assert x in multiset(r);
      }
      var k :| 0 <= k < |s| && s[k] == x;
      var rest := s[..k] + s[k + 1..];
      RemoveAt(s, k, key);
      assert multiset(front) <= multiset(rest) by {
        assert multiset(front) == multiset(r) - multiset{x};
      }
      DistinctBySubMultiset(front, rest, key);
      forall i | 0 <= i < |front|
        ensures key(front[i]) != key(x)
      {
        assert front[i] in multiset(rest);
        OtherKey(s, k, front[i], key);
      }
      DistinctSnoc(front, x, key);
    }
  }

  /** Appending an element whose key is new keeps the keys distinct. */
  lemma DistinctSnoc<T>(s: seq<T>, x: T, key: T -> int)
    requires DistinctBy(s, key)
    requires forall i :: 0 <= i < |s| ==> key(s[i]) != key(x)
    ensures DistinctBy(s + [x], key)
  {
    var t := s + [x];
    assert forall i :: 0 <= i < |s| ==> t[i] == s[i];
  }

  /** Dropping the element at `k` leaves the rest, still with distinct keys. */
  lemma RemoveAt<T>(s: seq<T>, k: int, key: T -> int)
    requires 0 <= k < |s|
    requires DistinctBy(s, key)
    ensures multiset(s[..k] + s[k + 1..]) == multiset(s) - multiset{s[k]}
    ensures DistinctBy(s[..k] + s[k + 1..], key)
  {
    var rest := s[..k] + s[k + 1..];
    assert s == s[..k] + [s[k]] + s[k + 1..];
    forall i, j | 0 <= i < j < |rest|
      ensures key(rest[i]) != key(rest[j])
    {
      var i' := if i < k then i else i + 1;
      var j' := if j < k then j else j + 1;
      assert rest[i] == s[i'] && rest[j] == s[j'];
    }
  }

  /** Any element left after dropping the one at `k` has a different key. */
  lemma OtherKey<T>(s: seq<T>, k: int, y: T, key: T -> int)
    requires 0 <= k < |s|
    requires DistinctBy(s, key)
    requires y in multiset(s[..k] + s[k + 1..])
    ensures key(y) != key(s[k])
  {
    var rest := s[..k] + s[k + 1..];
    assert y in rest;
    var m :| 0 <= m < |rest| && rest[m] == y;
    var m' := if m < k then m else m + 1;
    assert rest[m] == s[m'] && m' != k;
  }

  /** A non-empty sequence is its front followed by its last element, and the
      prefixes of its front are its own prefixes. */
  lemma SplitLast<T>(s: seq<T>)
    requires |s| > 0
    ensures s == s[..|s| - 1] + [s[|s| - 1]]
    ensures forall j :: 0 <= j <= |s| - 1 ==> s[..|s| - 1][..j] == s[..j]
  {
  }

  /** Appending one element keeps the earlier prefixes. */
  lemma SnocPrefixes<T>(s: seq<T>, x: T)
    ensures (s + [x])[..|s|] == s
    ensures forall j :: 0 <= j <= |s| ==> (s + [x])[..j] == s[..j]
  {
  }

  /** Filtering a sequence with a known first element. */
  lemma FilterCons<T>(a: T, r: seq<T>, p: T -> bool)
    ensures Filter([a] + r, p) == (if p(a) then [a] else []) + Filter(r, p)
  {
    var t := [a] + r;
    assert t[0] == a && t[1..] == r;
  }

  /** Filtering distributes over appending one element. */
  lemma {:induction false} FilterSnoc<T>(s: seq<T>, x: T, p: T -> bool)
    ensures Filter(s + [x], p) == Filter(s, p) + (if p(x) then [x] else [])
    decreases |s|
  {
    var tail := if p(x) then [x] else [];
    if |s| == 0 {
      assert s + [x] == [x] + [];
      FilterCons(x, [], p);
    } else {
      var head := if p(s[0]) then [s[0]] else [];
      FilterSnoc(s[1..], x, p);
      SnocSplit(s, x);
      FilterCons(s[0], s[1..] + [x], p);
      FilterCons(s[0], s[1..], p);
      AppendAssoc(head, Filter(s[1..], p), tail);
    }
  }

  lemma SnocSplit<T>(s: seq<T>, x: T)
    requires |s| > 0
    ensures s + [x] == [s[0]] + (s[1..] + [x]) && s == [s[0]] + s[1..]
  {
  }

  lemma AppendAssoc<T>(a: seq<T>, b: seq<T>, c: seq<T>)
    ensures a + (b + c) == (a + b) + c
  {
  }

  /** A sequence is its part before `j`, its `j`-th element, and the rest. */
  lemma SplitAt<T>(s: seq<T>, j: nat)
    requires j < |s|
    ensures s == s[..j] + ([s[j]] + s[j + 1..])
  {
  }

  /** A prefix of `a + b` that reaches past `a` holds every element of `a`. */
  lemma PrefixPastFirstCovers<T>(a: seq<T>, b: seq<T>, p: seq<T>)
    requires p <= a + b && |a| < |p|
    ensures forall x :: x in a ==> x in p
  {
    forall x | x in a
      ensures x in p
    {
      var m :| 0 <= m < |a| && a[m] == x;
      assert p[m] == (a + b)[m];
    }
  }

  /** The indices, from `k` on and in order, of the elements that satisfy `p`. */
  function IndicesFrom<T>(s: seq<T>, p: T -> bool, k: nat): (r: seq<nat>)
    requires k <= |s|
    ensures forall j :: 0 <= j < |r| ==> k <= r[j] < |s| && p(s[r[j]])
    ensures forall i :: k <= i < |s| && p(s[i]) ==> i in r
    decreases |s| - k
  {
    if k == |s| then []
    else if p(s[k]) then [k] + IndicesFrom(s, p, k + 1)
    else IndicesFrom(s, p, k + 1)
  }

  /** The indices come in ascending order. */
  lemma {:induction false} IndicesAscending<T>(s: seq<T>, p: T -> bool, k: nat)
    requires k <= |s|
    ensures forall a, b :: 0 <= a < b < |IndicesFrom(s, p, k)| ==>
      IndicesFrom(s, p, k)[a] < IndicesFrom(s, p, k)[b]
    decreases |s| - k
  {
    if k < |s| {
      IndicesAscending(s, p, k + 1);
      var rest := IndicesFrom(s, p, k + 1);
      var r := IndicesFrom(s, p, k);
      if p(s[k]) {
        assert r == [k] + rest;
        forall a, b | 0 <= a < b < |r|
          ensures r[a] < r[b]
        {
          assert r[b] == rest[b - 1] && rest[b - 1] >= k + 1;
          if a > 0 {
            assert r[a] == rest[a - 1];
          } else {
            assert r[a] == k;
          }
        }
      } else {
        assert r == rest;
      }
    }
  }

  /** The index of the first element from `k` on that satisfies `p`. */
  function FirstFrom<T>(s: seq<T>, p: T -> bool, k: nat): (r: Option<nat>)
    requires k <= |s|
    ensures r.Some? ==> k <= r.value < |s| && p(s[r.value]) && forall j :: k <= j < r.value ==> !p(s[j])
    ensures r.None? ==> forall j :: k <= j < |s| ==> !p(s[j])
    decreases |s| - k
  {
    if k == |s| then None
    else if p(s[k]) then Some(k)
    else FirstFrom(s, p, k + 1)
  }

  /** In a sequence sorted by `key`, the first element satisfying `p` has the
      least key of all those that do. */
  lemma FirstOfSortedIsLeast<T>(s: seq<T>, key: T -> int, p: T -> bool, x: T)
    requires SortedBy(s, key)
    requires x in s && p(x)
    ensures FirstFrom(s, p, 0).Some?
    ensures key(s[FirstFrom(s, p, 0).value]) <= key(x)
  {
    var k :| 0 <= k < |s| && s[k] == x;
  }

  /** Filtering then sorting keeps exactly the elements that pass the filter. */
  lemma InSortedFilter<T>(s: seq<T>, src: seq<T>, q: T -> bool, x: T)
    requires multiset(s) == multiset(Filter(src, q))
    ensures x in s <==> x in src && q(x)
  {
    var f := Filter(src, q);
    assert x in s <==> x in multiset(f);
    if x in f {
      var k :| 0 <= k < |f| && f[k] == x;
    }
    if x in src && q(x) {
      var k :| 0 <= k < |src| && src[k] == x;
    }
  }
}

=== FILE: smarttarget.dfy ===
/** The warriors' target-selection goal: attack the nearest hostile mob that
    is not already attacked by enough allies, and otherwise help the nearest
    ally whose target still needs more attackers.

    The entities a box query would return are given as sequences: `mobs` for
    the non-player mobs around the attacker and `allies` for the kingdom's
    warriors around it. The box tests are made on block positions. */
module SmartTarget {
  import opened Common
  import opened Seqs

  const TargetSearchRange := 48
  const HelpSearchRange := 32

  /** A weak target is at most 1.2 times the attacker's health. */
  const WeakFactor: real := 1.2
  /** The attackers together need 1.3 times the target's health. */
  const NeededFactor: real := 1.3
  /** A strong target stops drawing attackers once their joint health reaches
      1.5 times its own. */
  const EnoughFactor: real := 1.5

  predicate Near(me: Unit, p: Pos, range: int)
  {
    InBox(me.pos, range, range, range, p)
  }

  /** The selector of `findClosestValidTarget`: a live mob within 48 blocks that
      is not a kingdom warrior and is either a monster or an angry neutral. */
  predicate IsCandidate(me: Unit, m: Mob)
  {
    && m.id != me.id
    && !m.warrior
    && m.alive
    && (m.category == MonsterCategory || (m.neutral && m.angry))
    && Near(me, m.pos, TargetSearchRange)
  }

  /** `countAlliesAttackingTarget`'s selector: another live warrior within 48
      blocks whose target is `target`. */
  predicate AttacksTarget(me: Unit, a: Unit, target: EntityId)
  {
    && a.alive
    && a.id != me.id
    && Near(me, a.pos, TargetSearchRange)
    && a.target.Some? && a.target.value.id == target
  }

  function AlliesAttacking(me: Unit, allies: seq<Unit>, target: EntityId): seq<Unit>
  {
    Filter(allies, (a: Unit) => AttacksTarget(me, a, target))
  }

  function SumHealth(us: seq<Unit>): real
  {
    if |us| == 0 then 0.0 else SumHealth(us[..|us| - 1]) + us[|us| - 1].health
  }

  /** `calculateRequiredWarriors`: `ceil(1.3 * targetHP / warriorHP)` clamped
      to 2..3. Float division by zero gives positive infinity (3) for a
      positive target health, and negative infinity or NaN (both 2) otherwise. */
  function RequiredWarriors(targetHP: real, warriorHP: real): (n: int)
    ensures n == 2 || n == 3
    ensures warriorHP > 0.0 ==> (n == 3 <==> NeededFactor * targetHP > 2.0 * warriorHP)
  {
    if warriorHP == 0.0 then (if targetHP > 0.0 then 3 else 2)
    else
      QuotientAboveTwo(NeededFactor * targetHP, warriorHP);
      Max(2, Min(3, CeilReal(NeededFactor * targetHP / warriorHP)))
  }

  lemma QuotientAboveTwo(x: real, w: real)
    requires w != 0.0
    ensures w > 0.0 ==> (x / w > 2.0 <==> x > 2.0 * w)
  {
    if w > 0.0 {
      var q := x / w;
      assert q * w == x;
      if q > 2.0 {
        assert q * w > 2.0 * w;
      } else {
        assert q * w <= 2.0 * w;
      }
    }
  }

  predicate Weak(me: Unit, targetHP: real)
  {
    targetHP <= me.health * WeakFactor
  }

  /** `shouldAttackTarget`: a weak target takes one attacker only; a strong one
      takes up to the required number, as long as the attackers' joint health
      stays below 1.5 times its own. */
  function ShouldAttack(me: Unit, allies: seq<Unit>, target: Mob): (r: bool)
    ensures Weak(me, target.health) ==> (r <==> |AlliesAttacking(me, allies, target.id)| == 0)
    ensures !Weak(me, target.health) ==>
      (r <==> |AlliesAttacking(me, allies, target.id)| < RequiredWarriors(target.health, me.health)
              && me.health + SumHealth(AlliesAttacking(me, allies, target.id)) < EnoughFactor * target.health)
  {
    var attacking := AlliesAttacking(me, allies, target.id);
    var allyCount := |attacking|;
    var total := me.health + SumHealth(attacking);
    if target.health <= me.health * WeakFactor then allyCount < 1
    else
      var required := RequiredWarriors(target.health, me.health);
      allyCount < required && total < target.health * EnoughFactor
  }

  /** With the attacker joining, a target never has more attackers than it
      needs: one for a weak target, at most three for a strong one. */
  lemma JoiningNeverOvercrowds(me: Unit, allies: seq<Unit>, target: Mob)
    requires ShouldAttack(me, allies, target)
    ensures Weak(me, target.health) ==> |AlliesAttacking(me, allies, target.id)| + 1 == 1
    ensures |AlliesAttacking(me, allies, target.id)| + 1 <= 3
  {
  }

  /** One more ally on the target never makes the attacker more willing to
      join. */
  lemma MoreAttackersNeverEncourage(me: Unit, allies: seq<Unit>, a: Unit, target: Mob)
    requires a.health >= 0.0
    requires ShouldAttack(me, allies + [a], target)
    ensures ShouldAttack(me, allies, target)
  {
    AttackersGrow(me, allies, a, target);
  }

  /** One more ally never lowers the count or the joint health of those
      already on the target. */
  lemma AttackersGrow(me: Unit, allies: seq<Unit>, a: Unit, target: Mob)
    requires a.health >= 0.0
    ensures var before := AlliesAttacking(me, allies, target.id);
            var after := AlliesAttacking(me, allies + [a], target.id);
      |before| <= |after| && SumHealth(before) <= SumHealth(after)
  {
    var p := (u: Unit) => AttacksTarget(me, u, target.id);
    var before := AlliesAttacking(me, allies, target.id);
    var after := AlliesAttacking(me, allies + [a], target.id);
    FilterSnoc(allies, a, p);
    if p(a) {
      assert after == before + [a];
      assert after[..|after| - 1] == before;
    } else {
      assert after == before;
    }
  }

  // ---------------------------------------------------------------- own targets

  function DistToMe(me: Unit): Mob -> int
  {
    (m: Mob) => DistSq(m.pos, me.pos)
  }

  /** The candidates, nearest first. */
  function CandidatesByDistance(me: Unit, mobs: seq<Mob>): (r: seq<Mob>)
    ensures SortedBy(r, DistToMe(me))
    ensures multiset(r) == multiset(Filter(mobs, (m: Mob) => IsCandidate(me, m)))
  {
    SortBy(Filter(mobs, (m: Mob) => IsCandidate(me, m)), DistToMe(me))
  }

  /** A candidate the attacker should take on. */
  predicate Worthwhile(me: Unit, allies: seq<Unit>, m: Mob)
  {
    IsCandidate(me, m) && ShouldAttack(me, allies, m)
  }

  /** `findClosestValidTarget`: the first candidate, nearest first, worth
      attacking. */
  function FindClosestValidTarget(me: Unit, mobs: seq<Mob>, allies: seq<Unit>): (r: Option<Mob>)
    ensures r.Some? ==> Worthwhile(me, allies, r.value)
  {
    var sorted := CandidatesByDistance(me, mobs);
    match FirstFrom(sorted, (m: Mob) => Worthwhile(me, allies, m), 0)
    case None => None
    case Some(i) => Some(sorted[i])
  }

  /** No target is found exactly when no mob is worth attacking; the target
      found is a mob from the list worth attacking, and none worth attacking is
      nearer. */
  lemma ClosestValidTargetIsNearest(me: Unit, mobs: seq<Mob>, allies: seq<Unit>)
    ensures var r := FindClosestValidTarget(me, mobs, allies);
      && (r.None? <==> forall i :: 0 <= i < |mobs| ==> !Worthwhile(me, allies, mobs[i]))
      && (r.Some? ==> r.value in mobs && Worthwhile(me, allies, r.value))
      && (r.Some? ==> forall i :: 0 <= i < |mobs| && Worthwhile(me, allies, mobs[i]) ==>
            DistSq(r.value.pos, me.pos) <= DistSq(mobs[i].pos, me.pos))
  {
    var cand := (m: Mob) => IsCandidate(me, m);
    var good := (m: Mob) => Worthwhile(me, allies, m);
    var sorted := CandidatesByDistance(me, mobs);
    var pick := FirstFrom(sorted, good, 0);
    forall i | 0 <= i < |mobs| && Worthwhile(me, allies, mobs[i])
      ensures pick.Some? && DistSq(sorted[pick.value].pos, me.pos) <= DistSq(mobs[i].pos, me.pos)
    {
      InSortedFilter(sorted, mobs, cand, mobs[i]);
      FirstOfSortedIsLeast(sorted, DistToMe(me), good, mobs[i]);
    }
    if pick.Some? {
      InSortedFilter(sorted, mobs, cand, sorted[pick.value]);
    }
  }

  // ---------------------------------------------------------------- helping allies

  /** `findAllyTargetToHelp`'s selector: another live warrior within 32 blocks
      whose target is alive. */
  predicate Helper(me: Unit, a: Unit)
  {
    a.alive && a.id != me.id && Near(me, a.pos, HelpSearchRange) && HasLiveTarget(a)
  }

  /** The ally's target has fewer attackers than the attacker's health says it
      needs. */
  predicate NeedsHelp(me: Unit, allies: seq<Unit>, a: Unit)
  {
    a.target.Some? &&
    |AlliesAttacking(me, allies, a.target.value.id)| < RequiredWarriors(a.target.value.health, me.health)
  }

  function AllyDist(me: Unit): Unit -> int
  {
    (a: Unit) => DistSq(a.pos, me.pos)
  }

  function HelpersByDistance(me: Unit, allies: seq<Unit>): (r: seq<Unit>)
    ensures SortedBy(r, AllyDist(me))
    ensures multiset(r) == multiset(Filter(allies, (a: Unit) => Helper(me, a)))
  {
    SortBy(Filter(allies, (a: Unit) => Helper(me, a)), AllyDist(me))
  }

  /** `findAllyTargetToHelp`: the target of the nearest ally whose target still
      needs attackers. */
  function FindAllyTargetToHelp(me: Unit, allies: seq<Unit>): (r: Option<Foe>)
    ensures r.Some? ==> r.value.alive
  {
    var sorted := HelpersByDistance(me, allies);
    match FirstFrom(sorted, (a: Unit) => NeedsHelp(me, allies, a), 0)
    case None => None
    case Some(i) =>
      assert sorted[i] in multiset(Filter(allies, (a: Unit) => Helper(me, a)));
      Some(sorted[i].target.value)
  }

  /** Help goes to nobody exactly when no ally in range needs it. */
  lemma AllyTargetNoneWhenNoNeed(me: Unit, allies: seq<Unit>)
    ensures FindAllyTargetToHelp(me, allies).None? <==>
      forall i :: 0 <= i < |allies| && Helper(me, allies[i]) ==> !NeedsHelp(me, allies, allies[i])
  {
    var helper := (a: Unit) => Helper(me, a);
    var needs := (a: Unit) => NeedsHelp(me, allies, a);
    var sorted := HelpersByDistance(me, allies);
    forall j | 0 <= j < |allies| && Helper(me, allies[j]) && NeedsHelp(me, allies, allies[j])
      ensures FirstFrom(sorted, needs, 0).Some?
    {
      InSortedFilter(sorted, allies, helper, allies[j]);
      FirstOfSortedIsLeast(sorted, AllyDist(me), needs, allies[j]);
    }
    if FindAllyTargetToHelp(me, allies).Some? {
      AllyTargetIsNearestInNeed(me, allies);
    }
  }

  /** Help, when given, goes to the target of an ally in range that needs it,
      and no ally that needs help is nearer. */
  lemma AllyTargetIsNearestInNeed(me: Unit, allies: seq<Unit>)
    requires FindAllyTargetToHelp(me, allies).Some?
    ensures exists i :: (0 <= i < |allies| && Helper(me, allies[i]) && NeedsHelp(me, allies, allies[i])
      && FindAllyTargetToHelp(me, allies).value == allies[i].target.value
      && (forall j :: 0 <= j < |allies| && Helper(me, allies[j]) && NeedsHelp(me, allies, allies[j]) ==>
           DistSq(allies[i].pos, me.pos) <= DistSq(allies[j].pos, me.pos)))
  {
    var helper := (a: Unit) => Helper(me, a);
    var needs := (a: Unit) => NeedsHelp(me, allies, a);
    var sorted := HelpersByDistance(me, allies);
    var pick := FirstFrom(sorted, needs, 0);
    var a := sorted[pick.value];
    InSortedFilter(sorted, allies, helper, a);
    var i :| 0 <= i < |allies| && allies[i] == a;
    forall j | 0 <= j < |allies| && Helper(me, allies[j]) && NeedsHelp(me, allies, allies[j])
      ensures DistSq(a.pos, me.pos) <= DistSq(allies[j].pos, me.pos)
    {
      InSortedFilter(sorted, allies, helper, allies[j]);
      FirstOfSortedIsLeast(sorted, AllyDist(me), needs, allies[j]);
    }
  }

  // ---------------------------------------------------------------- the goal

  /** `canUse`: the goal starts with the target chosen, own targets first. */
  function CanUse(me: Unit, mobs: seq<Mob>, allies: seq<Unit>): (r: Option<Foe>)
    ensures r.Some? ==> r.value.alive
  {
    match FindClosestValidTarget(me, mobs, allies)
    case Some(m) => Some(MobFoe(m))
    case None => FindAllyTargetToHelp(me, allies)
  }

  /** The goal stays idle exactly when no mob is worth attacking and no ally
      in range needs help, and it helps an ally only when no mob of its own is
      worth attacking. */
  lemma CanUseOwnTargetsFirst(me: Unit, mobs: seq<Mob>, allies: seq<Unit>)
    ensures var r := CanUse(me, mobs, allies);
      && (r.None? <==>
            (forall i :: 0 <= i < |mobs| ==> !Worthwhile(me, allies, mobs[i])) &&
            (forall i :: 0 <= i < |allies| && Helper(me, allies[i]) ==> !NeedsHelp(me, allies, allies[i])))
      && ((exists i :: 0 <= i < |mobs| && Worthwhile(me, allies, mobs[i])) ==>
            exists i :: 0 <= i < |mobs| && Worthwhile(me, allies, mobs[i]) && r == Some(MobFoe(mobs[i])))
  {
    ClosestValidTargetIsNearest(me, mobs, allies);
    AllyTargetNoneWhenNoNeed(me, allies);
    var own := FindClosestValidTarget(me, mobs, allies);
    if own.Some? {
      var i :| 0 <= i < |mobs| && mobs[i] == own.value;
    }
  }
}

=== FILE: territory.dfy ===
/** The territory economy and state machine: radius, point balance, reserve
    troops, the bounded activity log, the controlled-chunk square, recruitment,
    expansion, reserve reinforcement, persistence and the fixed tick schedule.

    The world is not part of this model. Troop counts that the source obtains
    by querying the level are parameters, and the spawn-point search is an
    oracle: `Some(p)` is the position it found, `None` means it gave up. */
module Territory {
  import opened Common

  const InitialRadius := 50
  const ExpansionStep := 10
  const MaxActiveTroops := 50
  const GuardCost := 50
  const KnightCost := 70
  const AutoRecruitThreshold := 150
  const ReserveFund := 250
  const LogCapacity := 50
  const ChunkSize := 16
  const MinRequiredTroops := 10
  /** Patrol radius a freshly recruited knight receives. */
  const RecruitPatrolRadius := 15

  datatype ChunkPos = ChunkPos(x: int, z: int)

  /** One line of the activity log, kept as the event it records rather than
      as the formatted text. */
  datatype LogEntry =
    | PointsGained(amount: int, reason: string)
    | Expanded(from: int, to: int)
    | KnightHiredToReserve(reserveNow: int)
    | ReserveKnightDeployed(reserveLeft: int)
    | GuardHired
    | KnightHired

  datatype Territory = Territory(
    name: string,
    center: Pos,
    radius: int,
    points: int,
    reserve: int,
    chunks: set<ChunkPos>,
    log: seq<LogEntry>
  )

  /** A unit the recruitment code has just placed in the world. Guards are
      anchored at their spawn point; knights patrol around the castle center. */
  datatype Spawn = Spawn(role: Role, pos: Pos, anchor: Anchor, patrolRadius: int)

  // ---------------------------------------------------------------- chunks

  /** The chunk holding a block: block coordinates floor-divided by 16. */
  function ChunkOf(p: Pos): (c: ChunkPos)
    ensures c.x * ChunkSize <= p.x < c.x * ChunkSize + ChunkSize
    ensures c.z * ChunkSize <= p.z < c.z * ChunkSize + ChunkSize
  {
    ChunkPos(p.x / ChunkSize, p.z / ChunkSize)
  }

  /** How many chunks the controlled square reaches out from the center chunk. */
  function ChunkRadius(radius: int): int
  {
    JavaDiv(radius, ChunkSize)
  }

  function Row(xlo: int, xhi: int, z: int): (r: set<ChunkPos>)
    ensures forall c :: c in r <==> xlo <= c.x <= xhi && c.z == z
    ensures |r| == if xlo <= xhi then xhi - xlo + 1 else 0
    decreases xhi - xlo
  {
    if xlo > xhi then {}
    else
      var rest := Row(xlo + 1, xhi, z);
      assert ChunkPos(xlo, z) !in rest;
      {ChunkPos(xlo, z)} + rest
  }

  function Grid(xlo: int, xhi: int, zlo: int, zhi: int): (r: set<ChunkPos>)
    requires xlo <= xhi
    ensures forall c :: c in r <==> xlo <= c.x <= xhi && zlo <= c.z <= zhi
    ensures |r| == if zlo <= zhi then (xhi - xlo + 1) * (zhi - zlo + 1) else 0
    decreases zhi - zlo
  {
    if zlo > zhi then {}
    else
      var row := Row(xlo, xhi, zlo);
      var rest := Grid(xlo, xhi, zlo + 1, zhi);
      assert row !! rest;
      row + rest
  }

  /** The chunk square `updateControlledChunks` builds: every chunk within
      `radius / 16` chunks of the center chunk along both axes. */
  function ControlledChunks(center: Pos, radius: int): set<ChunkPos>
  {
    var k := ChunkRadius(radius);
    var cc := ChunkOf(center);
    if k < 0 then {} else Grid(cc.x - k, cc.x + k, cc.z - k, cc.z + k)
  }

  /** The controlled chunks are exactly the `(2k + 1)^2` chunks of the square
      of half-width `k = radius / 16` around the center chunk. */
  lemma ControlledChunksSquare(center: Pos, radius: int)
    ensures var r := ControlledChunks(center, radius);
            var k := ChunkRadius(radius);
            var cc := ChunkOf(center);
      && (forall c :: c in r <==> cc.x - k <= c.x <= cc.x + k && cc.z - k <= c.z <= cc.z + k)
      && (k >= 0 ==> |r| == (2 * k + 1) * (2 * k + 1))
      && (k < 0 ==> r == {})
  {
  }

  /** The standing invariant: the chunk set is the square for the current radius. */
  predicate Valid(t: Territory)
  {
    t.chunks == ControlledChunks(t.center, t.radius)
  }

  /** Recomputing the chunk set twice gives the same set as recomputing it once. */
  lemma ControlledChunksIdempotent(t: Territory)
    ensures var once := t.(chunks := ControlledChunks(t.center, t.radius));
            once.(chunks := ControlledChunks(once.center, once.radius)) == once
  {
  }

  /** A larger non-negative radius controls every chunk a smaller one does. */
  lemma {:induction false} ControlledChunksGrow(center: Pos, r1: int, r2: int)
    requires 0 <= r1 <= r2
    ensures ControlledChunks(center, r1) <= ControlledChunks(center, r2)
  {
    assert ChunkRadius(r1) <= ChunkRadius(r2) by {
      assert r1 / ChunkSize <= r2 / ChunkSize;
    }
    ControlledChunksSquare(center, r1);
    ControlledChunksSquare(center, r2);
  }

  // ---------------------------------------------------------------- log

  /** Appends an entry and drops the oldest one when the log grew past 50. */
  function AddLog(log: seq<LogEntry>, e: LogEntry): (r: seq<LogEntry>)
    ensures |r| == if |log| < LogCapacity then |log| + 1 else |log|
    ensures r[|r| - 1] == e
  {
    var grown := log + [e];
    if |grown| > LogCapacity then grown[1..] else grown
  }

  /** The last `LogCapacity` elements of `s` (all of them when there are fewer). */
  function Newest(s: seq<LogEntry>): (r: seq<LogEntry>)
  {
    if |s| <= LogCapacity then s else s[|s| - LogCapacity..]
  }

  /** Appending to a log of at most 50 entries keeps the newest 50 entries. */
  lemma AddLogIsNewest(log: seq<LogEntry>, e: LogEntry)
    requires |log| <= LogCapacity
    ensures AddLog(log, e) == Newest(log + [e])
  {
  }

  function AddLogs(log: seq<LogEntry>, es: seq<LogEntry>): seq<LogEntry>
    decreases |es|
  {
    if |es| == 0 then log else AddLogs(AddLog(log, es[0]), es[1..])
  }

  /** Starting from a log of at most 50 entries, any run of appends leaves
      exactly the newest 50 entries of everything logged, oldest first. */
  lemma {:induction false} AddLogsKeepsNewest(log: seq<LogEntry>, es: seq<LogEntry>)
    requires |log| <= LogCapacity
    ensures AddLogs(log, es) == Newest(log + es)
    ensures |AddLogs(log, es)| <= LogCapacity
    decreases |es|
  {
    if |es| == 0 {
      assert log + es == log;
    } else {
      var e := es[0];
      var next := AddLog(log, e);
      assert AddLogs(log, es) == AddLogs(next, es[1..]);
      AddLogIsNewest(log, e);
      AddLogsKeepsNewest(next, es[1..]);
      NewestOfNewest(log + [e], es[1..]);
      assert (log + [e]) + es[1..] == log + es;
    }
  }

  /** Trimming to the newest entries early does not change the final trim. */
  lemma NewestOfNewest(a: seq<LogEntry>, b: seq<LogEntry>)
    ensures Newest(Newest(a) + b) == Newest(a + b)
  {
    if |a| > LogCapacity {
      var k := |a| - LogCapacity;
      assert a + b == a[..k] + (a[k..] + b);
      NewestDropsPrefix(a[..k], a[k..] + b);
    }
  }

  lemma NewestDropsPrefix(p: seq<LogEntry>, q: seq<LogEntry>)
    requires |q| >= LogCapacity
    ensures Newest(p + q) == Newest(q)
  {
    var n := |p + q| - LogCapacity;
    assert (p + q)[n..] == q[|q| - LogCapacity..];
  }

  // ---------------------------------------------------------------- founding

  /** A newly founded territory. */
  function New(center: Pos, name: string): (t: Territory)
    ensures t.radius == 50 && t.points == 0 && t.reserve == 0 && t.log == []
    ensures t.center == center && t.name == name
    ensures |t.chunks| == 49
    ensures Valid(t)
  {
    ControlledChunksSquare(center, InitialRadius);
    Territory(name, center, InitialRadius, 0, 0, ControlledChunks(center, InitialRadius), [])
  }

  function AddPoints(t: Territory, amount: int, reason: string): (r: Territory)
    ensures r.points == t.points + amount
    ensures r.log == AddLog(t.log, PointsGained(amount, reason))
    ensures r.(points := t.points, log := t.log) == t
  {
    t.(points := t.points + amount, log := AddLog(t.log, PointsGained(amount, reason)))
  }

  // ---------------------------------------------------------------- expansion

  /** Troops needed before expanding: one per ten blocks of radius, at least ten. */
  function RequiredTroops(radius: int): (n: int)
    ensures n >= MinRequiredTroops
    ensures radius >= 0 ==> n * 10 + 10 > radius
    ensures n == MinRequiredTroops || n * 10 <= radius
  {
    Max(MinRequiredTroops, JavaDiv(radius, 10))
  }

  function ExpansionCost(radius: int): int
  {
    100 + 2 * radius
  }

  /** Whether `expandTerritory` fires for `living` troops in the territory. */
  predicate CanExpand(t: Territory, living: int)
  {
    living >= RequiredTroops(t.radius) && t.points >= ExpansionCost(t.radius) + ReserveFund
  }

  /** `expandTerritory`. The cost is charged after the radius has grown, so the
      deduction is the checked cost plus 20 and the balance can end at 230,
      below the 250 reserve the gate meant to keep. */
  function Expand(t: Territory, living: int): (r: Territory)
    ensures !CanExpand(t, living) ==> r == t
    ensures CanExpand(t, living) ==>
      && r.radius == t.radius + ExpansionStep
      && r.points == t.points - ExpansionCost(t.radius) - 20
      && r.points >= ReserveFund - 20
      && r.chunks == ControlledChunks(t.center, r.radius)
      && r.log == AddLog(t.log, Expanded(t.radius, r.radius))
      && r.(radius := t.radius, points := t.points, chunks := t.chunks, log := t.log) == t
    ensures Valid(t) ==> Valid(r)
  {
    if living < RequiredTroops(t.radius) then t
    else if t.points >= ExpansionCost(t.radius) + ReserveFund then
      var grown := t.radius + ExpansionStep;
      t.(radius := grown,
         points := t.points - ExpansionCost(grown),
         chunks := ControlledChunks(t.center, grown),
         log := AddLog(t.log, Expanded(t.radius, grown)))
    else t
  }

  /** With the smallest balance the gate admits, expansion leaves 230 points. */
  lemma ExpandDipsBelowReserve()
    ensures var t := Territory("k", Pos(0, 64, 0), 50, 450, 0, {}, []);
            CanExpand(t, 10) && Expand(t, 10).points == 230 && Expand(t, 10).points < ReserveFund
  {
    var t := Territory("k", Pos(0, 64, 0), 50, 450, 0, {}, []);
    assert RequiredTroops(50) == 10;
    assert CanExpand(t, 10);
  }

  // ---------------------------------------------------------------- membership

  /** `isInTerritory`: within `radius` blocks of the center (squared 3D distance). */
  predicate IsInTerritory(t: Territory, p: Pos)
  {
    DistSq(p, t.center) <= t.radius * t.radius
  }

  /** Expansion never drops a position from the territory. */
  lemma {:induction false} ExpandKeepsMembers(t: Territory, living: int, p: Pos)
    requires t.radius >= 0
    requires IsInTerritory(t, p)
    ensures IsInTerritory(Expand(t, living), p)
    ensures Valid(t) ==> t.chunks <= Expand(t, living).chunks
  {
    var r := Expand(t, living);
    if CanExpand(t, living) {
      assert r.center == t.center && r.radius == t.radius + ExpansionStep;
      SquareGrows(DistSq(p, t.center), t.radius, r.radius);
      if Valid(t) {
        ControlledChunksGrow(t.center, t.radius, r.radius);
      }
    } else {
      assert r == t;
    }
  }

  lemma SquareGrows(d: int, a: int, b: int)
    requires 0 <= a <= b && d <= a * a
    ensures d <= b * b
  {
    assert a * a <= a * b <= b * b;
  }

  // ---------------------------------------------------------------- recruitment

  function RecruitGuard(t: Territory, spawn: Option<Pos>): (r: (Territory, Option<Spawn>))
    ensures spawn.None? ==> r == (t, None)
    ensures spawn.Some? ==>
      && r.0.points == t.points - GuardCost
      && r.0.log == AddLog(t.log, GuardHired)
      && r.0.(points := t.points, log := t.log) == t
      && r.1 == Some(Spawn(Guard, spawn.value, Spot(spawn.value), 0))
  {
    match spawn
    case None => (t, None)
    case Some(p) =>
      (t.(points := t.points - GuardCost, log := AddLog(t.log, GuardHired)),
       Some(Spawn(Guard, p, Spot(p), 0)))
  }

  /** `recruitKnight`: charges 70 points whenever a spawn point was found,
      without looking at the balance. */
  function RecruitKnight(t: Territory, spawn: Option<Pos>): (r: (Territory, Option<Spawn>))
    ensures spawn.None? ==> r == (t, None)
    ensures spawn.Some? ==>
      && r.0.points == t.points - KnightCost
      && r.0.log == AddLog(t.log, KnightHired)
      && r.0.(points := t.points, log := t.log) == t
      && r.1 == Some(Spawn(Knight, spawn.value, Spot(t.center), RecruitPatrolRadius))
  {
    match spawn
    case None => (t, None)
    case Some(p) =>
      (t.(points := t.points - KnightCost, log := AddLog(t.log, KnightHired)),
       Some(Spawn(Knight, p, Spot(t.center), RecruitPatrolRadius)))
  }

  /** What `checkRecruitment` decides to do. */
  datatype Hire = NoHire | HireToReserve | HireKnight | HireGuard

  function RecruitmentChoice(t: Territory, active: int, knights: int, guards: int): (h: Hire)
    ensures h == HireToReserve <==>
      active >= MaxActiveTroops && active + t.reserve < RequiredTroops(t.radius)
      && t.points >= KnightCost + ReserveFund
    ensures h == HireKnight ==> active < MaxActiveTroops && t.points >= KnightCost + ReserveFund
    ensures h == HireGuard ==> active < RequiredTroops(t.radius) && t.points >= GuardCost + ReserveFund
  {
    var required := RequiredTroops(t.radius);
    var targetKnights := JavaDiv(4 * required, 5);
    var targetGuards := required - targetKnights;
    if active >= MaxActiveTroops then
      if active + t.reserve < required && t.points >= KnightCost + ReserveFund then HireToReserve
      else NoHire
    else if active < required && knights < targetKnights && t.points >= KnightCost + ReserveFund then
      HireKnight
    else if active < required && guards < targetGuards && t.points >= GuardCost + ReserveFund then
      HireGuard
    else if active < required && knights < targetKnights then
      NoHire
    else if active < required && guards < targetGuards then
      NoHire
    else if t.points >= AutoRecruitThreshold + ReserveFund
         && 5 * knights < 6 * required && t.points >= KnightCost + ReserveFund then
      HireKnight
    else NoHire
  }

  /** `checkRecruitment`: every charge leaves at least the 250-point reserve,
      and the reserve counter only grows on the at-cap path. */
  function CheckRecruitment(t: Territory, active: int, knights: int, guards: int, spawn: Option<Pos>)
    : (r: (Territory, Option<Spawn>))
    ensures r.0.reserve == t.reserve + 1 <==>
      active >= MaxActiveTroops && active + t.reserve < RequiredTroops(t.radius)
      && t.points >= KnightCost + ReserveFund
    ensures r.0.reserve == t.reserve || r.0.reserve == t.reserve + 1
    ensures r.0.reserve == t.reserve + 1 ==> r.0.points == t.points - KnightCost && r.1.None?
    ensures r.0.points == t.points || r.0.points == t.points - GuardCost || r.0.points == t.points - KnightCost
    ensures r.0.points < t.points ==> r.0.points >= ReserveFund
    ensures r.1.Some? ==> active < MaxActiveTroops && r.0.points < t.points
    ensures r.0.radius == t.radius && r.0.center == t.center && r.0.chunks == t.chunks
  {
    match RecruitmentChoice(t, active, knights, guards)
    case NoHire => (t, None)
    case HireToReserve =>
      var reserve := t.reserve + 1;
      (t.(points := t.points - KnightCost, reserve := reserve,
          log := AddLog(t.log, KnightHiredToReserve(reserve))), None)
    case HireKnight => RecruitKnight(t, spawn)
    case HireGuard => RecruitGuard(t, spawn)
  }

  /** `checkReinforcements` as the source writes it: once a reserve knight is
      due, the counter drops by one whether or not a spawn point was found, and
      a knight that is found is charged a second time, with no balance check. */
  function CheckReinforcementsAsWritten(t: Territory, active: int, spawn: Option<Pos>)
    : (r: (Territory, Option<Spawn>))
    ensures t.reserve == 0 ==> r == (t, None)
    ensures t.reserve != 0 && active < MaxActiveTroops && active < RequiredTroops(t.radius) ==>
      && r.0.reserve == t.reserve - 1
      && r.0.points == (if spawn.Some? then t.points - KnightCost else t.points)
      && (r.1.Some? <==> spawn.Some?)
    ensures !(t.reserve != 0 && active < MaxActiveTroops && active < RequiredTroops(t.radius)) ==> r == (t, None)
  {
    if t.reserve == 0 then (t, None)
    else if active < MaxActiveTroops && active < RequiredTroops(t.radius) then
      var (hired, unit) := RecruitKnight(t, spawn);
      var reserve := hired.reserve - 1;
      (hired.(reserve := reserve, log := AddLog(hired.log, ReserveKnightDeployed(reserve))), unit)
    else (t, None)
  }

  /** A failed spawn still consumes a reserve knight, and a successful one
      charges an already paid-for knight again, driving the balance negative. */
  lemma ReinforcementLosesReserveAndOvercharges()
    ensures var t := Territory("k", Pos(0, 64, 0), 50, 0, 1, {}, []);
            && CheckReinforcementsAsWritten(t, 0, None).0.reserve == 0
            && CheckReinforcementsAsWritten(t, 0, None).1 == None
            && CheckReinforcementsAsWritten(t, 0, Some(Pos(20, 64, 0))).0.points == -70
  {
    assert RequiredTroops(50) == 10;
  }

  /** Reserve reinforcement as evidently intended: a reserve knight was paid
      for when it was hired, so deploying it is free, and the counter drops
      exactly when the knight actually appears. */
  function CheckReinforcements(t: Territory, active: int, spawn: Option<Pos>)
    : (r: (Territory, Option<Spawn>))
    ensures r.0.points == t.points
    ensures r.0.reserve == t.reserve - 1 <==>
      t.reserve != 0 && active < MaxActiveTroops && active < RequiredTroops(t.radius) && spawn.Some?
    ensures r.0.reserve == t.reserve - 1 <==> r.1.Some?
    ensures r.0.reserve == t.reserve || r.0.reserve == t.reserve - 1
    ensures t.reserve >= 0 ==> r.0.reserve >= 0
  {
    if t.reserve == 0 then (t, None)
    else if active < MaxActiveTroops && active < RequiredTroops(t.radius) then
      match spawn
      case None => (t, None)
      case Some(p) =>
        var reserve := t.reserve - 1;
        (t.(reserve := reserve, log := AddLog(AddLog(t.log, KnightHired), ReserveKnightDeployed(reserve))),
         Some(Spawn(Knight, p, Spot(t.center), RecruitPatrolRadius)))
    else (t, None)
  }

  // ---------------------------------------------------------------- persistence

  /** The stored form of a territory: the fields `save` writes. */
  datatype Saved = Saved(
    name: string,
    centerX: int, centerY: int, centerZ: int,
    radius: int, points: int, reserveTroops: int,
    log: seq<LogEntry>
  )

  function Save(t: Territory): Saved
  {
    Saved(t.name, t.center.x, t.center.y, t.center.z, t.radius, t.points, t.reserve, t.log)
  }

  /** `load`: found a territory at the stored center, overwrite its numbers,
      append the stored log, and recompute the chunk set for the stored radius. */
  function Load(s: Saved): (t: Territory)
    ensures Valid(t)
  {
    var founded := New(Pos(s.centerX, s.centerY, s.centerZ), s.name);
    var restored := founded.(radius := s.radius, points := s.points, reserve := s.reserveTroops,
                           log := founded.log + s.log);
    restored.(chunks := ControlledChunks(restored.center, restored.radius))
  }

  /** Saving and loading keeps every stored field and rebuilds the chunk set;
      a territory that keeps its invariant comes back unchanged. */
  lemma SaveLoadRoundTrip(t: Territory)
    ensures var back := Load(Save(t));
            && back.name == t.name && back.center == t.center && back.radius == t.radius
            && back.points == t.points && back.reserve == t.reserve && back.log == t.log
            && back.chunks == ControlledChunks(t.center, t.radius)
    ensures Valid(t) ==> Load(Save(t)) == t
  {
    var founded := New(Pos(t.center.x, t.center.y, t.center.z), t.name);
    assert founded.log == [] && founded.center == t.center;
    assert founded.log + t.log == t.log;
    assert Load(Save(t)) == t.(chunks := ControlledChunks(t.center, t.radius));
  }

  // ---------------------------------------------------------------- schedule

  /** The gate every periodic step uses: `now - last >= interval`. */
  predicate Due(last: int, now: int, interval: int)
  {
    now - last >= interval
  }

  const AIInterval := 40
  const RecruitInterval := 100
  const ReinforcementInterval := 40

  /** The timers `tick` keeps. */
  datatype Schedule = Schedule(ticks: int, lastAIUpdate: int, lastRecruitmentCheck: int, lastReinforcementCheck: int)

  /** The steps of one territory tick, named after the work they hand off. */
  datatype Step =
    | CheckReturnees        // revenge: sweep memory and dispatch squads
    | IncomeTick            // passive income counter
    | EvaluateAI            // threat assessment and troop management
    | ScanTerritory         // surface scan and nearest-troop assignment
    | SmartRecruit          // recruitment decision table
    | ExpandIfAdvised       // expansion when the AI advises it
    | ReinforceFromReserve  // reserve reinforcement

  /** One call of `tick` at game time `now`: the updated timers and the steps
      that run, in order. */
  function TickPlan(s: Schedule, now: int): (r: (Schedule, seq<Step>))
    ensures |r.1| >= 2 && r.1[0] == CheckReturnees && r.1[1] == IncomeTick
    ensures EvaluateAI in r.1 <==> Due(s.lastAIUpdate, now, AIInterval)
    ensures ScanTerritory in r.1 <==> Due(s.lastAIUpdate, now, AIInterval)
    ensures SmartRecruit in r.1 <==> Due(s.lastRecruitmentCheck, now, RecruitInterval)
    ensures ExpandIfAdvised in r.1 <==> Due(s.lastRecruitmentCheck, now, RecruitInterval)
    ensures ReinforceFromReserve in r.1 <==> Due(s.lastReinforcementCheck, now, ReinforcementInterval)
    ensures r.0.ticks == s.ticks + 1
    ensures r.0.lastAIUpdate == if Due(s.lastAIUpdate, now, AIInterval) then now else s.lastAIUpdate
    ensures r.0.lastRecruitmentCheck ==
      if Due(s.lastRecruitmentCheck, now, RecruitInterval) then now else s.lastRecruitmentCheck
    ensures r.0.lastReinforcementCheck ==
      if Due(s.lastReinforcementCheck, now, ReinforcementInterval) then now else s.lastReinforcementCheck
  {
    var ai := Due(s.lastAIUpdate, now, AIInterval);
    var recruit := Due(s.lastRecruitmentCheck, now, RecruitInterval);
    var reinforce := Due(s.lastReinforcementCheck, now, ReinforcementInterval);
    var steps :=
      [CheckReturnees, IncomeTick]
      + (if ai then [EvaluateAI, ScanTerritory] else [])
      + (if recruit then [SmartRecruit, ExpandIfAdvised] else [])
      + (if reinforce then [ReinforceFromReserve] else []);
    (Schedule(s.ticks + 1,
              if ai then now else s.lastAIUpdate,
              if recruit then now else s.lastRecruitmentCheck,
              if reinforce then now else s.lastReinforcementCheck),
     steps)
  }

  /** The steps that run keep the fixed order of `tick`: each one ranks after
      the one before it. */
  lemma TickPlanInOrder(s: Schedule, now: int)
    ensures var steps := TickPlan(s, now).1;
      forall i :: 0 < i < |steps| ==> StepRank(steps[i - 1]) < StepRank(steps[i])
  {
  }

  /** Position of each step in the fixed order of `tick`. */
  function StepRank(s: Step): int
  {
    match s
    case CheckReturnees => 0
    case IncomeTick => 1
    case EvaluateAI => 2
    case ScanTerritory => 3
    case SmartRecruit => 4
    case ExpandIfAdvised => 5
    case ReinforceFromReserve => 6
  }

  /** How often a gate `now - last >= interval` opens over `k` consecutive
      game ticks starting at `now`, resetting `last` whenever it opens. */
  function Firings(last: int, now: int, k: nat, interval: int): nat
    decreases k
  {
    if k == 0 then 0
    else if Due(last, now, interval) then 1 + Firings(now, now + 1, k - 1, interval)
    else Firings(last, now + 1, k - 1, interval)
  }

  /** Ticks until the gate next opens. */
  function Wait(last: int, now: int, interval: int): int
  {
    if Due(last, now, interval) then 0 else interval - (now - last)
  }

  /** With one call per game tick, a gate of interval `n` opens at the first due
      tick and then exactly every `n` ticks: over `k` ticks it opens
      ceil((k - wait) / n) times, stated without division. */
  lemma {:induction false} FiringsCadence(last: int, now: int, k: nat, interval: int)
    requires interval > 0 && last <= now
    ensures var w := Wait(last, now, interval);
            var f := Firings(last, now, k, interval);
            && (k <= w ==> f == 0)
            && (k > w ==> (f - 1) * interval < k - w <= f * interval)
    decreases k
  {
    if k > 0 {
      if Due(last, now, interval) {
        FiringsCadence(now, now + 1, k - 1, interval);
        var f' := Firings(now, now + 1, k - 1, interval);
        assert Wait(now, now + 1, interval) == interval - 1;
        assert (f' + 1) * interval == f' * interval + interval;
        assert f' * interval == (f' - 1) * interval + interval;
      } else {
        FiringsCadence(last, now + 1, k - 1, interval);
      }
    }
  }
}
